=== FILE: README.md ===
# Tatakai core in Dafny

A Dafny model of the logic at the heart of Tatakai, an anime streaming client with a
web/TV front end and a React Native mobile app. The model covers three areas.

- **TV navigation (web app).**
  - `ReactTV` is the spatial focus engine of `ReactTVProvider`:
    - element and group registries;
    - focusing and selecting;
    - the three-stage `moveFocus`: group-local step, then section jump, then nearest
      element by centre distance;
    - the key handler, the initial focus, and the scroll targets.
  - `NavProvider` is the older `NavigationProvider`:
    - registration with delayed first focus;
    - the directional score `gap + 0.1 * offset` with first-lowest choice;
    - the 100 ms navigation lock and the key handler.
  - `HorizontalList` and `Focusable` are the container and element bindings.
  - `TVHome` is the simple TV home page's index navigation.
  - `ScreenDetection` is the device classifier.
- **Mobile app.**
  - `WatchStore`: watch history and watchlist.
  - `DownloadStore`: the download list, its status machine and the per-series summary.
  - `DownloadService`: file names, server and source choice, start guards and outcome,
    queue, pause/cancel and stats.
  - `WatchScreen`: episode-id parsing, neighbours, skip windows, seeking, time labels,
    server list and player source.
  - `AuthScreen`: the sign-in / sign-up form.
  - `Api`: server names, preferred server and skip-time parsing.
- **Community page (web app).** `Community` models:
  - loading public playlists with their owners' profiles;
  - the search filter;
  - the 'All' tab.

Helper modules:
- `Wrappers`: `Option` and `Result`.
- `Seqs`: filter, find, count, take, dedup.
- `Text`: substring test, ASCII lower-casing, trimming, decimal numerals.
- `OrderedMap`: a JavaScript `Map`, keys kept in insertion order.

Modelling choices:
- **Pure functions.**
  - Every React state update is a pure function from the old state to the new.
  - Timers become explicit steps: the navigation lock's `Release`, and `DelayedInitialFocus`.
  - Whatever comes from outside is a parameter: network replies, the clock, generated ids,
    measured rectangles.
- **Maps and insertion order.** JavaScript `Map`s are ordered association lists, because
  iteration order decides tie-breaks and the initial focus.
- **Distances and scores stay in integers.**
  - The centre distance of `ReactTV` is compared as four times the squared Euclidean
    distance. This orders candidates exactly as the source's square root does.
  - `NavProvider`'s score is scaled by ten. `ScoreScaled` proves that this keeps its sign
    and its order over exact arithmetic.
- **Other arithmetic.**
  - Skip windows, seeks and scroll targets use `real`.
  - Screen and list geometry uses `int`.

Behaviours of the code that the model keeps as written:
- `ReactTV`'s `unregisterElement` leaves a dangling focus id.
- `HorizontalList` registers a group with no members, so the group-local step never fires
  for list items.
- The download manager's `processQueue` can start more downloads than its limit of three.
- `NavigationProvider`'s delayed first focus can land on an element that has since been
  unregistered, and can take focus back from an element the user focused meanwhile.

## Model

| member | source | states |
|---|---|---|
| ReactTV.Init | tatakai-app/src/components/tv/ReactTVProvider.tsx:58-62 | The provider mounts with nothing focused, not yet initialised, and its registries well formed. |
| ReactTV.RegisterElementSpec | tatakai-app/src/components/tv/ReactTVProvider.tsx:64-70 | Registering is an upsert: the id maps to the new element, every other id keeps its entry, and focus and groups are untouched. |
| ReactTV.UnregisterElementSpec | tatakai-app/src/components/tv/ReactTVProvider.tsx:72-78 | Unregistering removes exactly that id (nothing when absent) and leaves the focus id untouched, so it may name a removed element. |
| ReactTV.GroupRegistrySpec | tatakai-app/src/components/tv/ReactTVProvider.tsx:80-94 | Group registration and removal act on the one group id only and keep the registry well formed. |
| ReactTV.FocusElementSpec | tatakai-app/src/components/tv/ReactTVProvider.tsx:96-112 | Focus moves exactly when the target is registered and enabled; nothing but the focus changes; blur fires only for the registered old focus and only together with a focus change. |
| ReactTV.SelectCurrentSpec | tatakai-app/src/components/tv/ReactTVProvider.tsx:305-314 | Select fires exactly for a focused, registered, enabled element, and it is the focused one (how often its handler then runs: Focusable.EnterSelectsTwice). |
| ReactTV.CenterDistance | tatakai-app/src/components/tv/ReactTVProvider.tsx:180-184 | The integer distance is non-negative and is four times the squared Euclidean distance of the centres, so it orders pairs like the source's distance. |
| ReactTV.BestIndex | tatakai-app/src/components/tv/ReactTVProvider.tsx:187-224 | No index exactly when no element lies in the direction; otherwise an eligible element at minimal distance that beats every earlier one strictly. |
| ReactTV.FindBestCandidateSpec | tatakai-app/src/components/tv/ReactTVProvider.tsx:187-224 | The global candidate is a different, enabled element in the requested direction at minimal centre distance, the first such in registry order. |
| ReactTV.NextIndexSpec | tatakai-app/src/components/tv/ReactTVProvider.tsx:236-263 | Horizontal groups handle only Left/Right, vertical ones only Up/Down, unset or grid ones nothing; a step moves by one, and past an end it wraps only when wrap-around is on, else falls through. |
| ReactTV.GroupTargetSpec | tatakai-app/src/components/tv/ReactTVProvider.tsx:234-267 | A group target exists only when the focus is an enabled member, and it is the enabled member at the next index. |
| ReactTV.GroupStepSpec | tatakai-app/src/components/tv/ReactTVProvider.tsx:232-267 | The group-local step fires only for an element in a registered group, between enabled members of that group. |
| ReactTV.SectionStepSpec | tatakai-app/src/components/tv/ReactTVProvider.tsx:269-297 | A section jump happens only for Up/Down from an element in a section, to the first id of the section below or above. |
| ReactTV.MoveFocusFrame | tatakai-app/src/components/tv/ReactTVProvider.tsx:226-231 | Without a registered focus, moving does nothing; a move changes only the focus id. |
| ReactTV.MoveFocusStages | tatakai-app/src/components/tv/ReactTVProvider.tsx:232-297 | A focusable group target wins; only when the group step falls through does a focusable section target win. |
| ReactTV.MoveFocusGlobal | tatakai-app/src/components/tv/ReactTVProvider.tsx:298-303 | When neither group nor section applies, focus goes to the nearest candidate in the direction, or stays. |
| ReactTV.MoveFocusTargetsFocusable | tatakai-app/src/components/tv/ReactTVProvider.tsx:226-303 | Whenever a move changes the focus, the new focus is a registered, enabled element. |
| ReactTV.HandleKeySpec | tatakai-app/src/components/tv/ReactTVProvider.tsx:316-346 | Only arrows move focus, onto a focusable element; only Enter and Space select, firing the focused focusable element; nothing else changes. |
| ReactTV.InitialFocusSpec | tatakai-app/src/components/tv/ReactTVProvider.tsx:348-356 | The initial focus fires at most once: to the designated id when it is focusable, else (with no designated id) to the first registered key. A designated id that is not registered gets no fallback, so the effect waits for a later registration. A registered but disabled target marks the effect done with the focus unchanged. Any focus it sets is focusable, and a second application changes nothing. |
| ReactTV.DisabledInitialFocusStrands | tatakai-app/src/components/tv/ReactTVProvider.tsx:348-356 | From a state with nothing focused, a disabled initial target leaves the provider initialised with nothing focused; the effect never fires again and every arrow move leaves the state unchanged, since `moveFocus` returns at once when nothing is focused (line 227). |
| ReactTV.SetInitialFocusSpec | tatakai-app/src/components/tv/ReactTVProvider.tsx:172-178 | The id is always recorded; focus moves to it only when nothing was focused and it is registered and enabled. |
| ReactTV.ListScrollTarget | tatakai-app/src/components/tv/ReactTVProvider.tsx:113-135 | The offset centres the item (its extent plus the 16px gap, at its index) in the container, or is 0 when centring would scroll before the start. |
| ReactTV.PageScrollTarget | tatakai-app/src/components/tv/ReactTVProvider.tsx:139-160 | The offset puts the section 10% of the viewport below the top, or centres it when it is shorter than 80% of the viewport; an ideal offset at or below 0, or a page shorter than the viewport, gives 0, and one beyond the scrollable range gives its end. |
| NavProvider.Init | tatakai-app/src/components/tv/NavigationProvider.tsx:47-49 | The provider mounts unlocked, with nothing focused and a well-formed registry. |
| NavProvider.RegisterElementSpec | tatakai-app/src/components/tv/NavigationProvider.tsx:51-70 | Registering is an upsert keyed by the id; other ids, the focus and the lock are untouched, and a registered focus stays registered. |
| NavProvider.UnregisterElementSpec | tatakai-app/src/components/tv/NavigationProvider.tsx:72-82 | Unregistering removes exactly the id and clears the focus exactly when it was that id. |
| NavProvider.DelayedInitialFocusSpec | tatakai-app/src/components/tv/NavigationProvider.tsx:66-69 | The timer sets the focus to the id without checking it; afterwards the focus is registered exactly when the id still is. |
| NavProvider.DelayedInitialFocusMayDangle | tatakai-app/src/components/tv/NavigationProvider.tsx:66-82 | Registering, unregistering and then running the delayed step leaves the focus on an id that is no longer registered. |
| NavProvider.FocusElementSpec | tatakai-app/src/components/tv/NavigationProvider.tsx:84-111 | Focusing an unregistered id changes nothing; otherwise only the focus changes, to the id; the old focus is blurred only when it differs from the target. |
| NavProvider.SelectCurrentSpec | tatakai-app/src/components/tv/NavigationProvider.tsx:192-198 | Select fires exactly for a registered focus that has a handler. |
| NavProvider.ScoreScaled | tatakai-app/src/components/tv/NavigationProvider.tsx:131-148 | The integer score is ten times `gap + 0.1 * offset` computed exactly, so it has the same sign and orders candidates as the exact score does. |
| NavProvider.FirstLowest | tatakai-app/src/components/tv/NavigationProvider.tsx:150-157 | The head after the stable sort: none exactly for no candidates, otherwise a candidate whose score no candidate beats. |
| NavProvider.FirstBestSpec | tatakai-app/src/components/tv/NavigationProvider.tsx:120-157 | The reference index is -1 exactly when no element is a candidate; otherwise a candidate of minimal score strictly better than every earlier candidate. |
| NavProvider.FilterThenLowest | tatakai-app/src/components/tv/NavigationProvider.tsx:120-157 | Filtering the candidates and then taking the first lowest picks the element at the reference index. |
| NavProvider.FindNextIsFirstBest | tatakai-app/src/components/tv/NavigationProvider.tsx:113-158 | With a registered focus, findNextElement returns the element at the reference index, over the registry's values in insertion order. |
| NavProvider.FindNextWithoutFocus | tatakai-app/src/components/tv/NavigationProvider.tsx:113-117 | Without a focus, or with an unregistered one, there is no next element. |
| NavProvider.FindNextRegistered | tatakai-app/src/components/tv/NavigationProvider.tsx:120-157 | A found next element is registered and is never the current focus. |
| NavProvider.MoveSpec | tatakai-app/src/components/tv/NavigationProvider.tsx:160-190 | While locked a move does nothing; otherwise it locks, leaves the registry alone and focuses a non-empty search result; a registered focus stays registered. |
| NavProvider.MovesWhileNavigating | tatakai-app/src/components/tv/NavigationProvider.tsx:160-166 | Any sequence of moves while the lock is held changes nothing. |
| NavProvider.MovesWithoutRelease | tatakai-app/src/components/tv/NavigationProvider.tsx:160-190 | Without the timer's release, a burst of presses has the effect of its first press alone. |
| NavProvider.InitialFocusEffectSpec | tatakai-app/src/components/tv/NavigationProvider.tsx:203-208 | The effect schedules a timer exactly when the designated id is non-empty, registered and nothing is focused, and always for that id; fired at once, the timer does what focusing that id does. |
| NavProvider.InitialFocusRescheduled | tatakai-app/src/components/tv/NavigationProvider.tsx:203-208 | Registering any other element while the effect's condition holds schedules one more timer for the same id. |
| NavProvider.TwoElements | tatakai-app/src/components/tv/NavigationProvider.tsx:203-208 | With the designated element and one more registered and nothing focused, the effect schedules a timer for the designated id. |
| NavProvider.InitialFocusTimerOverrides | tatakai-app/src/components/tv/NavigationProvider.tsx:84-111 | The timer does not re-check its condition when it fires: it takes focus back from an element the user focused meanwhile. |
| NavProvider.InitialFocusTimerDangles | tatakai-app/src/components/tv/NavigationProvider.tsx:84-111 | A timer firing after the designated element unregistered focuses the removed id. |
| NavProvider.HandleKeySpec | tatakai-app/src/components/tv/NavigationProvider.tsx:210-240 | Keys never change the registry; a registered focus stays registered; only Enter and Space select, the current focus. |
| HorizontalList.ListGroup | tatakai-app/src/components/tv/HorizontalListNew.tsx:24-31 | The list's group is horizontal, has its id and wrap policy, and has no members. |
| HorizontalList.MountUnmount | tatakai-app/src/components/tv/HorizontalListNew.tsx:24-37 | Mounting registers exactly the list's group; unmounting removes it and restores a registry where the id was free. |
| HorizontalList.ListGroupNeverSteps | tatakai-app/src/components/tv/HorizontalListNew.tsx:24-32 | An element in a list's group never takes the group-local step, because the group has no members. |
| HorizontalList.ScrollIntoView | tatakai-app/src/components/tv/HorizontalListNew.tsx:55-71 | No scroll exactly when the item is fully visible; cut off on the left it scrolls to spacing before the item, or to 0 when the item is closer than that to the start; cut off on the right, so the view ends spacing after it. |
| HorizontalList.ScrollIntoViewSettles | tatakai-app/src/components/tv/HorizontalListNew.tsx:55-71 | When the item and its spacing fit, a second pass at the requested offset requests no scroll. |
| Focusable.Record | tatakai-app/src/components/tv/Focusable.tsx:38-57 | The record keeps id, group and disabled, the measured size, and the rectangle's position shifted by the page scroll. |
| Focusable.RecordScrollInvariant | tatakai-app/src/components/tv/Focusable.tsx:38-49 | The record is in document coordinates: scrolling the page does not change it. |
| Focusable.MountUnmount | tatakai-app/src/components/tv/Focusable.tsx:62-73 | Unmount removes exactly the element's own id; mount then unmount of a fresh id restores the element registry. |
| Focusable.ClassNameUnfocused | tatakai-app/src/components/tv/Focusable.tsx:83 | An unfocused element renders its trimmed class list unchanged. |
| Focusable.ClassNameFocused | tatakai-app/src/components/tv/Focusable.tsx:28-83 | A focused element renders its class list, one space and the focus class; with the default empty class list just the focus class, and with an empty focus class just the class list. |
| Focusable.TabIndexFollowsRegistry | tatakai-app/src/components/tv/Focusable.tsx:38-90 | A mounted element leaves the tab order (index -1) exactly when the registry refuses to focus it; otherwise it keeps the given index. |
| Focusable.EnterSelectsTwice | tatakai-app/src/components/tv/ReactTVProvider.tsx:305-314 | Enter on a mounted, focused element runs its `onSelect` twice, once directly and once through the click it sends, when the element is enabled and has a handler; never otherwise. |
| Focusable.ClickMatchesKeyboardSelect | tatakai-app/src/components/tv/Focusable.tsx:76-81 | For a mounted element with a non-empty id, a click selects exactly when focusing it and pressing Enter selects it and it has a handler. |
| TVHome.InitIgnoresKeys | tatakai-app/src/components/TVHomePage-simple.tsx:10-34 | The page mounts on the first card with nothing loaded, and until the data loads no key sequence moves the highlight or opens a page. |
| TVHome.HandleKeySpec | tatakai-app/src/components/TVHomePage-simple.tsx:33-54 | Keys are ignored until the row has loaded; Left gives max(0, i-1), Right min(last, i+1); Enter navigates exactly when a card is at the index, to that card's page. |
| TVHome.IndexStaysInRange | tatakai-app/src/components/TVHomePage-simple.tsx:36-46 | With a non-empty row the index stays within the row for any key sequence. |
| TVHome.SearchButtonUnreachable | tatakai-app/src/components/TVHomePage-simple.tsx:104-112 | From the first card no key sequence highlights the search button, and Enter always opens a card. |
| TVHome.EmptyRow | tatakai-app/src/components/TVHomePage-simple.tsx:34-52 | An empty row counts as loaded: the search button starts highlighted, Right moves the index to -1, and Enter does nothing. |
| ScreenDetection.AspectRatioTest | tatakai-app/src/hooks/useScreenDetection.ts:48 | For a positive height, `width / height >= 1.6` is exactly `5 * width >= 8 * height`. |
| ScreenDetection.Classify | tatakai-app/src/hooks/useScreenDetection.ts:31-84 | The orientation is landscape exactly when width > height. TV means a TV user-agent token, or a large wide screen on a browser that is not Chrome. Mobile, tablet and desktop are the width bands, and desktop excludes TV. Exactly one device type is chosen, and it agrees with the flags. |
| ScreenDetection.ChromeNeedsToken | tatakai-app/src/hooks/useScreenDetection.ts:40-51 | A Chrome browser is a TV exactly when its user agent carries a TV token, whatever the screen. |
| WatchStore.AddToHistory | tatakai-android/src/store/watchStore.ts:56-72 | The new item goes first under the fresh id, earlier entries of its episode are dropped, the rest follow in order, and the list has min(100, 1 + the number kept) entries. |
| WatchStore.AddToHistorySpec | tatakai-android/src/store/watchStore.ts:56-72 | Afterwards the episode has exactly one entry, lookup finds the new one, and unique episodes stay unique. |
| WatchStore.UpdateProgress | tatakai-android/src/store/watchStore.ts:74-87 | Entries of the episode get the new progress, duration and timestamp and keep every other field; all other entries are unchanged. |
| WatchStore.MarkCompleted | tatakai-android/src/store/watchStore.ts:89-97 | Entries of the episode become completed with the new timestamp and keep every other field; all other entries are unchanged. |
| WatchStore.RemoveFromHistory | tatakai-android/src/store/watchStore.ts:99-103 | Exactly the entries with other ids remain, each as often as before, in their order. |
| WatchStore.ClearHistoryForgets | tatakai-android/src/store/watchStore.ts:56-117 | After clearing, no episode is found, the shelf is empty, and the next add leaves only the new entry. |
| WatchStore.GetHistoryItem | tatakai-android/src/store/watchStore.ts:109-111 | No result exactly when no entry is for the episode; otherwise the first entry for it. |
| WatchStore.GetContinueWatching | tatakai-android/src/store/watchStore.ts:113-117 | The first min(10, in-progress count) started, uncompleted entries, in history order. |
| WatchStore.HistoryUpdatesSpec | tatakai-android/src/store/watchStore.ts:74-103 | Progress, completion and removal keep episodes unique, and a completed episode leaves the continue-watching shelf. |
| WatchStore.UpdateProgressThenGet | tatakai-android/src/store/watchStore.ts:74-111 | After a progress update, lookup finds the new progress and duration, and whether an entry exists is unchanged. |
| WatchStore.AddToWatchlist | tatakai-android/src/store/watchStore.ts:119-134 | An anime already listed leaves the list unchanged; otherwise the new entry goes first. |
| WatchStore.RemoveFromWatchlist | tatakai-android/src/store/watchStore.ts:136-142 | Exactly the entries of other anime remain, each as often as before, in their order. |
| WatchStore.UpdateWatchlistStatus | tatakai-android/src/store/watchStore.ts:148-154 | Only the status changes, and only on the anime's entries. |
| WatchStore.WatchlistSpec | tatakai-android/src/store/watchStore.ts:119-154 | After adding, the anime is listed; after removing, it is not; every watchlist action keeps anime unique. |
| DownloadStore.AddDownload | tatakai-android/src/store/downloadStore.ts:37-53 | Appends one pending, zero-progress download under the fresh id and returns that id; earlier downloads are unchanged. |
| DownloadStore.AddThenGet | tatakai-android/src/store/downloadStore.ts:37-53 | With a fresh id, getDownload finds the added download, and ids stay unique. |
| DownloadStore.ApplyPatch | tatakai-android/src/store/downloadStore.ts:58 | Each of the seven patchable fields takes the patch's value when present and keeps the download's otherwise; every other field stays; an empty patch changes nothing. |
| DownloadStore.UpdateDownload | tatakai-android/src/store/downloadStore.ts:55-61 | Downloads with the id are patched in place; all others are unchanged. |
| DownloadStore.UpdateThenGet | tatakai-android/src/store/downloadStore.ts:55-61 | An update keeps every id in place, and getDownload then finds the patched download. |
| DownloadStore.RemoveDownload | tatakai-android/src/store/downloadStore.ts:73-76 | The id leaves both lists and everything else stays, in order. |
| DownloadStore.PauseDownload | tatakai-android/src/store/downloadStore.ts:79-88 | Downloads with the id move by the pause rule, the others are unchanged, and the id leaves the active ids. |
| DownloadStore.ResumeDownload | tatakai-android/src/store/downloadStore.ts:90-98 | Downloads with the id move by the resume rule; the others and the active ids are unchanged. |
| DownloadStore.PauseResume | tatakai-android/src/store/downloadStore.ts:79-98 | Pause then resume sends a downloading download back to pending and leaves every other state alone; pausing twice is pausing once. |
| DownloadStore.GetDownload | tatakai-android/src/store/downloadStore.ts:131-133 | No result exactly when no download has the id; otherwise the first download with it. |
| DownloadStore.GetDownloadByEpisode | tatakai-android/src/store/downloadStore.ts:135-137 | No result exactly when no download is of the episode; otherwise the first one that is. |
| DownloadStore.GetDownloadsByAnime | tatakai-android/src/store/downloadStore.ts:100-102 | Exactly the anime's downloads, each as often as in the list, in list order. |
| DownloadStore.ClearCompleted | tatakai-android/src/store/downloadStore.ts:139-143 | Exactly the completed downloads are removed; the rest keep their order and multiplicity. |
| DownloadStore.DeleteAllForgets | tatakai-android/src/store/downloadStore.ts:100-156 | After deleting everything, no id and no anime has a download and no series is shown. |
| DownloadStore.AddToSeriesStep | tatakai-android/src/store/downloadStore.ts:108-126 | One step of the series loop keeps its invariant: one series per anime, in first-appearance order, each as the direct definition says. |
| DownloadStore.SeriesMapCorrect | tatakai-android/src/store/downloadStore.ts:104-128 | The loop over all downloads establishes that invariant. |
| DownloadStore.SeriesTotalsSum | tatakai-android/src/store/downloadStore.ts:104-128 | The series totals add up to the number of downloads. |
| DownloadStore.DownloadedSeriesSpec | tatakai-android/src/store/downloadStore.ts:104-129 | Each anime appears once, in first-appearance order, with exactly its downloads in order, their count and the completed count (never above the total); the totals sum to the number of downloads. |
| DownloadService.Sanitize | tatakai-android/src/services/downloadService.ts:25 | Same length; letters, digits and '-' are kept and every other character becomes '_'. |
| DownloadService.FileName | tatakai-android/src/services/downloadService.ts:24-27 | The name is the sanitised anime id, '_ep', the decimal episode number and '.mp4', and uses only safe characters, '_' and '.'. |
| DownloadService.FileNameInjective | tatakai-android/src/services/downloadService.ts:24-27 | Two downloads share a file only when their sanitised anime ids and episode numbers agree. |
| DownloadService.FileNameCollision | tatakai-android/src/services/downloadService.ts:25 | Different anime ids can share a file name ('a.b' and 'a_b'). |
| DownloadService.ChooseServer | tatakai-android/src/services/downloadService.ts:58-65 | Fails with 'No servers available' exactly when every server is 'hd-1'; otherwise 'hd-2' whenever it is offered, else the first listed server other than 'hd-1'. |
| DownloadService.ChooseSource | tatakai-android/src/services/downloadService.ts:68-72 | The first 1080p/720p source wins, else the first source; it fails when there is none or the chosen one has no URL. |
| DownloadService.EmptyHighQualityUrlFails | tatakai-android/src/services/downloadService.ts:68-72 | A high-quality source without a URL fails the download even when a later source has one. |
| DownloadService.StartGuard | tatakai-android/src/services/downloadService.ts:37-49 | An unknown id stops first; then a full active map queues; otherwise the found download starts. |
| DownloadService.FailureMessage | tatakai-android/src/services/downloadService.ts:109 | The stored error is never empty and is the thrown message when there is one. |
| DownloadService.FirstError | tatakai-android/src/services/downloadService.ts:51-110 | No error exactly when every step succeeds: the directory, the server request and choice, the source request and choice, and the transfer. |
| DownloadService.Finish | tatakai-android/src/services/downloadService.ts:51-114 | A started download ends failed exactly on an error, with a non-empty message; completed with the URI exactly when the transfer returns a non-empty one; otherwise still downloading. Each outcome changes only the fields its patch names. |
| DownloadService.EmptyUriStaysDownloading | tatakai-android/src/services/downloadService.ts:95-104 | An empty URI is not truthy: the download stays downloading with nothing else changed. |
| DownloadService.RunDownloadSpec | tatakai-android/src/services/downloadService.ts:37-114 | Early returns change nothing; otherwise each entry with the id is finished as Finish says, and the others are unchanged. |
| DownloadService.PendingIds | tatakai-android/src/services/downloadService.ts:143 | One id per pending download, in list order. |
| DownloadService.PendingIdsInOrder | tatakai-android/src/services/downloadService.ts:143 | The pending ids are those of the pending downloads, each as often as it occurs, in list order. |
| DownloadService.ProcessQueue | tatakai-android/src/services/downloadService.ts:141-149 | With room in the active map every pending download is started, otherwise none; each started one passes its size guard. |
| DownloadService.QueueCanExceedLimit | tatakai-android/src/services/downloadService.ts:141-149 | Whenever fewer than three are active and more are pending than slots are free, every pending download passes its guard and the active count plus the started ones exceeds three. |
| DownloadService.ManagerPause | tatakai-android/src/services/downloadService.ts:117-124 | Only an active download is paused: it leaves the active map and is paused in the store; other active ids stay. |
| DownloadService.ManagerCancel | tatakai-android/src/services/downloadService.ts:132-139 | The id leaves the active map and the download leaves the store, active or not; other active ids stay. |
| DownloadService.GetStats | tatakai-android/src/services/downloadService.ts:187-197 | The total is the number of downloads and each of the five counts is the number in that status; the pending count is the length of the queue's pending list. |
| DownloadService.GetStatsSum | tatakai-android/src/services/downloadService.ts:187-197 | The five status counts add up to the total. |
| WatchScreen.AnimeIdOf | tatakai-android/src/screens/WatchScreen.tsx:72 | The anime id is the prefix before the first '?', or the whole id when it has none. |
| WatchScreen.AnimeIdOfRoundTrip | tatakai-android/src/screens/WatchScreen.tsx:72 | An id built as anime id, '?' and query gives back the anime id. |
| WatchScreen.Neighbours | tatakai-android/src/screens/WatchScreen.tsx:73-76 | The previous and next episodes are the list neighbours of the current episode's index; an unknown episode has no previous and the first episode as next. |
| WatchScreen.NeighboursInverse | tatakai-android/src/screens/WatchScreen.tsx:73-76 | With distinct ids, next then previous leads back, and the other way round. |
| WatchScreen.SkipCheck | tatakai-android/src/screens/WatchScreen.tsx:183-198 | The button shows exactly inside the window; a seek to its end happens exactly inside the window with skipping enabled, and lands outside it. |
| WatchScreen.OnPosition | tatakai-android/src/screens/WatchScreen.tsx:183-198 | Each set window shows its button exactly while the position is inside it, an unset one leaves its button alone; the seeks are to the intro's end if inside it with skipping on, then to the outro's end likewise. |
| WatchScreen.SkipSettles | tatakai-android/src/screens/WatchScreen.tsx:183-198 | After an automatic skip, the next status at the target shows no button and seeks no more. |
| WatchScreen.SeekTarget | tatakai-android/src/screens/WatchScreen.tsx:206-210 | Ten seconds forward or back in milliseconds, clipped at 0. |
| WatchScreen.SeekRoundTrip | tatakai-android/src/screens/WatchScreen.tsx:206-210 | Forward then back returns to the start; back then forward does too unless the back seek was clipped. |
| WatchScreen.FormatTime | tatakai-android/src/screens/WatchScreen.tsx:229-233 | The label is the minutes, ':' and two digits of seconds. |
| WatchScreen.FormatTimeRoundTrip | tatakai-android/src/screens/WatchScreen.tsx:229-233 | Reading a label back gives the time it shows. |
| WatchScreen.ServerList | tatakai-android/src/screens/WatchScreen.tsx:235-237 | The category's servers without 'hd-1'. |
| WatchScreen.DefaultServer | tatakai-android/src/screens/WatchScreen.tsx:116-118 | Among the sub servers without 'hd-1': 'hd-2' if offered, else the first listed one; none when nothing remains. |
| WatchScreen.DefaultServerListed | tatakai-android/src/screens/WatchScreen.tsx:116-118 | The default server is listed for 'sub', and there is none exactly when that list is empty. |
| WatchScreen.CurrentSource | tatakai-android/src/screens/WatchScreen.tsx:239 | The first HLS source, else the first source, none exactly when there are no sources. |
| AuthScreen.InitSubmit | tatakai-android/src/screens/AuthScreen.tsx:30-44 | The form opens in sign-in mode with empty fields and no message, and submitting it at once calls no service and asks to fill in all fields. |
| AuthScreen.Validate | tatakai-android/src/screens/AuthScreen.tsx:41-54 | Fields must be filled first, then (sign-up only) the passwords must match, then the password must have at least 6 characters; the first failing check names the message. |
| AuthScreen.SignInIgnoresConfirmation | tatakai-android/src/screens/AuthScreen.tsx:45-48 | In sign-in mode the confirmation field never affects validation. |
| AuthScreen.Submit | tatakai-android/src/screens/AuthScreen.tsx:38-72 | The service is called exactly for a valid form, in the current mode; success goes back; an error reply or throw becomes the message ('An error occurred' by default); only message and loading change. |
| AuthScreen.SubmitReplacesMessage | tatakai-android/src/screens/AuthScreen.tsx:38-72 | The message after a submit comes only from this submit's checks or reply. |
| AuthScreen.Toggle | tatakai-android/src/screens/AuthScreen.tsx:177-180 | The mode flips, the message clears, and the fields stay. |
| AuthScreen.ToggleTwice | tatakai-android/src/screens/AuthScreen.tsx:177-180 | Switching twice restores the form except the message. |
| Api.FriendlyServerName | tatakai-android/src/lib/api.ts:211-221 | The seven known keys get their labels; any other name is shown as it is, and an empty name stays empty. |
| Api.AvailableServers | tatakai-android/src/services/downloadService.ts:59 | Exactly the servers other than 'hd-1', each as often as listed, in list order, so it starts with the first such server. |
| Api.PreferredServer | tatakai-android/src/services/downloadService.ts:65 | 'hd-2' when offered, else the first; none exactly for an empty list. |
| Api.LastOfType | tatakai-android/src/lib/api.ts:183-191 | No window exactly when no result has the type; otherwise the last such result's interval. |
| Api.ParseSkipResults | tatakai-android/src/lib/api.ts:183-192 | The loop leaves the last 'op' interval as intro and the last 'ed' interval as outro. |
| Api.FetchSkipTimes | tatakai-android/src/lib/api.ts:171-195 | A non-OK status, a thrown error or missing results give no windows; otherwise the parsed ones. |
| Api.LastOfTypeAppend | tatakai-android/src/lib/api.ts:184-190 | A later result of a type overrides earlier ones; results of other types leave the window alone. |
| Community.LastWith | src/pages/CommunityPage.tsx:52 | A user's last profile row, none exactly when the user has no row. |
| Community.ProfileMapIsLastWith | src/pages/CommunityPage.tsx:52 | The profile map is well formed, and its lookup of a user is that user's last row. |
| Community.Merge | src/pages/CommunityPage.tsx:55-62 | Each playlist, in order, with its owner's profile or the stand-in. |
| Community.LoadPublicPlaylists | src/pages/CommunityPage.tsx:25-64 | A playlist error is thrown. No playlists give an empty list without a profile query. The profile query asks for the distinct owners. A profile error is thrown. |
| Community.LoadPublicPlaylistsSpec | src/pages/CommunityPage.tsx:25-64 | With profiles loaded, the list keeps the playlists in order and the profile query asks once per distinct owner. Each playlist gets its owner's last profile row, or, when there is none, the stand-in shown as 'unknown' / 'Unknown User'. A null profile reply counts as no rows, so every playlist gets the stand-in. |
| Community.FilterTierLists | src/pages/CommunityPage.tsx:153-156 | Exactly the tier lists whose title or description contains the query, ignoring case, each as often as in the input and in input order. |
| Community.FilterPlaylists | src/pages/CommunityPage.tsx:158-161 | Exactly the playlists whose name or description contains the query, ignoring case, each as often as in the input and in input order. |
| Community.EmptyQueryKeepsAll | src/pages/CommunityPage.tsx:153-161 | An empty query keeps every item, in order. |
| Community.MatchesIgnoresQueryCase | src/pages/CommunityPage.tsx:153-161 | Lower-casing the query does not change the match. |
| Community.AllTab | src/pages/CommunityPage.tsx:236-290 | The tab previews the first six matching tier lists and the first ten matching playlists, and all of them when there are that few. |

## Left out

- DOM and native effects are not modelled: scrolling itself, focusing DOM nodes, `preventDefault`, navigation and the video player. They appear only as returned targets, flags or routes.
- Timers are not modelled as time. Each `setTimeout` is an explicit step that may run at any later point. The step runs the closure of the render that scheduled it, so a stale `focusElement` is modelled by what it does when it fires (`NavProvider.DelayedInitialFocus`), not by re-running today's `focusElement`.
- Asynchronous I/O is not modelled: Supabase, AsyncStorage persistence, FileSystem, MediaLibrary and HTTP fetches. Their replies are parameters.
- Identifiers and timestamps are not modelled: `uuid`, `Date.now()` and `new Date().toISOString()` are parameters.
- The DOM query for `[data-section]` is not modelled. The sections are given as a sequence of id sequences in document order.
- ReactTV.SectionStepSpec: assumes sections do not nest. The source finds the current section with `closest`, which picks the innermost enclosing section; the model picks the first section in document order that lists the focused id, which is the same section only when no section lies inside another.
- NavProvider rectangles are stored when an element registers. The source measures each element's rectangle when it searches for a neighbour, so an element that moves after registering is not followed.
- The skip windows never fire in the app as written: `WatchScreen` reads `skipTimes` but never calls `setSkipTimes`, so the windows stay empty. The model states what the checks do once windows are set.
- Lower-casing covers ASCII letters only. The search's and the user-agent test's `toLowerCase` is Unicode-aware.
- Password length is counted in characters, where JavaScript's `length` counts UTF-16 code units.
- `registerElement` options that override the id, and partial patches that set a field to `undefined`, are not modelled.
- Prototype keys in the server-name lookup are not modelled. The source's object literal would also answer keys such as `constructor`; the model treats only the seven listed keys as known.
- WatchScreen.FormatTime: takes whole non-negative seconds. The source floors fractional seconds and would print negative times oddly.
- Episode numbers are integers. Non-integer episode numbers in file names are not modelled.
- WatchStore settings setters are left out. They are plain field assignments.
- Four download-manager operations are left out: resumeDownload (a store update followed by startDownload), getOfflineUri, saveToGallery and requestPermissions. They are thin wrappers over native APIs.
- The directory cleanup of deleteAllDownloads is left out.
- The transfer's progress callback is left out.
- The store's `activeDownloads` list is never filled by the manager, and its `maxConcurrent` field is never read. The manager keeps its own active map, which the model passes as a count or id list.
- Which playlists the database returns is taken as given: public ones, newest first, at most 20. The model starts from the returned rows.
- The TV carousels, vertical lists, spotlight section and the other TV home page are not modelled. They only compose the bindings above.
- NavProvider.ScoreScaled: compares the exact score. The source adds `offset * 0.1` in double precision, and rounding can reorder near ties: from (0, 0, 100, 100) moving right, a first-registered candidate at left 100, top 12 scores 1.2000000000000002 and one at left 101, top 2 scores 1.2, so the source picks the second while the model ties them at 12 and keeps the first.
- WatchScreen.SkipSettles and WatchScreen.SeekRoundTrip: hold over exact reals. The source multiplies and divides by 1000 and adds or subtracts 10000 ms in double precision, where these round trips can be off by a rounding step.
- ReactTV.SelectCurrentSpec: states which element is selected. The `click()` that follows and the second `onSelect` call it causes through the element's click handler are stated by Focusable.EnterSelectsTwice.
- DownloadService.RunDownload: runs `startDownload` as one step. In the source, `pauseDownload`, `cancelDownload` and other `startDownload` calls can run at each of its awaits; those interleavings are not modelled.
- ReactTV.ListScrollTarget and ReactTV.PageScrollTarget compute the requested offset only, over exact reals; smooth-scroll animation is not modelled, and the source's double-precision offsets (`* 0.1`, `* 0.8`, `/ 2`) may differ from these in the last bit.

=== FILE: api.dfy ===
/** The mobile app's API helpers that carry logic of their own: the display names
    of streaming servers, the preferred-server rule shared by playback and
    downloads, and the parsing of AniSkip skip-time results into an intro and an
    outro window. HTTP requests themselves are not modelled: a response is a
    parameter. */
module Api {
  import opened Wrappers
  import Seqs

  // ---------------------------------------------------------------------
  // Servers

  /** `getFriendlyServerName`: the seven known server keys have fixed labels; any other
      name is shown as it is. */
  function FriendlyServerName(serverName: string): (shown: string)
    ensures serverName == "hd-1" ==> shown == "HD Server 1"
    ensures serverName == "hd-2" ==> shown == "HD Pro"
    ensures serverName == "megacloud" ==> shown == "MegaCloud"
    ensures serverName == "streamsb" ==> shown == "StreamSB"
    ensures serverName == "vidcloud" ==> shown == "VidCloud"
    ensures serverName == "vidstreaming" ==> shown == "VidStreaming"
    ensures serverName == "streamtape" ==> shown == "StreamTape"
    ensures shown == serverName <==> !KnownServer(serverName)
    ensures |shown| > 0 <==> |serverName| > 0
  {
    if serverName == "hd-1" then "HD Server 1"
    else if serverName == "hd-2" then "HD Pro"
    else if serverName == "megacloud" then "MegaCloud"
    else if serverName == "streamsb" then "StreamSB"
    else if serverName == "vidcloud" then "VidCloud"
    else if serverName == "vidstreaming" then "VidStreaming"
    else if serverName == "streamtape" then "StreamTape"
    else serverName
  }

  /** The server keys with a fixed label. */
  predicate KnownServer(serverName: string)
  {
    serverName in ["hd-1", "hd-2", "megacloud", "streamsb", "vidcloud", "vidstreaming", "streamtape"]
  }

  /** A server the app offers: every one except 'hd-1'. */
  predicate Offered(serverName: string)
  {
    serverName != "hd-1"
  }

  /** The server list offered for a category: every server except 'hd-1', each as often
      as it occurs, in order, so it starts with the first server that is not 'hd-1'. */
  function AvailableServers(serverNames: seq<string>): (r: seq<string>)
    ensures forall i :: 0 <= i < |r| ==> r[i] != "hd-1" && r[i] in serverNames
    ensures forall i :: 0 <= i < |serverNames| && serverNames[i] != "hd-1" ==> serverNames[i] in r
    ensures Seqs.IsSubsequence(r, serverNames)
    ensures forall n :: multiset(r)[n] == if n != "hd-1" then multiset(serverNames)[n] else 0
    ensures var k := Seqs.FindIndex(serverNames, Offered);
      |r| > 0 ==> 0 <= k && r[0] == serverNames[k]
  {
    var r := Seqs.Filter(serverNames, Offered);
    assert forall i :: 0 <= i < |r| ==> Offered(r[i]);
    Seqs.FilterKeepsOrder(serverNames, Offered);
    Seqs.FilterFirst(serverNames, Offered);
    r
  }

  /** The preferred server among the available ones: 'hd-2' when offered, else the first;
      none when nothing is available. */
  function PreferredServer(available: seq<string>): (r: Option<string>)
    ensures r.None? <==> |available| == 0
    ensures "hd-2" in available ==> r == Some("hd-2")
    ensures "hd-2" !in available && |available| > 0 ==> r == Some(available[0])
  {
    if |available| == 0 then None
    else if "hd-2" in available then Some("hd-2")
    else Some(available[0])
  }

  // ---------------------------------------------------------------------
  // Episode sources

  datatype EpisodeSource = EpisodeSource(url: string, isM3U8: bool, quality: string)

  // ---------------------------------------------------------------------
  // Skip times

  datatype Interval = Interval(startTime: real, endTime: real)

  datatype SkipResult = SkipResult(skipType: string, interval: Interval)

  /** The skip times of an episode; an absent window is `undefined`. */
  datatype SkipTimes = SkipTimes(intro: Option<Interval>, outro: Option<Interval>)

  /** What the skip-times request produced: a non-OK status, a thrown error, or a
      decoded body whose `results` may be missing. */
  datatype SkipResponse = NotOk | Failed | Body(results: Option<seq<SkipResult>>)

  /** The interval of the last result of the given type, if any. */
  function LastOfType(rs: seq<SkipResult>, skipType: string): (r: Option<Interval>)
    ensures r.None? <==> forall i :: 0 <= i < |rs| ==> rs[i].skipType != skipType
    ensures r.Some? ==>
      exists i :: (0 <= i < |rs| && rs[i].skipType == skipType && rs[i].interval == r.value
                   && forall j :: i < j < |rs| ==> rs[j].skipType != skipType)
  {
    if |rs| == 0 then None
    else
      var last := rs[|rs| - 1];
      if last.skipType == skipType then Some(last.interval)
      else
        var r := LastOfType(rs[..|rs| - 1], skipType);
        assert forall i :: 0 <= i < |rs| - 1 ==> rs[..|rs| - 1][i] == rs[i];
        r
  }

  /** The result loop of `fetchSkipTimes`: each 'op' result sets the intro window, each
      'ed' result the outro window, other types are skipped, so the last of each wins. */
  method ParseSkipResults(rs: seq<SkipResult>) returns (t: SkipTimes)
    ensures t.intro == LastOfType(rs, "op")
    ensures t.outro == LastOfType(rs, "ed")
  {
    var intro: Option<Interval> := None;
    var outro: Option<Interval> := None;
    var i := 0;
    while i < |rs|
      invariant 0 <= i <= |rs|
      invariant intro == LastOfType(rs[..i], "op")
      invariant outro == LastOfType(rs[..i], "ed")
    {
      var r := rs[i];
      assert rs[..i + 1][..i] == rs[..i];
      if r.skipType == "op" {
        intro := Some(r.interval);
      } else if r.skipType == "ed" {
        outro := Some(r.interval);
      }
      i := i + 1;
    }
    assert rs[..i] == rs;
    t := SkipTimes(intro, outro);
  }

  /** `fetchSkipTimes` after the request: a non-OK status or a thrown error gives no
      windows, and so does a body without results. */
  method FetchSkipTimes(response: SkipResponse) returns (t: SkipTimes)
    ensures response.NotOk? || response.Failed? ==> t == SkipTimes(None, None)
    ensures response.Body? && response.results.None? ==> t == SkipTimes(None, None)
    ensures response.Body? && response.results.Some? ==>
      t.intro == LastOfType(response.results.value, "op") && t.outro == LastOfType(response.results.value, "ed")
  {
    match response
    case NotOk => t := SkipTimes(None, None);
    case Failed => t := SkipTimes(None, None);
    case Body(results) =>
      if results.Some? {
        t := ParseSkipResults(results.value);
      } else {
        t := SkipTimes(None, None);
      }
  }

  /** A later result of a type overrides every earlier one, and results of other types
      never touch the window. */
  lemma {:induction false} LastOfTypeAppend(rs: seq<SkipResult>, r: SkipResult, skipType: string)
    ensures r.skipType == skipType ==> LastOfType(rs + [r], skipType) == Some(r.interval)
    ensures r.skipType != skipType ==> LastOfType(rs + [r], skipType) == LastOfType(rs, skipType)
  {
    assert (rs + [r])[..|rs|] == rs;
  }
}

=== FILE: auth_screen.dfy ===
/** The sign-in / sign-up form of the mobile app: the order of the input checks,
    the call to the authentication service, the message shown afterwards, and
    the switch between the two modes. The service is a parameter: its reply
    (or the error it threw) is given; navigation back is returned as a flag. */
module AuthScreen {
  import opened Wrappers

  datatype Form = Form(
    isSignUp: bool,
    email: string,
    password: string,
    confirmPassword: string,
    error: string,
    loading: bool)

  /** The form as the screen first shows it: sign-in mode, empty fields, no message. */
  function Init(): (f: Form)
    ensures !f.isSignUp && f.email == "" && f.password == "" && f.error == "" && !f.loading
  {
    Form(false, "", "", "", "", false)
  }

  const FillInAll := "Please fill in all fields"
  const Mismatch := "Passwords do not match"
  const TooShort := "Password must be at least 6 characters"

  /** The checks of `handleSubmit`, in order: both fields filled, then (sign-up only) the
      confirmation matching, then the length; the first failing check names the message. */
  function Validate(f: Form): (r: Option<string>)
    ensures r.None? <==>
      f.email != "" && f.password != "" && (f.isSignUp ==> f.password == f.confirmPassword) && |f.password| >= 6
    ensures f.email == "" || f.password == "" ==> r == Some(FillInAll)
    ensures f.email != "" && f.password != "" && f.isSignUp && f.password != f.confirmPassword ==> r == Some(Mismatch)
    ensures r == Some(TooShort) <==>
      f.email != "" && f.password != "" && (f.isSignUp ==> f.password == f.confirmPassword) && |f.password| < 6
  {
    if f.email == "" || f.password == "" then Some(FillInAll)
    else if f.isSignUp && f.password != f.confirmPassword then Some(Mismatch)
    else if |f.password| < 6 then Some(TooShort)
    else None
  }

  /** Sign-in never looks at the confirmation field. */
  lemma SignInIgnoresConfirmation(f: Form, confirm: string)
    requires !f.isSignUp
    ensures Validate(f.(confirmPassword := confirm)) == Validate(f)
  {
  }

  datatype AuthCall = SignIn(email: string, password: string) | SignUp(email: string, password: string)

  /** What the authentication service did: replied, possibly with an error message, or
      threw (with an empty message when the thrown value had none). */
  datatype Reply = Replied(error: Option<string>) | Threw(message: string)

  /** The result of one submit: the form afterwards, the service call made (if any), and
      whether the screen navigated back. */
  datatype Submitted = Submitted(form: Form, call: Option<AuthCall>, wentBack: bool)

  /** `handleSubmit`: clears the message, validates, and only for a valid form calls the
      service for the current mode; an error reply or a thrown error becomes the message
      ('An error occurred' when the thrown error has none); success navigates back. */
  function Submit(f: Form, reply: Reply): (r: Submitted)
    ensures Validate(f).Some? ==> r == Submitted(f.(error := Validate(f).value), None, false)
    ensures r.call.Some? <==> Validate(f).None?
    ensures r.call.Some? ==> r.call.value == (if f.isSignUp then SignUp(f.email, f.password) else SignIn(f.email, f.password))
    ensures r.wentBack <==> Validate(f).None? && reply == Replied(None)
    ensures r.wentBack ==> r.form.error == ""
    ensures Validate(f).None? && reply.Replied? && reply.error.Some? ==> r.form.error == reply.error.value
    ensures Validate(f).None? && reply.Threw? ==>
      r.form.error == (if reply.message != "" then reply.message else "An error occurred")
    ensures Validate(f).None? ==> !r.form.loading
    ensures r.form.(error := f.error, loading := f.loading) == f
  {
    var cleared := f.(error := "");
    match Validate(cleared)
    case Some(message) => Submitted(cleared.(error := message), None, false)
    case None =>
      var call := if f.isSignUp then SignUp(f.email, f.password) else SignIn(f.email, f.password);
      match reply
      case Replied(err) =>
        if err.Some? then Submitted(cleared.(error := err.value, loading := false), Some(call), false)
        else Submitted(cleared.(loading := false), Some(call), true)
      case Threw(message) =>
        Submitted(cleared.(error := if message != "" then message else "An error occurred", loading := false), Some(call), false)
  }

  /** Submitting the form as it first opens calls no service and only asks the user to
      fill in every field. */
  lemma InitSubmit(reply: Reply)
    ensures Submit(Init(), reply) == Submitted(Init().(error := FillInAll), None, false)
  {
  }

  /** A stale message never survives a submit: the message afterwards comes only from this
      submit's checks or this submit's reply. */
  lemma SubmitReplacesMessage(f: Form, reply: Reply)
    ensures var e := Submit(f, reply).form.error;
      || (Validate(f).Some? && e == Validate(f).value)
      || (reply.Replied? && (e == "" || (reply.error.Some? && e == reply.error.value)))
      || (reply.Threw? && (e == reply.message || e == "An error occurred"))
  {
  }

  /** The mode switch: flips between sign-in and sign-up and clears the message. */
  function Toggle(f: Form): (r: Form)
    ensures r.isSignUp == !f.isSignUp && r.error == ""
    ensures r.(isSignUp := f.isSignUp, error := f.error) == f
  {
    f.(isSignUp := !f.isSignUp, error := "")
  }

  /** Switching twice restores the mode and keeps the fields; only the message is gone. */
  lemma ToggleTwice(f: Form)
    ensures Toggle(Toggle(f)) == f.(error := "")
  {
  }
}

=== FILE: community.dfy ===
/** The web app's community page: loading the public playlists together with
    their owners' profiles, the search filter over tier lists and playlists, and
    the 'All' tab's previews. The database is a parameter: each query's reply is
    given; which rows the playlist query selects (public, newest first, at most
    20) is decided by the database and taken as given. */
module Community {
  import opened Wrappers
  import Seqs
  import Text
  import OM = OrderedMap

  datatype Playlist = Playlist(id: string, userId: string, name: string, description: Option<string>)

  datatype TierList = TierList(id: string, title: string, description: Option<string>)

  datatype Profile = Profile(userId: string, username: string, displayName: string, avatarUrl: Option<string>)

  /** The owner attached to a playlist: a profile row, or the stand-in for a missing one. */
  datatype Owner = Known(profile: Profile) | Unknown

  /** The stand-in owner shows as 'unknown' / 'Unknown User' without an avatar. */
  function OwnerUsername(o: Owner): (u: string)
    ensures o.Unknown? ==> u == "unknown"
  {
    match o
    case Known(p) => p.username
    case Unknown => "unknown"
  }

  function OwnerDisplayName(o: Owner): (d: string)
    ensures o.Unknown? ==> d == "Unknown User"
  {
    match o
    case Known(p) => p.displayName
    case Unknown => "Unknown User"
  }

  datatype PlaylistWithOwner = PlaylistWithOwner(playlist: Playlist, owner: Owner)

  /** A reply of the database: an error, or rows (possibly `null`). */
  datatype Reply<T> = Failed(error: string) | Rows(rows: Option<seq<T>>)

  // ---------------------------------------------------------------------
  // Profiles

  function UserIds(ps: seq<Playlist>): (ids: seq<string>)
    ensures |ids| == |ps| && forall i :: 0 <= i < |ps| ==> ids[i] == ps[i].userId
  {
    seq(|ps|, i requires 0 <= i < |ps| => ps[i].userId)
  }

  /** The last profile row of a user: the reference for what the profile map holds. */
  function LastWith(profiles: seq<Profile>, userId: string): (r: Option<Profile>)
    ensures r.None? <==> forall i :: 0 <= i < |profiles| ==> profiles[i].userId != userId
    ensures r.Some? ==> exists i :: (0 <= i < |profiles| && profiles[i] == r.value && r.value.userId == userId
                                     && forall j :: i < j < |profiles| ==> profiles[j].userId != userId)
  {
    if |profiles| == 0 then None
    else
      var last := profiles[|profiles| - 1];
      if last.userId == userId then Some(last)
      else
        var r := LastWith(profiles[..|profiles| - 1], userId);
        assert forall i :: 0 <= i < |profiles| - 1 ==> profiles[..|profiles| - 1][i] == profiles[i];
        r
  }

  /** `new Map(profiles.map(p => [p.user_id, p]))`: the rows set one after the other. */
  function ProfileMap(profiles: seq<Profile>): OM.OMap<Profile>
  {
    if |profiles| == 0 then OM.Empty()
    else
      var last := profiles[|profiles| - 1];
      OM.Set(ProfileMap(profiles[..|profiles| - 1]), last.userId, last)
  }

  /** The profile map is a well-formed map whose lookup of a user is that user's last row. */
  lemma {:induction false} ProfileMapIsLastWith(profiles: seq<Profile>)
    ensures OM.Valid(ProfileMap(profiles))
    ensures forall u :: OM.Get(ProfileMap(profiles), u) == LastWith(profiles, u)
  {
    if |profiles| == 0 {
      assert OM.Keys(OM.Empty<Profile>()) == [];
    } else {
      var init := profiles[..|profiles| - 1];
      var last := profiles[|profiles| - 1];
      ProfileMapIsLastWith(init);
      OM.SetSpec(ProfileMap(init), last.userId, last);
    }
  }

  /** Each playlist with its owner's profile, or the stand-in when the owner has none. */
  function Merge(playlists: seq<Playlist>, profiles: OM.OMap<Profile>): (r: seq<PlaylistWithOwner>)
    ensures |r| == |playlists|
    ensures forall i :: 0 <= i < |r| ==> r[i].playlist == playlists[i]
    ensures forall i :: 0 <= i < |r| ==>
      r[i].owner == match OM.Get(profiles, playlists[i].userId) case Some(p) => Known(p) case None => Unknown
  {
    seq(|playlists|, i requires 0 <= i < |playlists| =>
      PlaylistWithOwner(playlists[i],
        match OM.Get(profiles, playlists[i].userId) case Some(p) => Known(p) case None => Unknown))
  }

  /** The outcome of loading the public playlists: the user ids the profile query asked
      for (none when it was not made), and the merged list or the error thrown. */
  datatype Loaded = Loaded(profileQuery: Option<seq<string>>, result: Result<seq<PlaylistWithOwner>>)

  /** `usePublicPlaylists`: a playlist error is thrown; no playlists gives an empty list
      without asking for profiles; otherwise the profiles of the distinct owners are asked
      for, a profile error is thrown, and the playlists are merged with the profiles. */
  function LoadPublicPlaylists(playlistReply: Reply<Playlist>, profileReply: Reply<Profile>): (r: Loaded)
    ensures playlistReply.Failed? ==> r == Loaded(None, Err(playlistReply.error))
    ensures playlistReply.Rows? && (playlistReply.rows.None? || |playlistReply.rows.value| == 0) ==>
      r == Loaded(None, Ok([]))
    ensures r.profileQuery.Some? ==>
      playlistReply.Rows? && playlistReply.rows.Some? && r.profileQuery.value == Seqs.Dedup(UserIds(playlistReply.rows.value))
    ensures r.profileQuery.Some? && profileReply.Failed? ==> r.result == Err(profileReply.error)
    ensures r.result.Ok? && r.profileQuery.Some? ==> |r.result.value| == |playlistReply.rows.value|
  {
    match playlistReply
    case Failed(e) => Loaded(None, Err(e))
    case Rows(rows) =>
      if rows.None? || |rows.value| == 0 then Loaded(None, Ok([]))
      else
        var ids := Seqs.Dedup(UserIds(rows.value));
        match profileReply
        case Failed(e) => Loaded(Some(ids), Err(e))
        case Rows(profiles) =>
          var ps := if profiles.Some? then profiles.value else [];
          Loaded(Some(ids), Ok(Merge(rows.value, ProfileMap(ps))))
  }

  /** When profiles load, the merged list keeps the playlists in order, asks once per
      distinct owner, and gives each playlist its owner's last profile row, or the
      stand-in; a null profile reply is read as no rows, so every owner is the stand-in. */
  lemma LoadPublicPlaylistsSpec(rows: seq<Playlist>, profiles: Option<seq<Profile>>)
    requires |rows| > 0
    ensures var ps := if profiles.Some? then profiles.value else [];
      var r := LoadPublicPlaylists(Rows(Some(rows)), Rows(profiles));
      && r.profileQuery.Some? && Seqs.Distinct(r.profileQuery.value)
      && (forall u :: u in r.profileQuery.value <==> u in UserIds(rows))
      && r.result.Ok? && |r.result.value| == |rows|
      && forall i :: 0 <= i < |rows| ==>
           && r.result.value[i].playlist == rows[i]
           && r.result.value[i].owner ==
                (match LastWith(ps, rows[i].userId) case Some(p) => Known(p) case None => Unknown)
           && (LastWith(ps, rows[i].userId).None? ==>
                 && OwnerUsername(r.result.value[i].owner) == "unknown"
                 && OwnerDisplayName(r.result.value[i].owner) == "Unknown User")
    ensures var r := LoadPublicPlaylists(Rows(Some(rows)), Rows(profiles));
      profiles.None? ==> r.result.Ok? && forall i :: 0 <= i < |rows| ==> r.result.value[i].owner == Unknown
  {
    var ps := if profiles.Some? then profiles.value else [];
    ProfileMapIsLastWith(ps);
  }

  // ---------------------------------------------------------------------
  // Search

  /** `a.toLowerCase().includes(q.toLowerCase())`. */
  predicate ContainsIgnoringCase(a: string, query: string)
  {
    Text.Includes(Text.ToLower(a), Text.ToLower(query))
  }

  /** The search test: the title matches, or the description exists and matches. */
  predicate Matches(title: string, description: Option<string>, query: string)
  {
    ContainsIgnoringCase(title, query) || (description.Some? && ContainsIgnoringCase(description.value, query))
  }

  function TierListMatches(query: string): TierList -> bool
  {
    (tl: TierList) => Matches(tl.title, tl.description, query)
  }

  function PlaylistMatches(query: string): PlaylistWithOwner -> bool
  {
    (pl: PlaylistWithOwner) => Matches(pl.playlist.name, pl.playlist.description, query)
  }

  /** `filteredTierLists`: the matching tier lists, each as often as it occurs, in order. */
  function FilterTierLists(tierLists: seq<TierList>, query: string): (r: seq<TierList>)
    ensures forall i :: 0 <= i < |r| ==> r[i] in tierLists && Matches(r[i].title, r[i].description, query)
    ensures forall i :: 0 <= i < |tierLists| && Matches(tierLists[i].title, tierLists[i].description, query) ==> tierLists[i] in r
    ensures Seqs.IsSubsequence(r, tierLists)
    ensures forall tl :: multiset(r)[tl] == if Matches(tl.title, tl.description, query) then multiset(tierLists)[tl] else 0
  {
    var r := Seqs.Filter(tierLists, TierListMatches(query));
    assert forall i :: 0 <= i < |r| ==> TierListMatches(query)(r[i]);
    Seqs.FilterKeepsOrder(tierLists, TierListMatches(query));
    r
  }

  /** `filteredPlaylists`: the matching playlists, each as often as it occurs, in order. */
  function FilterPlaylists(playlists: seq<PlaylistWithOwner>, query: string): (r: seq<PlaylistWithOwner>)
    ensures forall i :: 0 <= i < |r| ==> r[i] in playlists && Matches(r[i].playlist.name, r[i].playlist.description, query)
    ensures forall i :: 0 <= i < |playlists| && Matches(playlists[i].playlist.name, playlists[i].playlist.description, query) ==> playlists[i] in r
    ensures Seqs.IsSubsequence(r, playlists)
    ensures forall pl ::
              multiset(r)[pl] == if Matches(pl.playlist.name, pl.playlist.description, query) then multiset(playlists)[pl] else 0
  {
    var r := Seqs.Filter(playlists, PlaylistMatches(query));
    assert forall i :: 0 <= i < |r| ==> PlaylistMatches(query)(r[i]);
    Seqs.FilterKeepsOrder(playlists, PlaylistMatches(query));
    r
  }

  /** An empty search keeps every item, in order. */
  lemma EmptyQueryKeepsAll(tierLists: seq<TierList>, playlists: seq<PlaylistWithOwner>)
    ensures FilterTierLists(tierLists, "") == tierLists
    ensures FilterPlaylists(playlists, "") == playlists
  {
    forall i | 0 <= i < |tierLists| ensures TierListMatches("")(tierLists[i]) {
      Text.IncludesEmpty(Text.ToLower(tierLists[i].title));
    }
    Seqs.FilterAll(tierLists, TierListMatches(""));
    forall i | 0 <= i < |playlists| ensures PlaylistMatches("")(playlists[i]) {
      Text.IncludesEmpty(Text.ToLower(playlists[i].playlist.name));
    }
    Seqs.FilterAll(playlists, PlaylistMatches(""));
  }

  /** Lower-casing is idempotent. */
  lemma ToLowerIdempotent(s: string)
    ensures Text.ToLower(Text.ToLower(s)) == Text.ToLower(s)
  {
  }

  /** The search ignores the case of the query. */
  lemma MatchesIgnoresQueryCase(title: string, description: Option<string>, query: string)
    ensures Matches(title, description, Text.ToLower(query)) <==> Matches(title, description, query)
  {
    ToLowerIdempotent(query);
  }

  // ---------------------------------------------------------------------
  // The 'All' tab

  /** The 'All' tab previews the first six matching tier lists and the first ten matching
      playlists. */
  function AllTab(tierLists: seq<TierList>, playlists: seq<PlaylistWithOwner>, query: string)
    : (r: (seq<TierList>, seq<PlaylistWithOwner>))
    ensures |r.0| <= 6 && |r.1| <= 10
    ensures |r.0| <= |FilterTierLists(tierLists, query)| && |r.1| <= |FilterPlaylists(playlists, query)|
    ensures r.0 == FilterTierLists(tierLists, query)[..|r.0|]
    ensures r.1 == FilterPlaylists(playlists, query)[..|r.1|]
    ensures |FilterTierLists(tierLists, query)| <= 6 ==> r.0 == FilterTierLists(tierLists, query)
    ensures |FilterPlaylists(playlists, query)| <= 10 ==> r.1 == FilterPlaylists(playlists, query)
  {
    (Seqs.Take(FilterTierLists(tierLists, query), 6), Seqs.Take(FilterPlaylists(playlists, query), 10))
  }
}

=== FILE: download_service.dfy ===
/** The download manager of the mobile app: the file name of a downloaded
    episode, the choice of server and video source, the guards and outcome of
    starting a download, the queue that starts pending downloads, the manager's
    pause and cancel, and the status statistics. The file system, the episode
    API and the transfer itself are parameters: each is given as the value it
    produced or the error message it threw. */
module DownloadService {
  import opened Wrappers
  import Seqs
  import Text
  import Api
  import DS = DownloadStore

  // ---------------------------------------------------------------------
  // File names

  /** The characters kept in a file name: ASCII letters, digits and '-'. */
  predicate SafeChar(c: char)
  {
    ('a' <= c <= 'z') || ('A' <= c <= 'Z') || ('0' <= c <= '9') || c == '-'
  }

  /** `replace(/[^a-zA-Z0-9-]/g, '_')`. */
  function Sanitize(s: string): (r: string)
    ensures |r| == |s|
    ensures forall i :: 0 <= i < |s| ==> r[i] == (if SafeChar(s[i]) then s[i] else '_')
  {
    seq(|s|, i requires 0 <= i < |s| => if SafeChar(s[i]) then s[i] else '_')
  }

  /** `getFileName`: the sanitised anime id, '_ep', the episode number and '.mp4'. */
  function FileName(animeId: string, episodeNumber: int): (f: string)
    ensures |f| > |animeId| + 7
    ensures f[..|animeId|] == Sanitize(animeId)
    ensures f[|f| - 4..] == ".mp4"
    ensures f[|animeId|..|f| - 4] == "_ep" + Text.IntToString(episodeNumber)
    ensures forall i :: 0 <= i < |f| ==> SafeChar(f[i]) || f[i] == '_' || f[i] == '.'
  {
    var f := Sanitize(animeId) + "_ep" + Text.IntToString(episodeNumber) + ".mp4";
    assert f[..|animeId|] == Sanitize(animeId);
    assert f[|animeId|..|f| - 4] == "_ep" + Text.IntToString(episodeNumber);
    f
  }

  /** The characters a printed integer consists of are all kept by the sanitiser. */
  lemma IntToStringSafe(n: int)
    ensures forall i :: 0 <= i < |Text.IntToString(n)| ==> SafeChar(Text.IntToString(n)[i])
  {
  }

  /** In a prefix, '_ep' and an underscore-free tail, the underscore of '_ep' is the last
      one. */
  lemma MarkerIsLastUnderscore(p: string, x: string)
    requires forall i :: 0 <= i < |x| ==> x[i] != '_'
    ensures (p + "_ep" + x)[|p|] == '_'
    ensures forall j :: |p| < j < |p + "_ep" + x| ==> (p + "_ep" + x)[j] != '_'
  {
    var f := p + "_ep" + x;
    forall j | |p| < j < |f| ensures f[j] != '_' {
      if j >= |p| + 3 {
        assert f[j] == x[j - |p| - 3];
      }
    }
  }

  /** A prefix, '_ep' and an underscore-free tail can be split apart again: the tail is
      everything after the last underscore. */
  lemma SplitAtMarker(p: string, x: string, q: string, y: string)
    requires forall i :: 0 <= i < |x| ==> x[i] != '_'
    requires forall i :: 0 <= i < |y| ==> y[i] != '_'
    requires p + "_ep" + x == q + "_ep" + y
    ensures p == q && x == y
  {
    var f := p + "_ep" + x;
    MarkerIsLastUnderscore(p, x);
    MarkerIsLastUnderscore(q, y);
    assert |p| == |q|;
    assert x == f[|p| + 3..];
    assert p == f[..|p|];
  }

  /** Two downloads share a file name only when their sanitised anime ids and their
      episode numbers agree: in particular the episodes of one anime never overwrite
      each other. */
  lemma FileNameInjective(a: string, n: int, b: string, m: int)
    requires FileName(a, n) == FileName(b, m)
    ensures Sanitize(a) == Sanitize(b) && n == m
  {
    var x := Text.IntToString(n);
    var y := Text.IntToString(m);
    var f := Sanitize(a) + "_ep" + x;
    var g := Sanitize(b) + "_ep" + y;
    assert f == (f + ".mp4")[..|f|];
    assert g == (g + ".mp4")[..|g|];
    IntToStringSafe(n);
    IntToStringSafe(m);
    SplitAtMarker(Sanitize(a), x, Sanitize(b), y);
    Text.IntToStringInjective(n, m);
  }

  /** Distinct anime ids can still share a file: the sanitiser is not injective. */
  lemma FileNameCollision()
    ensures FileName("a.b", 1) == FileName("a_b", 1)
  {
    assert Sanitize("a.b") == Sanitize("a_b");
  }

  // ---------------------------------------------------------------------
  // Server and source choice

  /** The server step of `startDownload`: drop 'hd-1', prefer 'hd-2', else the first; an
      empty remainder is the error 'No servers available'. */
  function ChooseServer(serverNames: seq<string>): (r: Result<string>)
    ensures r.Err? <==> forall i :: 0 <= i < |serverNames| ==> serverNames[i] == "hd-1"
    ensures r.Err? ==> r.message == "No servers available"
    ensures r.Ok? ==> r.value != "hd-1" && r.value in serverNames
    ensures "hd-2" in serverNames ==> r == Ok("hd-2")
    ensures var k := Seqs.FindIndex(serverNames, Api.Offered);
      "hd-2" !in serverNames && r.Ok? ==> 0 <= k && r.value == serverNames[k]
  {
    var available := Api.AvailableServers(serverNames);
    if |available| == 0 then
      Err("No servers available")
    else
      assert "hd-2" in serverNames ==> "hd-2" in available;
      Ok(Api.PreferredServer(available).value)
  }

  predicate HighQuality(s: Api.EpisodeSource)
  {
    s.quality == "1080p" || s.quality == "720p"
  }

  /** The source step of `startDownload`: the first 1080p or 720p source, else the first
      source; no source, or one without a URL, is the error 'No video source available'. */
  function ChooseSource(sources: seq<Api.EpisodeSource>): (r: Result<Api.EpisodeSource>)
    ensures r.Err? ==> r.message == "No video source available"
    ensures r.Ok? ==> r.value in sources && r.value.url != ""
    ensures |sources| == 0 ==> r.Err?
    ensures forall i :: 0 <= i < |sources| && HighQuality(sources[i]) ==>
      exists k :: 0 <= k <= i && HighQuality(sources[k])
        && (forall j :: 0 <= j < k ==> !HighQuality(sources[j]))
        && r == (if sources[k].url != "" then Ok(sources[k]) else Err("No video source available"))
    ensures (forall i :: 0 <= i < |sources| ==> !HighQuality(sources[i])) && |sources| > 0 ==>
      r == (if sources[0].url != "" then Ok(sources[0]) else Err("No video source available"))
  {
    var k := Seqs.FindIndex(sources, HighQuality);
    var chosen := if k >= 0 then Some(sources[k]) else if |sources| > 0 then Some(sources[0]) else None;
    if chosen.Some? && chosen.value.url != "" then Ok(chosen.value)
    else Err("No video source available")
  }

  /** The first high-quality source wins even when its URL is empty: the download then
      fails although a later source has a URL. */
  lemma EmptyHighQualityUrlFails()
    ensures ChooseSource([Api.EpisodeSource("", true, "1080p"), Api.EpisodeSource("u", true, "360p")]).Err?
  {
    var ss := [Api.EpisodeSource("", true, "1080p"), Api.EpisodeSource("u", true, "360p")];
    assert HighQuality(ss[0]);
  }

  // ---------------------------------------------------------------------
  // Starting a download

  /** The concurrency limit of the manager. */
  const MaxConcurrent: nat := 3

  /** What `startDownload` decides before its first await. */
  datatype Start = NotFound | Queued | Starts(download: DS.Download)

  /** The guards of `startDownload`: an unknown id, then a full active map, return early. */
  function StartGuard(s: DS.Store, id: string, activeCount: nat): (g: Start)
    ensures g.NotFound? <==> DS.GetDownload(s, id).None?
    ensures g.Queued? <==> DS.GetDownload(s, id).Some? && activeCount >= MaxConcurrent
    ensures g.Starts? ==> Some(g.download) == DS.GetDownload(s, id) && activeCount < MaxConcurrent
  {
    match DS.GetDownload(s, id)
    case None => NotFound
    case Some(d) => if activeCount >= MaxConcurrent then Queued else Starts(d)
  }

  /** What the effects of one started download produced: an error message is what the
      step threw (an empty message when it threw without one). */
  datatype Effects = Effects(
    dirError: Option<string>,
    servers: Result<seq<string>>,
    sources: Result<seq<Api.EpisodeSource>>,
    transfer: Result<Option<string>>,
    now: string)

  /** `error.message || 'Download failed'`. */
  function FailureMessage(message: string): (m: string)
    ensures m != ""
    ensures message != "" ==> m == message
  {
    if message == "" then "Download failed" else message
  }

  function Downloading(): DS.Patch
  {
    DS.Patch(Some(DS.Downloading), None, None, None, None, None, None)
  }

  function Failed(message: string): DS.Patch
  {
    DS.Patch(Some(DS.Failed), None, None, None, None, None, Some(Some(FailureMessage(message))))
  }

  function Completed(uri: string, now: string): DS.Patch
  {
    DS.Patch(Some(DS.Completed), Some(100.0), None, None, Some(Some(uri)), Some(Some(now)), None)
  }

  /** The error a started download ends with, if any, in the order the steps run. */
  function FirstError(e: Effects): (r: Option<string>)
    ensures r.None? <==> e.dirError.None? && e.servers.Ok? && ChooseServer(e.servers.value).Ok?
                         && e.sources.Ok? && ChooseSource(e.sources.value).Ok? && e.transfer.Ok?
  {
    if e.dirError.Some? then e.dirError
    else if e.servers.Err? then Some(e.servers.message)
    else if ChooseServer(e.servers.value).Err? then Some(ChooseServer(e.servers.value).message)
    else if e.sources.Err? then Some(e.sources.message)
    else if ChooseSource(e.sources.value).Err? then Some(ChooseSource(e.sources.value).message)
    else if e.transfer.Err? then Some(e.transfer.message)
    else None
  }

  /** `result?.uri` is truthy: the transfer returned a non-empty URI. */
  predicate HasUri(uri: Option<string>)
  {
    uri.Some? && uri.value != ""
  }

  /** The store after `startDownload` has run to the end. The status becomes 'downloading'
      once the directory exists; any later error marks the download failed; a transfer that
      returns a non-empty URI completes it; a transfer without one leaves it downloading. */
  function RunDownload(s: DS.Store, id: string, activeCount: nat, e: Effects): DS.Store
  {
    if !StartGuard(s, id, activeCount).Starts? then s
    else if e.dirError.Some? then DS.UpdateDownload(s, id, Failed(e.dirError.value))
    else
      var s1 := DS.UpdateDownload(s, id, Downloading());
      match FirstError(e)
      case Some(message) => DS.UpdateDownload(s1, id, Failed(message))
      case None =>
        if HasUri(e.transfer.value) then DS.UpdateDownload(s1, id, Completed(e.transfer.value.value, e.now))
        else s1
  }

  /** What a started download does to one entry with its id: it ends completed (with the
      URI, progress 100 and the completion time), failed (with a non-empty error), or, when
      the transfer returned no URI or an empty one, still downloading. Each outcome changes
      only the fields its patch names. */
  function Finish(d: DS.Download, e: Effects): (r: DS.Download)
    ensures r.id == d.id && r.animeId == d.animeId && r.episodeId == d.episodeId
    ensures r.status == DS.Failed <==> FirstError(e).Some?
    ensures r.status == DS.Failed ==> r.error == Some(FailureMessage(FirstError(e).value))
    ensures r.status == DS.Completed <==> FirstError(e).None? && HasUri(e.transfer.value)
    ensures r.status == DS.Completed ==>
      r.filePath == Some(e.transfer.value.value) && r.progress == 100.0 && r.completedAt == Some(e.now)
    ensures r.status == DS.Downloading <==> FirstError(e).None? && !HasUri(e.transfer.value)
    ensures r.status == DS.Failed ==> r == d.(status := DS.Failed, error := r.error)
    ensures r.status == DS.Completed ==>
      r == d.(status := DS.Completed, progress := 100.0, filePath := r.filePath, completedAt := r.completedAt)
    ensures r.status == DS.Downloading ==> r == d.(status := DS.Downloading)
  {
    if e.dirError.Some? then DS.ApplyPatch(d, Failed(e.dirError.value))
    else
      var d1 := DS.ApplyPatch(d, Downloading());
      match FirstError(e)
      case Some(message) => DS.ApplyPatch(d1, Failed(message))
      case None =>
        if HasUri(e.transfer.value) then DS.ApplyPatch(d1, Completed(e.transfer.value.value, e.now))
        else d1
  }

  /** A transfer that returns an empty URI is not truthy: the download stays downloading,
      with no file path or completion time set. */
  lemma EmptyUriStaysDownloading(d: DS.Download, e: Effects)
    requires FirstError(e).None? && e.transfer.Ok? && e.transfer.value == Some("")
    ensures Finish(d, e) == d.(status := DS.Downloading)
  {
  }

  /** Two updates of the same id compose entry by entry. */
  lemma UpdateTwice(s: DS.Store, id: string, p: DS.Patch, q: DS.Patch)
    ensures var r := DS.UpdateDownload(DS.UpdateDownload(s, id, p), id, q);
      && |r.downloads| == |s.downloads| && r.activeDownloads == s.activeDownloads
      && forall i :: 0 <= i < |s.downloads| ==>
           r.downloads[i] == if s.downloads[i].id == id then DS.ApplyPatch(DS.ApplyPatch(s.downloads[i], p), q) else s.downloads[i]
  {
  }

  /** The early returns change nothing; otherwise every entry with the id is finished as
      `Finish` says and every other entry is unchanged. */
  lemma RunDownloadSpec(s: DS.Store, id: string, activeCount: nat, e: Effects)
    ensures !StartGuard(s, id, activeCount).Starts? ==> RunDownload(s, id, activeCount, e) == s
    ensures var r := RunDownload(s, id, activeCount, e);
      && |r.downloads| == |s.downloads| && r.activeDownloads == s.activeDownloads
      && forall i :: 0 <= i < |s.downloads| ==>
           r.downloads[i] ==
             if s.downloads[i].id == id && StartGuard(s, id, activeCount).Starts?
             then Finish(s.downloads[i], e) else s.downloads[i]
  {
    if StartGuard(s, id, activeCount).Starts? && e.dirError.None? {
      var s1 := DS.UpdateDownload(s, id, Downloading());
      match FirstError(e)
      case Some(message) =>
        UpdateTwice(s, id, Downloading(), Failed(message));
      case None =>
        if HasUri(e.transfer.value) {
          UpdateTwice(s, id, Downloading(), Completed(e.transfer.value.value, e.now));
        }
    }
  }

  // ---------------------------------------------------------------------
  // The queue

  /** The ids of the pending downloads, one per pending download, in list order. */
  function PendingIds(s: DS.Store): (ids: seq<string>)
    ensures |ids| == Seqs.Count(s.downloads, HasStatus(DS.Pending))
    ensures forall i :: 0 <= i < |ids| ==> exists j :: 0 <= j < |s.downloads| && s.downloads[j].id == ids[i] && s.downloads[j].status == DS.Pending
    ensures |ids| == |Seqs.Filter(s.downloads, HasStatus(DS.Pending))|
    ensures forall i :: 0 <= i < |ids| ==> ids[i] == Seqs.Filter(s.downloads, HasStatus(DS.Pending))[i].id
  {
    var pending := Seqs.Filter(s.downloads, HasStatus(DS.Pending));
    var ids := DS.IdsOf(pending);
    assert forall i :: 0 <= i < |ids| ==> pending[i] in s.downloads && HasStatus(DS.Pending)(pending[i]);
    ids
  }

  /** The pending ids are those of the pending downloads, taken in list order with each
      pending download exactly as often as it occurs. */
  lemma PendingIdsInOrder(s: DS.Store)
    ensures var pending := Seqs.Filter(s.downloads, HasStatus(DS.Pending));
      && Seqs.IsSubsequence(pending, s.downloads)
      && (forall d :: multiset(pending)[d] == if d.status == DS.Pending then multiset(s.downloads)[d] else 0)
      && |PendingIds(s)| == |pending|
      && forall i :: 0 <= i < |pending| ==> PendingIds(s)[i] == pending[i].id
  {
    Seqs.FilterKeepsOrder(s.downloads, HasStatus(DS.Pending));
  }

  /** `processQueue`: walks the pending downloads and calls `startDownload` for each until
      the active map is full. `startDownload` reaches its first await before it changes the
      active map or the store, so the map's size is the same at every check: either every
      pending download is started or none is. `started` lists the ids passed to
      `startDownload`, each of which passes its own size guard. */
  method ProcessQueue(s: DS.Store, activeCount: nat) returns (started: seq<string>)
    ensures activeCount < MaxConcurrent ==> started == PendingIds(s)
    ensures activeCount >= MaxConcurrent ==> started == []
    ensures forall i :: 0 <= i < |started| ==> !StartGuard(s, started[i], activeCount).Queued?
  {
    var pending := Seqs.Filter(s.downloads, HasStatus(DS.Pending));
    started := [];
    var i := 0;
    while i < |pending|
      invariant 0 <= i <= |pending|
      invariant activeCount < MaxConcurrent ==> |started| == i && forall j :: 0 <= j < i ==> started[j] == pending[j].id
      invariant activeCount >= MaxConcurrent ==> started == []
    {
      if activeCount >= MaxConcurrent {
        break;
      }
      started := started + [pending[i].id];
      i := i + 1;
    }
  }

  /** The limit is not an invariant. With fewer than three downloads active, `ProcessQueue`
      starts every pending download (its first ensures), and each passes its own size
      guard because the active map has not grown yet. So whenever more downloads are
      pending than slots are free, the active map ends up holding more than three. */
  lemma QueueCanExceedLimit(s: DS.Store, activeCount: nat)
    requires activeCount < MaxConcurrent
    requires Seqs.Count(s.downloads, HasStatus(DS.Pending)) > MaxConcurrent - activeCount
    ensures activeCount + |PendingIds(s)| > MaxConcurrent
    ensures forall i :: 0 <= i < |PendingIds(s)| ==> !StartGuard(s, PendingIds(s)[i], activeCount).Queued?
  {
  }

  // ---------------------------------------------------------------------
  // Manager actions

  /** `pauseDownload` of the manager: only a download in the active map is paused, which
      removes it from the map and pauses it in the store. */
  function ManagerPause(active: seq<string>, s: DS.Store, id: string): (r: (seq<string>, DS.Store))
    ensures id !in active ==> r == (active, s)
    ensures id in active ==> r.1 == DS.PauseDownload(s, id) && id !in r.0
    ensures forall x :: x in active && x != id ==> x in r.0
  {
    if id in active then (Seqs.Filter(active, (a: string) => a != id), DS.PauseDownload(s, id)) else (active, s)
  }

  /** `cancelDownload`: removes the id from the active map and the download from the
      store, whether or not it was active. */
  function ManagerCancel(active: seq<string>, s: DS.Store, id: string): (r: (seq<string>, DS.Store))
    ensures id !in r.0 && r.1 == DS.RemoveDownload(s, id)
    ensures forall x :: x in active && x != id ==> x in r.0
  {
    (Seqs.Filter(active, (a: string) => a != id), DS.RemoveDownload(s, id))
  }

  // ---------------------------------------------------------------------
  // Statistics

  datatype Stats = Stats(total: nat, completed: nat, downloading: nat, pending: nat, failed: nat, paused: nat)

  function HasStatus(st: DS.Status): DS.Download -> bool
  {
    (d: DS.Download) => d.status == st
  }

  /** `getStats`: the number of downloads and the number in each status. */
  function GetStats(s: DS.Store): (r: Stats)
    ensures r.total == |s.downloads|
    ensures r.completed == Seqs.Count(s.downloads, HasStatus(DS.Completed))
    ensures r.pending == |PendingIds(s)|
    ensures r.downloading == Seqs.Count(s.downloads, HasStatus(DS.Downloading))
    ensures r.failed == Seqs.Count(s.downloads, HasStatus(DS.Failed))
    ensures r.paused == Seqs.Count(s.downloads, HasStatus(DS.Paused))
  {
    var ds := s.downloads;
    Stats(|ds|, Seqs.Count(ds, HasStatus(DS.Completed)), Seqs.Count(ds, HasStatus(DS.Downloading)),
          Seqs.Count(ds, HasStatus(DS.Pending)), Seqs.Count(ds, HasStatus(DS.Failed)),
          Seqs.Count(ds, HasStatus(DS.Paused)))
  }

  /** Every download is in exactly one status. */
  lemma {:induction false} StatusCountsSum(ds: seq<DS.Download>)
    ensures Seqs.Count(ds, HasStatus(DS.Completed)) + Seqs.Count(ds, HasStatus(DS.Downloading))
          + Seqs.Count(ds, HasStatus(DS.Pending)) + Seqs.Count(ds, HasStatus(DS.Failed))
          + Seqs.Count(ds, HasStatus(DS.Paused)) == |ds|
  {
    if |ds| > 0 {
      StatusCountsSum(ds[1..]);
    }
  }

  /** The five status counts of `getStats` add up to the total. */
  lemma GetStatsSum(s: DS.Store)
    ensures var r := GetStats(s);
      r.completed + r.downloading + r.pending + r.failed + r.paused == r.total
  {
    StatusCountsSum(s.downloads);
  }
}

=== FILE: download_store.dfy ===
/** The persisted download store of the mobile app: the download list with its
    status machine (pending, downloading, completed, failed, paused), the list of
    active download ids, lookups, the per-series summary shown on the downloads
    screen, and bulk clearing. Identifiers and timestamps, which the store draws
    from a UUID generator and the clock, are parameters; file deletion is not
    modelled. */
module DownloadStore {
  import opened Wrappers
  import Seqs
  import OM = OrderedMap

  datatype Status = Pending | Downloading | Completed | Failed | Paused

  datatype Download = Download(
    id: string,
    animeId: string,
    animeName: string,
    animePoster: string,
    episodeId: string,
    episodeNumber: int,
    episodeTitle: Option<string>,
    status: Status,
    progress: real,
    totalSize: int,
    downloadedSize: int,
    filePath: Option<string>,
    createdAt: string,
    completedAt: Option<string>,
    error: Option<string>)

  /** The fields a caller supplies to `addDownload`. */
  datatype NewDownload = NewDownload(
    animeId: string,
    animeName: string,
    animePoster: string,
    episodeId: string,
    episodeNumber: int,
    episodeTitle: Option<string>,
    totalSize: int,
    filePath: Option<string>,
    completedAt: Option<string>,
    error: Option<string>)

  /** A partial update: each present field overrides the download's field. */
  datatype Patch = Patch(
    status: Option<Status>,
    progress: Option<real>,
    totalSize: Option<int>,
    downloadedSize: Option<int>,
    filePath: Option<Option<string>>,
    completedAt: Option<Option<string>>,
    error: Option<Option<string>>)

  datatype Store = Store(downloads: seq<Download>, activeDownloads: seq<string>)

  /** No two downloads share an id. */
  predicate UniqueIds(ds: seq<Download>)
  {
    forall i, j :: 0 <= i < j < |ds| ==> ds[i].id != ds[j].id
  }

  function IdsOf(ds: seq<Download>): (ids: seq<string>)
    ensures |ids| == |ds| && forall i :: 0 <= i < |ds| ==> ids[i] == ds[i].id
  {
    seq(|ds|, i requires 0 <= i < |ds| => ds[i].id)
  }

  // ---------------------------------------------------------------------
  // Lookups

  function HasId(id: string): Download -> bool
  {
    (d: Download) => d.id == id
  }

  function OtherId(id: string): Download -> bool
  {
    (d: Download) => d.id != id
  }

  /** `getDownload`: the first download with the id. */
  function GetDownload(s: Store, id: string): (r: Option<Download>)
    ensures r.None? <==> forall i :: 0 <= i < |s.downloads| ==> s.downloads[i].id != id
    ensures r.Some? ==> exists i :: (0 <= i < |s.downloads| && s.downloads[i] == r.value && r.value.id == id
                                     && forall j :: 0 <= j < i ==> s.downloads[j].id != id)
  {
    var k := Seqs.FindIndex(s.downloads, HasId(id));
    if k == -1 then None else Some(s.downloads[k])
  }

  /** `getDownloadByEpisode`: the first download of the episode. */
  function GetDownloadByEpisode(s: Store, episodeId: string): (r: Option<Download>)
    ensures r.None? <==> forall i :: 0 <= i < |s.downloads| ==> s.downloads[i].episodeId != episodeId
    ensures r.Some? ==> exists i :: (0 <= i < |s.downloads| && s.downloads[i] == r.value && r.value.episodeId == episodeId
                                     && forall j :: 0 <= j < i ==> s.downloads[j].episodeId != episodeId)
  {
    var k := Seqs.FindIndex(s.downloads, (d: Download) => d.episodeId == episodeId);
    if k == -1 then None else Some(s.downloads[k])
  }

  function OfAnime(animeId: string): Download -> bool
  {
    (d: Download) => d.animeId == animeId
  }

  /** `getDownloadsByAnime`: the anime's downloads, each once per occurrence, in list order. */
  function GetDownloadsByAnime(s: Store, animeId: string): (r: seq<Download>)
    ensures forall i :: 0 <= i < |r| ==> r[i].animeId == animeId && r[i] in s.downloads
    ensures forall i :: 0 <= i < |s.downloads| && s.downloads[i].animeId == animeId ==> s.downloads[i] in r
    ensures Seqs.IsSubsequence(r, s.downloads)
    ensures forall d :: multiset(r)[d] == if d.animeId == animeId then multiset(s.downloads)[d] else 0
  {
    Seqs.FilterKeepsOrder(s.downloads, OfAnime(animeId));
    Seqs.Filter(s.downloads, OfAnime(animeId))
  }

  // ---------------------------------------------------------------------
  // Updates

  /** `addDownload`: appends a pending download with no progress under the fresh id
      `newId`, created at `now`, and returns the id. */
  function AddDownload(s: Store, item: NewDownload, newId: string, now: string): (r: (Store, string))
    ensures r.1 == newId
    ensures |r.0.downloads| == |s.downloads| + 1 && r.0.downloads[..|s.downloads|] == s.downloads
    ensures var d := r.0.downloads[|s.downloads|];
      && d.id == newId && d.status == Pending && d.progress == 0.0 && d.downloadedSize == 0
      && d.createdAt == now && d.animeId == item.animeId && d.episodeId == item.episodeId
    ensures r.0.activeDownloads == s.activeDownloads
  {
    var d := Download(newId, item.animeId, item.animeName, item.animePoster, item.episodeId,
                      item.episodeNumber, item.episodeTitle, Pending, 0.0, item.totalSize, 0,
                      item.filePath, now, item.completedAt, item.error);
    (s.(downloads := s.downloads + [d]), newId)
  }

  /** With a fresh id, the added download is what `getDownload` then finds, and ids stay
      unique. */
  lemma AddThenGet(s: Store, item: NewDownload, newId: string, now: string)
    requires forall i :: 0 <= i < |s.downloads| ==> s.downloads[i].id != newId
    ensures var r := AddDownload(s, item, newId, now).0;
      GetDownload(r, newId) == Some(r.downloads[|s.downloads|])
    ensures UniqueIds(s.downloads) ==> UniqueIds(AddDownload(s, item, newId, now).0.downloads)
  {
    var r := AddDownload(s, item, newId, now).0;
    var k := Seqs.FindIndex(r.downloads, HasId(newId));
    assert HasId(newId)(r.downloads[|s.downloads|]);
  }

  /** One download with a patch applied. */
  function ApplyPatch(d: Download, p: Patch): (r: Download)
    ensures r.id == d.id && r.animeId == d.animeId && r.episodeId == d.episodeId
    ensures r.status == p.status.GetOr(d.status)
    ensures r.progress == p.progress.GetOr(d.progress)
    ensures r.filePath == p.filePath.GetOr(d.filePath)
    ensures r.totalSize == p.totalSize.GetOr(d.totalSize)
    ensures r.downloadedSize == p.downloadedSize.GetOr(d.downloadedSize)
    ensures r.completedAt == p.completedAt.GetOr(d.completedAt)
    ensures r.error == p.error.GetOr(d.error)
    ensures r.(status := d.status, progress := d.progress, totalSize := d.totalSize,
               downloadedSize := d.downloadedSize, filePath := d.filePath,
               completedAt := d.completedAt, error := d.error) == d
    ensures p == Patch(None, None, None, None, None, None, None) ==> r == d
  {
    d.(status := p.status.GetOr(d.status),
       progress := p.progress.GetOr(d.progress),
       totalSize := p.totalSize.GetOr(d.totalSize),
       downloadedSize := p.downloadedSize.GetOr(d.downloadedSize),
       filePath := p.filePath.GetOr(d.filePath),
       completedAt := p.completedAt.GetOr(d.completedAt),
       error := p.error.GetOr(d.error))
  }

  /** `updateDownload`: patches the downloads with the id; the rest are unchanged. */
  function UpdateDownload(s: Store, id: string, p: Patch): (r: Store)
    ensures |r.downloads| == |s.downloads| && r.activeDownloads == s.activeDownloads
    ensures forall i :: 0 <= i < |s.downloads| && s.downloads[i].id != id ==> r.downloads[i] == s.downloads[i]
    ensures forall i :: 0 <= i < |s.downloads| && s.downloads[i].id == id ==> r.downloads[i] == ApplyPatch(s.downloads[i], p)
  {
    s.(downloads := seq(|s.downloads|, i requires 0 <= i < |s.downloads| =>
      if s.downloads[i].id == id then ApplyPatch(s.downloads[i], p) else s.downloads[i]))
  }

  /** An update keeps every id in place, so ids stay unique, and `getDownload` then finds
      the patched download. */
  lemma UpdateThenGet(s: Store, id: string, p: Patch)
    ensures IdsOf(UpdateDownload(s, id, p).downloads) == IdsOf(s.downloads)
    ensures GetDownload(UpdateDownload(s, id, p), id) ==
      if GetDownload(s, id).Some? then Some(ApplyPatch(GetDownload(s, id).value, p)) else None
  {
    var r := UpdateDownload(s, id, p);
    assert IdsOf(r.downloads) == IdsOf(s.downloads);
    var k := Seqs.FindIndex(s.downloads, HasId(id));
    var k' := Seqs.FindIndex(r.downloads, HasId(id));
    assert forall i :: 0 <= i < |s.downloads| ==> (HasId(id)(r.downloads[i]) <==> HasId(id)(s.downloads[i]));
    if k >= 0 {
      assert HasId(id)(r.downloads[k]);
      assert k' == k;
    }
  }

  /** `removeDownload` (after the file is deleted): drops the id from the download list and
      from the active ids, keeping the order of the rest. */
  function RemoveDownload(s: Store, id: string): (r: Store)
    ensures r.downloads == Seqs.Filter(s.downloads, OtherId(id))
    ensures forall i :: 0 <= i < |r.downloads| ==> r.downloads[i].id != id
    ensures forall i :: 0 <= i < |r.activeDownloads| ==> r.activeDownloads[i] != id
    ensures forall i :: 0 <= i < |s.downloads| && s.downloads[i].id != id ==> s.downloads[i] in r.downloads
    ensures forall i :: 0 <= i < |s.activeDownloads| && s.activeDownloads[i] != id ==> s.activeDownloads[i] in r.activeDownloads
  {
    Store(Seqs.Filter(s.downloads, OtherId(id)), Seqs.Filter(s.activeDownloads, (a: string) => a != id))
  }

  /** The status a download moves to on pause: only 'downloading' becomes 'paused'. */
  function PausedStatus(st: Status): (r: Status)
    ensures st == Downloading ==> r == Paused
    ensures st != Downloading ==> r == st
  {
    if st == Downloading then Paused else st
  }

  /** The status a download moves to on resume: only 'paused' becomes 'pending'. */
  function ResumedStatus(st: Status): (r: Status)
    ensures st == Paused ==> r == Pending
    ensures st != Paused ==> r == st
  {
    if st == Paused then Pending else st
  }

  /** `pauseDownload`: a downloading download with the id becomes paused, and the id
      leaves the active ids. */
  function PauseDownload(s: Store, id: string): (r: Store)
    ensures |r.downloads| == |s.downloads|
    ensures forall i :: 0 <= i < |s.downloads| ==>
      r.downloads[i] == if s.downloads[i].id == id then s.downloads[i].(status := PausedStatus(s.downloads[i].status)) else s.downloads[i]
    ensures forall i :: 0 <= i < |r.activeDownloads| ==> r.activeDownloads[i] != id
    ensures forall i :: 0 <= i < |s.activeDownloads| && s.activeDownloads[i] != id ==> s.activeDownloads[i] in r.activeDownloads
  {
    Store(
      seq(|s.downloads|, i requires 0 <= i < |s.downloads| =>
        if s.downloads[i].id == id && s.downloads[i].status == Downloading
        then s.downloads[i].(status := Paused) else s.downloads[i]),
      Seqs.Filter(s.activeDownloads, (a: string) => a != id))
  }

  /** `resumeDownload`: a paused download with the id becomes pending again. */
  function ResumeDownload(s: Store, id: string): (r: Store)
    ensures |r.downloads| == |s.downloads| && r.activeDownloads == s.activeDownloads
    ensures forall i :: 0 <= i < |s.downloads| ==>
      r.downloads[i] == if s.downloads[i].id == id then s.downloads[i].(status := ResumedStatus(s.downloads[i].status)) else s.downloads[i]
  {
    s.(downloads := seq(|s.downloads|, i requires 0 <= i < |s.downloads| =>
      if s.downloads[i].id == id && s.downloads[i].status == Paused
      then s.downloads[i].(status := Pending) else s.downloads[i]))
  }

  /** Pausing then resuming returns a downloading download to the queue as pending; a
      download in any other state is untouched by both, and pausing twice is pausing once. */
  lemma PauseResume(s: Store, id: string)
    ensures var r := ResumeDownload(PauseDownload(s, id), id);
      forall i :: 0 <= i < |s.downloads| ==>
        r.downloads[i].status == (if s.downloads[i].id == id && s.downloads[i].status in {Downloading, Paused}
                                  then Pending else s.downloads[i].status)
    ensures PauseDownload(PauseDownload(s, id), id).downloads == PauseDownload(s, id).downloads
  {
  }

  /** `clearCompletedDownloads`: removes exactly the completed downloads and keeps the rest in order. */
  function ClearCompleted(s: Store): (r: Store)
    ensures r.activeDownloads == s.activeDownloads
    ensures forall i :: 0 <= i < |r.downloads| ==> r.downloads[i].status != Completed && r.downloads[i] in s.downloads
    ensures forall i :: 0 <= i < |s.downloads| && s.downloads[i].status != Completed ==> s.downloads[i] in r.downloads
    ensures |r.downloads| == |s.downloads| - Seqs.Count(s.downloads, IsCompleted)
    ensures Seqs.IsSubsequence(r.downloads, s.downloads)
    ensures forall d :: multiset(r.downloads)[d] == if d.status != Completed then multiset(s.downloads)[d] else 0
  {
    ComplementCount(s.downloads);
    Seqs.FilterKeepsOrder(s.downloads, NotCompleted);
    s.(downloads := Seqs.Filter(s.downloads, NotCompleted))
  }

  /** `deleteAllDownloads` (after the files are deleted): both lists end empty. */
  function DeleteAll(s: Store): (r: Store)
    ensures |r.downloads| == 0 && |r.activeDownloads| == 0
  {
    Store([], [])
  }

  /** After `deleteAllDownloads` no id or anime has a download left and the downloads
      screen shows no series. */
  lemma DeleteAllForgets(s: Store, id: string, animeId: string)
    ensures GetDownload(DeleteAll(s), id).None?
    ensures GetDownloadsByAnime(DeleteAll(s), animeId) == []
    ensures DownloadedSeries(DeleteAll(s)) == []
  {
  }

  predicate IsCompleted(d: Download)
  {
    d.status == Completed
  }

  predicate NotCompleted(d: Download)
  {
    d.status != Completed
  }

  /** Every download is either completed or not. */
  lemma {:induction false} ComplementCount(ds: seq<Download>)
    ensures Seqs.Count(ds, IsCompleted) + Seqs.Count(ds, NotCompleted) == |ds|
  {
    if |ds| > 0 {
      ComplementCount(ds[1..]);
    }
  }

  // ---------------------------------------------------------------------
  // Series summary

  /** One series of the downloads screen. */
  datatype Series = Series(
    animeId: string,
    animeName: string,
    animePoster: string,
    episodes: seq<Download>,
    totalEpisodes: nat,
    downloadedEpisodes: nat)

  /** The series a download joins: its anime's existing series, or a new empty one named
      after this download. */
  function SeriesBase(m: OM.OMap<Series>, d: Download): Series
  {
    match OM.Get(m, d.animeId)
    case Some(existing) => existing
    case None => Series(d.animeId, d.animeName, d.animePoster, [], 0, 0)
  }

  /** A series with one more download: appended to its episodes, counters advanced. */
  function WithEpisode(base: Series, d: Download): Series
  {
    base.(episodes := base.episodes + [d],
          totalEpisodes := base.totalEpisodes + 1,
          downloadedEpisodes := base.downloadedEpisodes + if d.status == Completed then 1 else 0)
  }

  /** Adds one download to the series map. */
  function AddToSeries(m: OM.OMap<Series>, d: Download): OM.OMap<Series>
  {
    OM.Set(m, d.animeId, WithEpisode(SeriesBase(m, d), d))
  }

  /** The series map after the loop over `ds`. */
  function SeriesMap(ds: seq<Download>): OM.OMap<Series>
  {
    if |ds| == 0 then OM.Empty() else AddToSeries(SeriesMap(ds[..|ds| - 1]), ds[|ds| - 1])
  }

  /** `getDownloadedSeries`: the series in the order their anime first appears. */
  function DownloadedSeries(s: Store): seq<Series>
  {
    OM.Values(SeriesMap(s.downloads))
  }

  function AnimeIds(ds: seq<Download>): (ids: seq<string>)
    ensures |ids| == |ds| && forall i :: 0 <= i < |ds| ==> ids[i] == ds[i].animeId
  {
    seq(|ds|, i requires 0 <= i < |ds| => ds[i].animeId)
  }

  /** The series an anime should get, defined directly from the download list: all its
      downloads in order, their number, the number completed, and the name and poster of
      its first download. */
  function ExpectedSeries(ds: seq<Download>, animeId: string): Series
    requires animeId in AnimeIds(ds)
  {
    var eps := Seqs.Filter(ds, OfAnime(animeId));
    AnimeHasDownloads(ds, animeId);
    Series(animeId, eps[0].animeName, eps[0].animePoster, eps, |eps|, Seqs.Count(eps, IsCompleted))
  }

  /** An anime that occurs has at least one download. */
  lemma AnimeHasDownloads(ds: seq<Download>, a: string)
    requires a in AnimeIds(ds)
    ensures |Seqs.Filter(ds, OfAnime(a))| > 0
  {
    var k :| 0 <= k < |ds| && AnimeIds(ds)[k] == a;
    assert OfAnime(a)(ds[k]);
  }

  /** The invariant of the series loop: one series per anime, keyed in first-appearance
      order, each holding what `ExpectedSeries` says. */
  predicate SeriesInvariant(ds: seq<Download>, m: OM.OMap<Series>)
  {
    && OM.Valid(m)
    && OM.Keys(m) == Seqs.Dedup(AnimeIds(ds))
    && forall a :: a in AnimeIds(ds) ==> OM.Get(m, a) == Some(ExpectedSeries(ds, a))
  }

  /** Appending one download to a list adds it to the filter of its own anime only. */
  lemma FilterAppendOne(ds: seq<Download>, d: Download, a: string)
    ensures Seqs.Filter(ds + [d], OfAnime(a)) ==
      if d.animeId == a then Seqs.Filter(ds, OfAnime(a)) + [d] else Seqs.Filter(ds, OfAnime(a))
  {
    Seqs.FilterAppend(ds, [d], OfAnime(a));
    Seqs.FilterSingleton(d, OfAnime(a));
  }

  /** One step of the series loop keeps the key order: first appearance order. */
  lemma AddToSeriesKeys(ds: seq<Download>, d: Download, m: OM.OMap<Series>)
    requires OM.Valid(m) && OM.Keys(m) == Seqs.Dedup(AnimeIds(ds))
    ensures OM.Valid(AddToSeries(m, d))
    ensures OM.Keys(AddToSeries(m, d)) == Seqs.Dedup(AnimeIds(ds + [d]))
    ensures forall b :: b != d.animeId ==> OM.Get(AddToSeries(m, d), b) == OM.Get(m, b)
    ensures OM.Get(AddToSeries(m, d), d.animeId) == Some(WithEpisode(SeriesBase(m, d), d))
  {
    var ids := AnimeIds(ds + [d]);
    assert ids == AnimeIds(ds) + [d.animeId];
    assert ids[..|ds|] == AnimeIds(ds);
    OM.SetSpec(m, d.animeId, WithEpisode(SeriesBase(m, d), d));
  }

  /** The series of the appended download's anime, when that anime already had one. */
  lemma ExpectedSeriesExtend(ds: seq<Download>, d: Download)
    requires d.animeId in AnimeIds(ds)
    ensures d.animeId in AnimeIds(ds + [d])
    ensures ExpectedSeries(ds + [d], d.animeId) == WithEpisode(ExpectedSeries(ds, d.animeId), d)
  {
    var a := d.animeId;
    var eps := Seqs.Filter(ds, OfAnime(a));
    assert AnimeIds(ds + [d])[|ds|] == a;
    FilterAppendOne(ds, d, a);
    Seqs.CountAppend(eps, [d], IsCompleted);
    Seqs.FilterSingleton(d, IsCompleted);
    AnimeHasDownloads(ds, a);
    assert (eps + [d])[0] == eps[0];
  }

  /** The series of the appended download's anime, when that anime is new. */
  lemma ExpectedSeriesNew(ds: seq<Download>, d: Download)
    requires d.animeId !in AnimeIds(ds)
    ensures d.animeId in AnimeIds(ds + [d])
    ensures ExpectedSeries(ds + [d], d.animeId) == WithEpisode(Series(d.animeId, d.animeName, d.animePoster, [], 0, 0), d)
  {
    var a := d.animeId;
    assert AnimeIds(ds + [d])[|ds|] == a;
    FilterAppendOne(ds, d, a);
    NoDownloadsOf(ds, a);
    Seqs.FilterSingleton(d, IsCompleted);
  }

  /** An anime that does not occur has no downloads. */
  lemma NoDownloadsOf(ds: seq<Download>, a: string)
    requires a !in AnimeIds(ds)
    ensures Seqs.Filter(ds, OfAnime(a)) == []
  {
    forall i | 0 <= i < |ds| ensures !OfAnime(a)(ds[i]) {
      assert AnimeIds(ds)[i] == ds[i].animeId;
    }
    Seqs.FilterNone(ds, OfAnime(a));
  }

  /** The series of any other anime is unaffected by the appended download. */
  lemma ExpectedSeriesOther(ds: seq<Download>, d: Download, b: string)
    requires b != d.animeId && b in AnimeIds(ds + [d])
    ensures b in AnimeIds(ds)
    ensures ExpectedSeries(ds + [d], b) == ExpectedSeries(ds, b)
  {
    var ids := AnimeIds(ds + [d]);
    var k :| 0 <= k < |ids| && ids[k] == b;
    assert k < |ds| && AnimeIds(ds)[k] == b;
    FilterAppendOne(ds, d, b);
  }

  /** One step of the series loop keeps its invariant. */
  lemma AddToSeriesStep(ds: seq<Download>, d: Download, m: OM.OMap<Series>, ds': seq<Download>)
    requires SeriesInvariant(ds, m) && ds' == ds + [d]
    ensures SeriesInvariant(ds', AddToSeries(m, d))
  {
    var a := d.animeId;
    var m' := AddToSeries(m, d);
    AddToSeriesKeys(ds, d, m);
    assert OM.Has(m, a) <==> a in AnimeIds(ds);
    if a in AnimeIds(ds) {
      ExpectedSeriesExtend(ds, d);
    } else {
      ExpectedSeriesNew(ds, d);
    }
    forall b | b in AnimeIds(ds + [d]) && b != a
      ensures OM.Get(m', b) == Some(ExpectedSeries(ds + [d], b))
    {
      ExpectedSeriesOther(ds, d, b);
    }
  }

  /** Before the loop runs, the empty map meets the invariant of the empty list. */
  lemma SeriesMapEmpty(ds: seq<Download>)
    requires |ds| == 0
    ensures SeriesInvariant(ds, SeriesMap(ds))
  {
    assert OM.Keys(OM.Empty<Series>()) == [];
    assert AnimeIds(ds) == [];
  }

  /** The loop establishes its invariant over the whole list. */
  lemma {:induction false} SeriesMapCorrect(ds: seq<Download>)
    ensures SeriesInvariant(ds, SeriesMap(ds))
  {
    if |ds| == 0 {
      SeriesMapEmpty(ds);
    } else {
      var init := ds[..|ds| - 1];
      assert init + [ds[|ds| - 1]] == ds;
      SeriesMapCorrect(init);
      AddToSeriesStep(init, ds[|ds| - 1], SeriesMap(init), ds);
    }
  }

  /** Sum of the episode totals of a list of series. */
  function TotalEpisodes(ss: seq<Series>): nat
  {
    if |ss| == 0 then 0 else TotalEpisodes(ss[..|ss| - 1]) + ss[|ss| - 1].totalEpisodes
  }

  lemma {:induction false} TotalEpisodesAppend(a: seq<Series>, b: seq<Series>)
    ensures TotalEpisodes(a + b) == TotalEpisodes(a) + TotalEpisodes(b)
    decreases |b|
  {
    if |b| > 0 {
      assert (a + b)[..|a + b| - 1] == a + b[..|b| - 1];
      TotalEpisodesAppend(a, b[..|b| - 1]);
    } else {
      assert a + b == a;
    }
  }

  /** Replacing one series changes the sum by the difference of the two totals. */
  lemma {:induction false} TotalEpisodesReplace(ss: seq<Series>, i: nat, x: Series)
    requires i < |ss|
    ensures TotalEpisodes(ss[i := x]) + ss[i].totalEpisodes == TotalEpisodes(ss) + x.totalEpisodes
  {
    var n := |ss| - 1;
    assert ss[i := x][..n] == if i == n then ss[..n] else ss[..n][i := x];
    if i < n {
      TotalEpisodesReplace(ss[..n], i, x);
    }
  }

  /** One step of the series loop adds exactly one to the sum of the totals. */
  lemma AddToSeriesTotal(m: OM.OMap<Series>, d: Download)
    requires OM.Valid(m)
    ensures TotalEpisodes(OM.Values(AddToSeries(m, d))) == TotalEpisodes(OM.Values(m)) + 1
  {
    var v := WithEpisode(SeriesBase(m, d), d);
    assert v.totalEpisodes == SeriesBase(m, d).totalEpisodes + 1;
    var i := Seqs.IndexOf(OM.Keys(m), d.animeId);
    OM.SetValues(m, d.animeId, v);
    if i >= 0 {
      TotalReplaceAt(m, d, i, v);
    } else {
      TotalAppendNew(OM.Values(m), v);
    }
  }

  /** Advancing the series already at position `i` adds one to the sum of the totals. */
  lemma TotalReplaceAt(m: OM.OMap<Series>, d: Download, i: nat, v: Series)
    requires OM.Valid(m) && i < |m.entries| && m.entries[i].0 == d.animeId
    requires v.totalEpisodes == SeriesBase(m, d).totalEpisodes + 1
    ensures TotalEpisodes(OM.Values(m)[i := v]) == TotalEpisodes(OM.Values(m)) + 1
  {
    OM.GetAt(m, i);
    TotalEpisodesReplace(OM.Values(m), i, v);
  }

  /** Appending a new series of one episode adds one to the sum of the totals. */
  lemma TotalAppendNew(vs: seq<Series>, v: Series)
    requires v.totalEpisodes == 1
    ensures TotalEpisodes(vs + [v]) == TotalEpisodes(vs) + 1
  {
    assert (vs + [v])[..|vs|] == vs;
  }

  /** The series totals count each download once. */
  lemma {:induction false} SeriesTotalsSum(ds: seq<Download>)
    ensures TotalEpisodes(OM.Values(SeriesMap(ds))) == |ds|
  {
    if |ds| > 0 {
      var init := ds[..|ds| - 1];
      SeriesTotalsSum(init);
      SeriesMapCorrect(init);
      AddToSeriesTotal(SeriesMap(init), ds[|ds| - 1]);
    }
  }

  /** `getDownloadedSeries` lists each anime of the download list exactly once, in order of
      first appearance; each series holds exactly that anime's downloads in list order,
      counts them, counts the completed ones (never more than the total), and the totals
      add up to the number of downloads. */
  lemma DownloadedSeriesSpec(s: Store)
    ensures var ss := DownloadedSeries(s);
      && |ss| == |Seqs.Dedup(AnimeIds(s.downloads))|
      && (forall i :: 0 <= i < |ss| ==>
            && ss[i].animeId == Seqs.Dedup(AnimeIds(s.downloads))[i]
            && ss[i] == ExpectedSeries(s.downloads, ss[i].animeId)
            && ss[i].episodes == GetDownloadsByAnime(s, ss[i].animeId)
            && ss[i].totalEpisodes == |ss[i].episodes|
            && ss[i].downloadedEpisodes <= ss[i].totalEpisodes)
      && TotalEpisodes(ss) == |s.downloads|
  {
    var ds := s.downloads;
    SeriesMapCorrect(ds);
    SeriesTotalsSum(ds);
    var m := SeriesMap(ds);
    var ss := OM.Values(m);
    forall i | 0 <= i < |ss|
      ensures ss[i].animeId == Seqs.Dedup(AnimeIds(ds))[i]
      ensures ss[i] == ExpectedSeries(ds, ss[i].animeId)
    {
      var a := m.entries[i].0;
      assert OM.Keys(m)[i] == a;
      assert a in AnimeIds(ds);
      OM.GetAt(m, i);
    }
  }
}

=== FILE: focusable.dfy ===
/** The per-element binding: the registry record it builds from the element's measured
    rectangle, its registration on mount and removal on unmount, and the attributes
    and click behaviour it derives from the focus state. */
module Focusable {
  import opened Wrappers
  import ReactTV
  import OM = OrderedMap
  import Text

  /** The props the binding passes into its registry record. */
  datatype Props = Props(id: string, groupId: Option<string>, disabled: bool)

  /** The record registered for an element whose viewport rectangle is (`left`, `top`,
      `width`, `height`) while the page is scrolled by (`scrollLeft`, `scrollTop`). */
  function Record(p: Props, left: int, top: int, width: int, height: int, scrollLeft: int, scrollTop: int): (e: ReactTV.Element)
    ensures e.id == p.id && e.groupId == p.groupId && e.disabled == p.disabled
    ensures e.width == width && e.height == height
    ensures e.x - scrollLeft == left && e.y - scrollTop == top
  {
    ReactTV.Element(p.id, left + scrollLeft, top + scrollTop, width, height, p.groupId, p.disabled)
  }

  /** The record is in document coordinates: scrolling the page by (dx, dy), which moves
      the viewport rectangle by (-dx, -dy), leaves the record unchanged. */
  lemma RecordScrollInvariant(p: Props, left: int, top: int, width: int, height: int, scrollLeft: int, scrollTop: int, dx: int, dy: int)
    ensures Record(p, left - dx, top - dy, width, height, scrollLeft + dx, scrollTop + dy)
         == Record(p, left, top, width, height, scrollLeft, scrollTop)
  {
  }

  /** Mount (and every resize) registers the current record. */
  function Mount(s: ReactTV.State, p: Props, left: int, top: int, width: int, height: int, scrollLeft: int, scrollTop: int): ReactTV.State
  {
    ReactTV.RegisterElement(s, Record(p, left, top, width, height, scrollLeft, scrollTop))
  }

  /** Unmount unregisters the element's own id. */
  function Unmount(s: ReactTV.State, p: Props): ReactTV.State
  {
    ReactTV.UnregisterElement(s, p.id)
  }

  /** Unmounting removes exactly the element's own id, and mounting then unmounting an
      element whose id was not registered restores the element registry. */
  lemma MountUnmount(s: ReactTV.State, p: Props, left: int, top: int, width: int, height: int, scrollLeft: int, scrollTop: int)
    requires ReactTV.Valid(s)
    ensures !OM.Has(Unmount(s, p).elements, p.id)
    ensures forall k :: k != p.id ==> OM.Get(Unmount(s, p).elements, k) == OM.Get(s.elements, k)
    ensures !OM.Has(s.elements, p.id) ==>
      Unmount(Mount(s, p, left, top, width, height, scrollLeft, scrollTop), p) == s
  {
    ReactTV.UnregisterElementSpec(s, p.id);
    if !OM.Has(s.elements, p.id) {
      OM.SetThenDelete(s.elements, p.id, Record(p, left, top, width, height, scrollLeft, scrollTop));
    }
  }

  /** The element shows focus exactly when the provider's focus id is its own id. */
  predicate IsFocused(currentFocusId: Option<string>, id: string)
  {
    currentFocusId == Some(id)
  }

  /** `${className} ${isFocused ? focusClassName : ''}`.trim() */
  function ClassName(className: string, focused: bool, focusClassName: string): string
  {
    Text.Trim(className + " " + (if focused then focusClassName else ""))
  }

  /** Unfocused, a trimmed class list is rendered unchanged. */
  lemma ClassNameUnfocused(className: string, focusClassName: string)
    requires Text.Trimmed(className)
    ensures ClassName(className, false, focusClassName) == className
  {
    assert className + " " + "" == className + " ";
    Text.TrimTrailingSpace(className);
  }

  /** Focused, the focus class follows the class list after one space; with the default
      empty class list only the focus class is left, and with an empty focus class only
      the class list. */
  lemma ClassNameFocused(className: string, focusClassName: string)
    requires Text.Trimmed(className) && Text.Trimmed(focusClassName)
    ensures ClassName(className, true, focusClassName) ==
      if className == "" then focusClassName
      else if focusClassName == "" then className
      else className + " " + focusClassName
  {
    var t := className + " " + focusClassName;
    if className == "" {
      assert t == " " + focusClassName;
      Text.TrimLeadingSpace(focusClassName);
    } else if focusClassName == "" {
      assert t == className + " ";
      Text.TrimTrailingSpace(className);
    } else {
      assert t[0] == className[0];
      assert t[|t| - 1] == focusClassName[|focusClassName| - 1];
      assert Text.Trimmed(t);
    }
  }

  /** The rendered tab index: -1 for a disabled element, else the given one. */
  function TabIndex(disabled: bool, tabIndex: int): (t: int)
    ensures disabled ==> t == -1
    ensures !disabled ==> t == tabIndex
  {
    if disabled then -1 else tabIndex
  }

  /** A click calls `onSelect` exactly when the element is enabled and has a handler. */
  function ClickSelects(disabled: bool, hasOnSelect: bool): (fires: bool)
    ensures fires <==> !disabled && hasOnSelect
  {
    !disabled && hasOnSelect
  }

  /** A mounted element is out of the tab order exactly when the registry refuses to
      focus it, so keyboard focus and tab focus agree about disabled elements. */
  lemma TabIndexFollowsRegistry(s: ReactTV.State, p: Props, left: int, top: int, width: int, height: int, scrollLeft: int, scrollTop: int, tabIndex: int)
    requires ReactTV.Valid(s)
    ensures var m := Mount(s, p, left, top, width, height, scrollLeft, scrollTop);
      && (ReactTV.Focusable(m, p.id) <==> !p.disabled)
      && (!ReactTV.Focusable(m, p.id) ==> TabIndex(p.disabled, tabIndex) == -1)
      && (ReactTV.Focusable(m, p.id) ==> TabIndex(p.disabled, tabIndex) == tabIndex)
  {
    ReactTV.RegisterElementSpec(s, Record(p, left, top, width, height, scrollLeft, scrollTop));
  }

  /** A click on a mounted element with a non-empty id selects exactly when focusing it
      with the keyboard and pressing Enter would: the registry focuses it and selects it,
      and its handler runs. An element with the empty id is never the one selected from the keyboard. */
  lemma ClickMatchesKeyboardSelect(s: ReactTV.State, p: Props, left: int, top: int, width: int, height: int, scrollLeft: int, scrollTop: int, hasOnSelect: bool)
    requires ReactTV.Valid(s)
    ensures var m := ReactTV.FocusElement(Mount(s, p, left, top, width, height, scrollLeft, scrollTop), p.id);
      && (p.id != "" ==> (ClickSelects(p.disabled, hasOnSelect) <==> ReactTV.SelectCurrent(m) == Some(p.id) && hasOnSelect))
      && (p.id == "" ==> ReactTV.SelectCurrent(m) != Some(p.id))
  {
    var mounted := Mount(s, p, left, top, width, height, scrollLeft, scrollTop);
    ReactTV.RegisterElementSpec(s, Record(p, left, top, width, height, scrollLeft, scrollTop));
    ReactTV.FocusElementSpec(mounted, p.id);
    ReactTV.SelectCurrentSpec(ReactTV.FocusElement(mounted, p.id));
  }

  /** How many times pressing Enter runs the element's `onSelect`: `selectCurrent` calls
      it once directly and then clicks the element, and the click handler calls it again
      when the element is enabled. */
  function EnterSelectCalls(s: ReactTV.State, p: Props, hasOnSelect: bool): nat
  {
    if ReactTV.SelectCurrent(s) == Some(p.id)
    then (if hasOnSelect then 1 else 0) + (if ClickSelects(p.disabled, hasOnSelect) then 1 else 0)
    else 0
  }

  /** Enter on a mounted, focused element with a non-empty id runs its `onSelect` twice
      when it is enabled and has one, and never otherwise. */
  lemma EnterSelectsTwice(s: ReactTV.State, p: Props, left: int, top: int, width: int, height: int, scrollLeft: int, scrollTop: int, hasOnSelect: bool)
    requires ReactTV.Valid(s) && p.id != ""
    ensures var m := ReactTV.FocusElement(Mount(s, p, left, top, width, height, scrollLeft, scrollTop), p.id);
      EnterSelectCalls(m, p, hasOnSelect) == if !p.disabled && hasOnSelect then 2 else 0
  {
    ClickMatchesKeyboardSelect(s, p, left, top, width, height, scrollLeft, scrollTop, hasOnSelect);
  }
}

=== FILE: horizontal_list.dfy ===
/** The horizontal list container: the navigation group it registers while mounted
    and the scroll it requests to bring the focused item into view. */
module HorizontalList {
  import opened Wrappers
  import ReactTV
  import OM = OrderedMap
  import Seqs

  /** The group a list registers on mount: horizontal, with the given wrap-around
      policy and an empty member list (members are never filled in). */
  function ListGroup(id: string, wrapAround: bool): (g: ReactTV.Group)
    ensures g.id == id && g.wrapAround == wrapAround
    ensures g.orientation == Some(ReactTV.Horizontal)
    ensures |g.elements| == 0
  {
    ReactTV.Group(id, [], Some(ReactTV.Horizontal), wrapAround)
  }

  function Mount(s: ReactTV.State, id: string, wrapAround: bool): ReactTV.State
  {
    ReactTV.RegisterGroup(s, ListGroup(id, wrapAround))
  }

  function Unmount(s: ReactTV.State, id: string): ReactTV.State
  {
    ReactTV.UnregisterGroup(s, id)
  }

  /** Mounting registers exactly the list's group; unmounting afterwards removes it and
      restores the group registry when the id was free before. */
  lemma MountUnmount(s: ReactTV.State, id: string, wrapAround: bool)
    requires ReactTV.Valid(s)
    ensures OM.Get(Mount(s, id, wrapAround).groups, id) == Some(ListGroup(id, wrapAround))
    ensures forall k :: k != id ==> OM.Get(Mount(s, id, wrapAround).groups, k) == OM.Get(s.groups, k)
    ensures !OM.Has(Unmount(Mount(s, id, wrapAround), id).groups, id)
    ensures !OM.Has(s.groups, id) ==> Unmount(Mount(s, id, wrapAround), id) == s
  {
    ReactTV.GroupRegistrySpec(s, ListGroup(id, wrapAround), id);
    OM.SetSpec(s.groups, id, ListGroup(id, wrapAround));
    OM.DeleteSpec(OM.Set(s.groups, id, ListGroup(id, wrapAround)), id);
    if !OM.Has(s.groups, id) {
      OM.SetThenDelete(s.groups, id, ListGroup(id, wrapAround));
    }
  }

  /** Because the registered group has no members, an element whose group is a list's
      group never takes the group-local step: its moves fall through to the section
      jump and the global search. */
  lemma ListGroupNeverSteps(s: ReactTV.State, focusId: string, current: ReactTV.Element, dir: ReactTV.Direction, wrapAround: bool)
    requires current.groupId.Some?
    requires OM.Get(s.groups, current.groupId.value) == Some(ListGroup(current.groupId.value, wrapAround))
    ensures ReactTV.GroupStep(s, focusId, current, dir).None?
  {
  }

  /** The scroll offset the list requests when the focused item (at `itemLeft`, `itemWidth`
      wide) is not fully inside the visible range [scrollLeft, scrollLeft + containerWidth]:
      cut off on the left it scrolls to `spacing` before the item (never below 0); cut off
      on the right it scrolls so the view ends `spacing` after the item. The left case is
      checked first. */
  function ScrollIntoView(itemLeft: int, itemWidth: int, containerWidth: int, scrollLeft: int, spacing: int): (r: Option<int>)
    ensures r.None? <==> scrollLeft <= itemLeft && itemLeft + itemWidth <= scrollLeft + containerWidth
    ensures itemLeft < scrollLeft ==> r.Some? && r.value >= 0
    ensures itemLeft < scrollLeft && spacing >= 0 && itemLeft >= 0 ==> r.Some? && r.value <= itemLeft
    ensures itemLeft < scrollLeft && itemLeft >= spacing ==> r == Some(itemLeft - spacing)
    ensures itemLeft < scrollLeft && itemLeft < spacing ==> r == Some(0)
    ensures scrollLeft <= itemLeft && itemLeft + itemWidth > scrollLeft + containerWidth ==>
      r.Some? && r.value + containerWidth == itemLeft + itemWidth + spacing
  {
    var itemEnd := itemLeft + itemWidth;
    var viewEnd := scrollLeft + containerWidth;
    if itemLeft < scrollLeft then Some(if itemLeft - spacing > 0 then itemLeft - spacing else 0)
    else if itemEnd > viewEnd then Some(itemLeft - containerWidth + itemWidth + spacing)
    else None
  }

  /** Scrolling to the requested offset settles: when the item plus its spacing fits in
      the container, a second pass at the new offset requests nothing. */
  lemma ScrollIntoViewSettles(itemLeft: int, itemWidth: int, containerWidth: int, scrollLeft: int, spacing: int)
    requires itemLeft >= 0 && itemWidth >= 0 && spacing >= 0
    requires itemWidth + spacing <= containerWidth
    requires ScrollIntoView(itemLeft, itemWidth, containerWidth, scrollLeft, spacing).Some?
    ensures var t := ScrollIntoView(itemLeft, itemWidth, containerWidth, scrollLeft, spacing).value;
      ScrollIntoView(itemLeft, itemWidth, containerWidth, t, spacing).None?
  {
  }
}

=== FILE: nav_provider.dfy ===
/** The edge-based TV focus engine (`NavigationProvider`): a registry of focusable
    elements keyed by id, a nearest-element search that scores candidates by the
    gap along the pressed direction plus a tenth of the cross-axis offset, a
    debounce flag that drops presses until a timer releases it, focus that is
    cleared when the focused element unregisters, and selection.

    Rectangles are the ones the elements report when the search runs, given as
    integers. The 100 ms timers become explicit steps: `Release` clears the
    debounce flag and `DelayedInitialFocus` is an initial-focus timer firing. */
module NavProvider {
  import opened Wrappers
  import Seqs
  import OM = OrderedMap

  datatype Direction = Left | Right | Up | Down

  /** A bounding rectangle in viewport coordinates. */
  datatype Rect = Rect(left: int, top: int, right: int, bottom: int)

  /** A registered element: its id, its current rectangle, whether it has an
      `onEnter` callback and its `autoScroll` option (unset means on). */
  datatype NavElement = NavElement(id: string, rect: Rect, hasOnEnter: bool, autoScroll: Option<bool>)

  datatype State = State(
    elements: OM.OMap<NavElement>,
    currentFocus: Option<string>,
    isNavigating: bool,
    initialFocus: Option<string>)

  /** JavaScript truthiness of an optional string: `null`, `undefined` and `""` are false. */
  predicate Truthy(o: Option<string>)
  {
    o.Some? && o.value != ""
  }

  /** Every element is stored under its own id in a well-formed map. */
  predicate Valid(s: State)
  {
    && OM.Valid(s.elements)
    && forall e :: e in s.elements.entries ==> e.1.id == e.0
  }

  /** Focus is either unset or names a registered element. */
  predicate FocusRegistered(s: State)
  {
    s.currentFocus.Some? ==> OM.Has(s.elements, s.currentFocus.value)
  }

  /** The provider when it mounts. */
  function Init(initialFocus: Option<string>): (s: State)
    ensures Valid(s) && FocusRegistered(s) && !s.isNavigating && s.currentFocus.None?
  {
    State(OM.Empty(), None, false, initialFocus)
  }

  // ---------------------------------------------------------------------
  // Registry

  /** `registerElement`: upserts the element under `id`. */
  function RegisterElement(s: State, id: string, rect: Rect, hasOnEnter: bool, autoScroll: Option<bool>): State
  {
    s.(elements := OM.Set(s.elements, id, NavElement(id, rect, hasOnEnter, autoScroll)))
  }

  /** Whether `registerElement(id, …)` schedules the delayed initial focus: the id is
      the designated initial focus and nothing is focused. */
  predicate SchedulesInitialFocus(s: State, id: string)
  {
    s.initialFocus == Some(id) && !Truthy(s.currentFocus)
  }

  /** A 100 ms initial-focus timer firing, the one `registerElement` schedules or the one
      the initial-focus effect schedules: it sets the focus id directly, without checking
      that the element is still registered or that nothing else was focused meanwhile. */
  function DelayedInitialFocus(s: State, id: string): State
  {
    s.(currentFocus := Some(id))
  }

  /** `unregisterElement`: deletes the id and clears focus when it was the focused one. */
  function UnregisterElement(s: State, id: string): State
  {
    s.(elements := OM.Delete(s.elements, id),
       currentFocus := if s.currentFocus == Some(id) then None else s.currentFocus)
  }

  /** Registering is an upsert keyed by the id; focus and the debounce flag are untouched,
      and a registered focus stays registered. */
  lemma RegisterElementSpec(s: State, id: string, rect: Rect, hasOnEnter: bool, autoScroll: Option<bool>)
    requires Valid(s)
    ensures var r := RegisterElement(s, id, rect, hasOnEnter, autoScroll);
      && Valid(r)
      && OM.Get(r.elements, id) == Some(NavElement(id, rect, hasOnEnter, autoScroll))
      && (forall k :: k != id ==> OM.Get(r.elements, k) == OM.Get(s.elements, k))
      && r.currentFocus == s.currentFocus && r.isNavigating == s.isNavigating
      && (FocusRegistered(s) ==> FocusRegistered(r))
  {
    var e := NavElement(id, rect, hasOnEnter, autoScroll);
    OM.SetSpec(s.elements, id, e);
    OM.SetEntries(s.elements, id, e);
    var r := RegisterElement(s, id, rect, hasOnEnter, autoScroll);
    if FocusRegistered(s) && s.currentFocus.Some? {
      var f := s.currentFocus.value;
      assert OM.Get(r.elements, f).Some?;
    }
  }

  /** Unregistering deletes only that id (a no-op on the registry when it is absent) and
      clears focus exactly when the focused id is removed, so focus never names a
      removed element. */
  lemma UnregisterElementSpec(s: State, id: string)
    requires Valid(s)
    ensures var r := UnregisterElement(s, id);
      && Valid(r)
      && !OM.Has(r.elements, id)
      && (forall k :: k != id ==> OM.Get(r.elements, k) == OM.Get(s.elements, k))
      && (!OM.Has(s.elements, id) ==> r.elements == s.elements)
      && (s.currentFocus == Some(id) ==> r.currentFocus.None?)
      && (s.currentFocus != Some(id) ==> r.currentFocus == s.currentFocus)
      && (FocusRegistered(s) ==> FocusRegistered(r))
  {
    OM.DeleteSpec(s.elements, id);
    OM.DeleteEntries(s.elements, id);
    var r := UnregisterElement(s, id);
    if FocusRegistered(s) && r.currentFocus.Some? {
      assert OM.Get(r.elements, r.currentFocus.value).Some?;
    }
  }

  /** The delayed initial focus keeps focus registered only while the element is still
      registered: an unregistration before the timer fires leaves focus on a removed id. */
  lemma DelayedInitialFocusSpec(s: State, id: string)
    ensures DelayedInitialFocus(s, id).currentFocus == Some(id)
    ensures DelayedInitialFocus(s, id).elements == s.elements
    ensures FocusRegistered(DelayedInitialFocus(s, id)) <==> OM.Has(s.elements, id)
  {
  }

  /** Registering the initial element, unregistering it and then letting the timer fire
      leaves focus on an id that is no longer registered. */
  lemma DelayedInitialFocusMayDangle()
    ensures var s0 := Init(Some("hero"));
      var s1 := RegisterElement(s0, "hero", Rect(0, 0, 10, 10), false, None);
      var s2 := UnregisterElement(s1, "hero");
      && SchedulesInitialFocus(s0, "hero")
      && DelayedInitialFocus(s2, "hero").currentFocus == Some("hero")
      && !FocusRegistered(DelayedInitialFocus(s2, "hero"))
  {
    var e := NavElement("hero", Rect(0, 0, 10, 10), false, None);
    OM.SetThenDelete(OM.Empty<NavElement>(), "hero", e);
    assert OM.Keys(OM.Empty<NavElement>()) == [];
  }

  // ---------------------------------------------------------------------
  // Focus and selection

  /** `focusElement`: a no-op for an unregistered id, else focus moves to `id`. */
  function FocusElement(s: State, id: string): State
  {
    if OM.Has(s.elements, id) then s.(currentFocus := Some(id)) else s
  }

  /** The element `focusElement(id)` blurs: the focused one, when focus is set, differs
      from `id` and is registered, and `id` itself is registered. */
  function BlurredBy(s: State, id: string): Option<string>
  {
    if OM.Has(s.elements, id) && Truthy(s.currentFocus) && s.currentFocus.value != id
       && OM.Has(s.elements, s.currentFocus.value)
    then s.currentFocus
    else None
  }

  /** Whether `focusElement(id)` scrolls the element into view: it is registered and its
      `autoScroll` is not explicitly `false`. */
  predicate ScrollsIntoView(s: State, id: string)
  {
    OM.Has(s.elements, id) && OM.Get(s.elements, id).value.autoScroll != Some(false)
  }

  /** Focusing an unregistered id changes nothing; otherwise focus becomes the id and
      nothing else changes. The old element is blurred only when it differs from the
      target, so re-focusing the focused element blurs nothing. */
  lemma FocusElementSpec(s: State, id: string)
    ensures !OM.Has(s.elements, id) ==> FocusElement(s, id) == s && BlurredBy(s, id).None?
    ensures OM.Has(s.elements, id) ==> FocusElement(s, id) == s.(currentFocus := Some(id))
    ensures BlurredBy(s, id).Some? ==> BlurredBy(s, id) == s.currentFocus && s.currentFocus != Some(id)
    ensures s.currentFocus == Some(id) ==> BlurredBy(s, id).None?
    ensures FocusRegistered(FocusElement(s, id)) <== FocusRegistered(s)
  {
  }

  /** `selectCurrent`: the id whose `onEnter` fires, if any. */
  function SelectCurrent(s: State): Option<string>
  {
    if !Truthy(s.currentFocus) then None
    else match OM.Get(s.elements, s.currentFocus.value)
      case Some(e) => if e.hasOnEnter then Some(s.currentFocus.value) else None
      case None => None
  }

  /** Only the focused element's `onEnter` can fire, and only when it is registered and
      has one; with nothing focused nothing fires. */
  lemma SelectCurrentSpec(s: State)
    ensures !Truthy(s.currentFocus) ==> SelectCurrent(s).None?
    ensures SelectCurrent(s).Some? <==>
      Truthy(s.currentFocus) && OM.Has(s.elements, s.currentFocus.value)
      && OM.Get(s.elements, s.currentFocus.value).value.hasOnEnter
    ensures SelectCurrent(s).Some? ==> SelectCurrent(s) == s.currentFocus
  {
  }

  // ---------------------------------------------------------------------
  // Nearest-element search

  /** The 10-pixel edge test: the candidate lies on the pressed side of the current
      element, allowing an overlap of up to 10 pixels. */
  predicate InDirection(dir: Direction, cur: Rect, r: Rect)
  {
    match dir
    case Left => r.right <= cur.left + 10
    case Right => r.left >= cur.right - 10
    case Up => r.bottom <= cur.top + 10
    case Down => r.top >= cur.bottom - 10
  }

  /** The gap between the facing edges along the pressed direction. */
  function Gap(dir: Direction, cur: Rect, r: Rect): int
  {
    match dir
    case Left => cur.left - r.right
    case Right => r.left - cur.right
    case Up => cur.top - r.bottom
    case Down => r.top - cur.bottom
  }

  /** The cross-axis offset: between top edges for Left/Right, left edges for Up/Down. */
  function Offset(dir: Direction, cur: Rect, r: Rect): (o: nat)
  {
    var d := if dir == Left || dir == Right then r.top - cur.top else r.left - cur.left;
    if d < 0 then -d else d
  }

  /** The source's score `gap + 0.1 * offset`, scaled by 10 to stay in integers. */
  function Score(dir: Direction, cur: Rect, r: Rect): int
  {
    10 * Gap(dir, cur, r) + Offset(dir, cur, r)
  }

  /** The source computes the score in floating point as `gap + 0.1 * offset`; read over
      the reals, the integer score is ten times that value, so the scaling keeps its sign
      and the order between any two candidates. */
  lemma ScoreScaled(dir: Direction, cur: Rect, r: Rect, r': Rect)
    ensures Score(dir, cur, r) as real == 10.0 * (Gap(dir, cur, r) as real + Offset(dir, cur, r) as real * 0.1)
    ensures Score(dir, cur, r) >= 0 <==> Gap(dir, cur, r) as real + Offset(dir, cur, r) as real * 0.1 >= 0.0
    ensures Score(dir, cur, r) <= Score(dir, cur, r') <==>
      Gap(dir, cur, r) as real + Offset(dir, cur, r) as real * 0.1
        <= Gap(dir, cur, r') as real + Offset(dir, cur, r') as real * 0.1
  {
  }

  /** A candidate for a move from `curId`: another element, in the pressed direction,
      with a non-negative score. */
  predicate IsCandidate(curId: string, cur: Rect, dir: Direction, e: NavElement)
  {
    e.id != curId && InDirection(dir, cur, e.rect) && Score(dir, cur, e.rect) >= 0
  }

  /** The head of the candidates after the stable sort by score: the first one with
      minimal score. */
  function FirstLowest(cur: Rect, dir: Direction, cs: seq<NavElement>): (r: Option<NavElement>)
    ensures r.None? <==> |cs| == 0
    ensures r.Some? ==> r.value in cs
    ensures r.Some? ==> forall i :: 0 <= i < |cs| ==> Score(dir, cur, r.value.rect) <= Score(dir, cur, cs[i].rect)
  {
    if |cs| == 0 then None
    else
      var rest := FirstLowest(cur, dir, cs[1..]);
      if rest.None? || Score(dir, cur, cs[0].rect) <= Score(dir, cur, rest.value.rect) then Some(cs[0])
      else rest
  }

  /** `findNextElement`: none when nothing (truthy) is focused or the focused id is not
      registered; otherwise the first lowest-scoring candidate in registry order. */
  function FindNext(s: State, dir: Direction): Option<string>
  {
    if !Truthy(s.currentFocus) then None
    else match OM.Get(s.elements, s.currentFocus.value)
      case None => None
      case Some(ce) =>
        var curId := s.currentFocus.value;
        var cs := Candidates(curId, ce.rect, dir, OM.Values(s.elements));
        match FirstLowest(ce.rect, dir, cs)
        case Some(e) => Some(e.id)
        case None => None
  }

  /** An independent reading of the search as one pass over the elements in registry
      order: the position of the first candidate whose score no candidate beats. */
  function FirstBest(curId: string, cur: Rect, dir: Direction, vs: seq<NavElement>): (k: int)
    ensures -1 <= k < |vs|
  {
    if |vs| == 0 then -1
    else
      var k := FirstBest(curId, cur, dir, vs[1..]);
      if IsCandidate(curId, cur, dir, vs[0])
         && (k == -1 || Score(dir, cur, vs[0].rect) <= Score(dir, cur, vs[1..][k].rect))
      then 0
      else if k == -1 then -1
      else k + 1
  }

  /** The single pass finds nothing exactly when there is no candidate; otherwise its pick
      is a candidate whose score no candidate beats, and every earlier candidate scores
      strictly worse. */
  lemma {:induction false} FirstBestSpec(curId: string, cur: Rect, dir: Direction, vs: seq<NavElement>)
    ensures var k := FirstBest(curId, cur, dir, vs);
      k == -1 <==> forall i :: 0 <= i < |vs| ==> !IsCandidate(curId, cur, dir, vs[i])
    ensures var k := FirstBest(curId, cur, dir, vs);
      k >= 0 ==> IsCandidate(curId, cur, dir, vs[k])
    ensures var k := FirstBest(curId, cur, dir, vs);
      k >= 0 ==> forall j :: 0 <= j < |vs| && IsCandidate(curId, cur, dir, vs[j]) ==>
        Score(dir, cur, vs[k].rect) <= Score(dir, cur, vs[j].rect)
    ensures var k := FirstBest(curId, cur, dir, vs);
      k >= 0 ==> forall j :: 0 <= j < k && IsCandidate(curId, cur, dir, vs[j]) ==>
        Score(dir, cur, vs[k].rect) < Score(dir, cur, vs[j].rect)
  {
    if |vs| > 0 {
      var t := vs[1..];
      FirstBestSpec(curId, cur, dir, t);
      var k' := FirstBest(curId, cur, dir, t);
      var k := FirstBest(curId, cur, dir, vs);
      assert forall j :: 0 <= j < |t| ==> vs[j + 1] == t[j];
      if k > 0 {
        assert k == k' + 1 && vs[k] == t[k'];
      }
    }
  }

  /** The candidates for a move from `curId`, in registry order. */
  function Candidates(curId: string, cur: Rect, dir: Direction, vs: seq<NavElement>): seq<NavElement>
  {
    Seqs.Filter(vs, e => IsCandidate(curId, cur, dir, e))
  }

  /** The first lowest score of a non-empty list compares its head with the first lowest
      of its tail; the head wins ties. */
  lemma FirstLowestCons(cur: Rect, dir: Direction, x: NavElement, cs: seq<NavElement>)
    ensures var rest := FirstLowest(cur, dir, cs);
      FirstLowest(cur, dir, [x] + cs)
        == if rest.None? || Score(dir, cur, x.rect) <= Score(dir, cur, rest.value.rect) then Some(x) else rest
  {
    assert ([x] + cs)[1..] == cs;
  }

  /** Filtering then taking the first lowest score picks the element the single pass
      picks. */
  lemma {:induction false} FilterThenLowest(curId: string, cur: Rect, dir: Direction, vs: seq<NavElement>)
    ensures var k := FirstBest(curId, cur, dir, vs);
      FirstLowest(cur, dir, Candidates(curId, cur, dir, vs)) == if k == -1 then None else Some(vs[k])
  {
    if |vs| > 0 {
      var t := vs[1..];
      FilterThenLowest(curId, cur, dir, t);
      var f := Candidates(curId, cur, dir, t);
      if IsCandidate(curId, cur, dir, vs[0]) {
        assert Candidates(curId, cur, dir, vs) == [vs[0]] + f;
        FirstLowestCons(cur, dir, vs[0], f);
      } else {
        assert Candidates(curId, cur, dir, vs) == f;
      }
    }
  }

  /** With a truthy, registered focus, the search returns the element the single pass
      over the registry picks. */
  lemma FindNextIsFirstBest(s: State, dir: Direction)
    requires Truthy(s.currentFocus) && OM.Has(s.elements, s.currentFocus.value)
    ensures var curId := s.currentFocus.value;
      var cur := OM.Get(s.elements, curId).value.rect;
      var vs := OM.Values(s.elements);
      var k := FirstBest(curId, cur, dir, vs);
      FindNext(s, dir) == if k == -1 then None else Some(vs[k].id)
  {
    var curId := s.currentFocus.value;
    var cur := OM.Get(s.elements, curId).value.rect;
    FilterThenLowest(curId, cur, dir, OM.Values(s.elements));
  }

  /** The search finds nothing when nothing (truthy) is focused or the focus is not
      registered. */
  lemma FindNextWithoutFocus(s: State, dir: Direction)
    ensures !Truthy(s.currentFocus) || !OM.Has(s.elements, s.currentFocus.value) ==> FindNext(s, dir).None?
  {
  }

  /** The search's result is never the focused element and is always registered. */
  lemma FindNextRegistered(s: State, dir: Direction)
    requires Valid(s)
    ensures FindNext(s, dir).Some? ==> FindNext(s, dir) != s.currentFocus
    ensures FindNext(s, dir).Some? ==> OM.Has(s.elements, FindNext(s, dir).value)
  {
    if FindNext(s, dir).Some? {
      FindNextIsFirstBest(s, dir);
      var curId := s.currentFocus.value;
      var vs := OM.Values(s.elements);
      var k := FirstBest(curId, OM.Get(s.elements, curId).value.rect, dir, vs);
      assert s.elements.entries[k] in s.elements.entries;
      assert OM.Keys(s.elements)[k] == vs[k].id;
    }
  }

  // ---------------------------------------------------------------------
  // Debounced moves

  /** `moveLeft`/`moveRight`/`moveUp`/`moveDown`: dropped while the debounce flag is set;
      otherwise the flag is set and a truthy search result is focused. */
  function Move(s: State, dir: Direction): State
  {
    if s.isNavigating then s
    else
      var next := FindNext(s, dir);
      var t := if Truthy(next) then FocusElement(s, next.value) else s;
      t.(isNavigating := true)
  }

  /** The debounce timer firing. */
  function Release(s: State): State
  {
    s.(isNavigating := false)
  }

  /** A move while the flag is set changes nothing; otherwise it sets the flag, leaves the
      registry alone and focuses the search result when that is a non-empty id. */
  lemma MoveSpec(s: State, dir: Direction)
    requires Valid(s)
    ensures s.isNavigating ==> Move(s, dir) == s
    ensures !s.isNavigating ==> Move(s, dir).isNavigating && Move(s, dir).elements == s.elements
    ensures !s.isNavigating ==>
      Move(s, dir).currentFocus == (if Truthy(FindNext(s, dir)) then FindNext(s, dir) else s.currentFocus)
    ensures FocusRegistered(s) ==> FocusRegistered(Move(s, dir))
  {
    FindNextRegistered(s, dir);
  }

  /** Presses applied one after another with no release in between. */
  function Moves(s: State, dirs: seq<Direction>): State
    decreases |dirs|
  {
    if |dirs| == 0 then s else Moves(Move(s, dirs[0]), dirs[1..])
  }

  /** While the flag is set, any burst of presses is dropped. */
  lemma {:induction false} MovesWhileNavigating(s: State, dirs: seq<Direction>)
    requires s.isNavigating
    ensures Moves(s, dirs) == s
    decreases |dirs|
  {
    if |dirs| > 0 {
      MovesWhileNavigating(s, dirs[1..]);
    }
  }

  /** Without a release, a burst of presses moves focus at most once: the result is that
      of the first press alone. */
  lemma MovesWithoutRelease(s: State, dirs: seq<Direction>)
    requires |dirs| > 0
    ensures Moves(s, dirs) == Move(s, dirs[0])
  {
    var t := Move(s, dirs[0]);
    assert t.isNavigating;
    MovesWhileNavigating(t, dirs[1..]);
  }

  // ---------------------------------------------------------------------
  // Initial focus

  /** The initial-focus effect: when the designated id is non-empty and registered and
      nothing is focused, it schedules a 100 ms timer for that id; otherwise it schedules
      nothing. The timer runs the `focusElement` of the render that scheduled it, whose
      registry still holds the id and whose focus is still unset, so when it fires it
      only sets the focus: it is `DelayedInitialFocus`, applied to whatever the state is
      by then. The effect runs again after every change of the registry or the focus. */
  function InitialFocusSchedule(s: State): (r: Option<string>)
  {
    if Truthy(s.initialFocus) && OM.Has(s.elements, s.initialFocus.value) && !Truthy(s.currentFocus)
    then s.initialFocus
    else None
  }

  /** The effect schedules a timer exactly under its condition, for the designated id; a
      timer that fires before anything else changes does what a fresh `focusElement`
      would, blurring nothing and leaving focus registered. */
  lemma InitialFocusEffectSpec(s: State)
    ensures InitialFocusSchedule(s).Some? <==>
      Truthy(s.initialFocus) && OM.Has(s.elements, s.initialFocus.value) && !Truthy(s.currentFocus)
    ensures InitialFocusSchedule(s).Some? ==>
      && InitialFocusSchedule(s) == s.initialFocus
      && DelayedInitialFocus(s, s.initialFocus.value) == FocusElement(s, s.initialFocus.value)
      && BlurredBy(s, s.initialFocus.value).None?
      && FocusRegistered(DelayedInitialFocus(s, s.initialFocus.value))
  {
  }

  /** Registering another element while nothing is focused runs the effect again and
      schedules one more timer for the same id. */
  lemma InitialFocusRescheduled(s: State, id: string, rect: Rect, hasOnEnter: bool, autoScroll: Option<bool>)
    requires Valid(s)
    requires InitialFocusSchedule(s).Some? && id != s.initialFocus.value
    ensures InitialFocusSchedule(RegisterElement(s, id, rect, hasOnEnter, autoScroll)) == InitialFocusSchedule(s)
  {
    OM.SetSpec(s.elements, id, NavElement(id, rect, hasOnEnter, autoScroll));
  }

  /** Two registered elements, "hero" designated first and "b" beside it, with nothing
      focused yet: the effect has scheduled a timer for "hero". */
  function TwoElements(): (s: State)
    ensures Valid(s) && s.currentFocus.None? && s.initialFocus == Some("hero")
    ensures OM.Has(s.elements, "hero") && OM.Has(s.elements, "b")
    ensures InitialFocusSchedule(s) == Some("hero")
  {
    var eh := NavElement("hero", Rect(0, 0, 10, 10), false, None);
    var eb := NavElement("b", Rect(20, 0, 30, 10), false, None);
    var m0 := OM.Empty<NavElement>();
    assert OM.Keys(m0) == [];
    OM.SetSpec(m0, "hero", eh);
    var m1 := OM.Set(m0, "hero", eh);
    OM.SetSpec(m1, "b", eb);
    var s1 := RegisterElement(Init(Some("hero")), "hero", Rect(0, 0, 10, 10), false, None);
    assert s1.elements == m1;
    RegisterElement(s1, "b", Rect(20, 0, 30, 10), false, None)
  }

  /** The timer does not look at the state it fires in: if the user focuses another
      element first, the timer takes the focus back to the designated id. */
  lemma InitialFocusTimerOverrides()
    ensures var moved := FocusElement(TwoElements(), "b");
      && moved.currentFocus == Some("b")
      && DelayedInitialFocus(moved, "hero").currentFocus == Some("hero")
  {
  }

  /** If the designated element unregisters before the timer fires, the timer leaves focus
      on the removed id. */
  lemma InitialFocusTimerDangles()
    ensures var gone := UnregisterElement(TwoElements(), "hero");
      && !OM.Has(gone.elements, "hero")
      && !FocusRegistered(DelayedInitialFocus(gone, "hero"))
  {
    OM.DeleteSpec(TwoElements().elements, "hero");
  }

  // ---------------------------------------------------------------------
  // Keys

  datatype Key = Arrow(dir: Direction) | Enter | Space | OtherKey

  /** The window key handler: arrows move, Enter and Space select, other keys do nothing.
      Returns the new state and the id whose `onEnter` fires. */
  function HandleKey(s: State, key: Key): (State, Option<string>)
  {
    match key
    case Arrow(d) => (Move(s, d), None)
    case Enter => (s, SelectCurrent(s))
    case Space => (s, SelectCurrent(s))
    case OtherKey => (s, None)
  }

  /** Every key keeps focus registered, and only Enter and Space select. */
  lemma HandleKeySpec(s: State, key: Key)
    requires Valid(s)
    ensures FocusRegistered(s) ==> FocusRegistered(HandleKey(s, key).0)
    ensures HandleKey(s, key).0.elements == s.elements
    ensures HandleKey(s, key).1.Some? ==> (key == Enter || key == Space) && HandleKey(s, key).1 == s.currentFocus
  {
    if key.Arrow? {
      MoveSpec(s, key.dir);
    }
  }
}

=== FILE: ordered_map.dfy ===
/** A JavaScript `Map`: key/value entries kept in insertion order. Setting an
    existing key replaces its value in place (its position does not change);
    deleting removes the entry; iteration (`keys()`, `values()`) follows the
    entry order. Both TV providers keep their registries in such maps, and the
    order decides tie-breaks and the initial focus. */
module OrderedMap {
  import opened Wrappers
  import Seqs

  /** String keys, as in every map of the source. */
  datatype OMap<V> = OMap(entries: seq<(string, V)>)

  /** The empty map (`new Map()`). */
  function Empty<V>(): OMap<V>
  {
    OMap([])
  }

  /** `Array.from(m.keys())`. */
  function Keys<V>(m: OMap<V>): (ks: seq<string>)
    ensures |ks| == |m.entries|
    ensures forall i :: 0 <= i < |ks| ==> ks[i] == m.entries[i].0
  {
    seq(|m.entries|, i requires 0 <= i < |m.entries| => m.entries[i].0)
  }

  /** `Array.from(m.values())`. */
  function Values<V>(m: OMap<V>): (vs: seq<V>)
    ensures |vs| == |m.entries|
    ensures forall i :: 0 <= i < |vs| ==> vs[i] == m.entries[i].1
  {
    seq(|m.entries|, i requires 0 <= i < |m.entries| => m.entries[i].1)
  }

  /** Every key occurs once, as in any `Map`. */
  predicate Valid<V>(m: OMap<V>)
  {
    Seqs.Distinct(Keys(m))
  }

  /** `m.has(k)`. */
  predicate Has<V>(m: OMap<V>, k: string)
  {
    k in Keys(m)
  }

  /** Lookup in an entry list: the value of the first entry with key `k`. */
  function Lookup<V>(es: seq<(string, V)>, k: string): (r: Option<V>)
    ensures r.None? <==> forall i :: 0 <= i < |es| ==> es[i].0 != k
    ensures r.Some? ==> exists i :: 0 <= i < |es| && es[i] == (k, r.value)
  {
    if |es| == 0 then None
    else if es[0].0 == k then Some(es[0].1)
    else
      var r := Lookup(es[1..], k);
      assert r.Some? ==> exists i :: 0 <= i < |es[1..]| && es[1..][i] == (k, r.value);
      r
  }

  /** Lookup in a concatenation looks in the first part first. */
  lemma {:induction false} LookupAppend<V>(a: seq<(string, V)>, b: seq<(string, V)>, k: string)
    ensures Lookup(a + b, k) == if Lookup(a, k).Some? then Lookup(a, k) else Lookup(b, k)
  {
    if |a| > 0 {
      assert (a + b)[1..] == a[1..] + b;
      LookupAppend(a[1..], b, k);
    } else {
      assert a + b == b;
    }
  }

  /** `m.get(k)`. */
  function Get<V>(m: OMap<V>, k: string): (r: Option<V>)
    ensures r.Some? <==> Has(m, k)
  {
    Lookup(m.entries, k)
  }

  /** Replacing entry `i` by a new value for the same key changes only that key's lookup. */
  lemma LookupReplace<V>(es: seq<(string, V)>, i: nat, v: V, k': string)
    requires i < |es| && Lookup(es[..i], es[i].0).None?
    ensures Lookup(es[..i] + [(es[i].0, v)] + es[i + 1..], k')
         == if k' == es[i].0 then Some(v) else Lookup(es, k')
  {
    var k := es[i].0;
    assert es == es[..i] + [es[i]] + es[i + 1..];
    LookupAppend(es[..i] + [(k, v)], es[i + 1..], k');
    LookupAppend(es[..i], [(k, v)], k');
    LookupAppend(es[..i] + [es[i]], es[i + 1..], k');
    LookupAppend(es[..i], [es[i]], k');
  }

  /** Removing entry `i` changes only the lookup of its key. */
  lemma LookupRemove<V>(es: seq<(string, V)>, i: nat, k': string)
    requires i < |es| && k' != es[i].0
    ensures Lookup(es[..i] + es[i + 1..], k') == Lookup(es, k')
  {
    assert es == es[..i] + [es[i]] + es[i + 1..];
    LookupAppend(es[..i], es[i + 1..], k');
    LookupAppend(es[..i] + [es[i]], es[i + 1..], k');
    LookupAppend(es[..i], [es[i]], k');
  }

  /** The keys before the first occurrence of `k` are not `k`. */
  lemma LookupBeforeFirst<V>(m: OMap<V>, k: string)
    requires Seqs.IndexOf(Keys(m), k) >= 0
    ensures Lookup(m.entries[..Seqs.IndexOf(Keys(m), k)], k).None?
  {
    var i := Seqs.IndexOf(Keys(m), k);
    assert k !in Keys(m)[..i];
    assert forall j :: 0 <= j < i ==> m.entries[..i][j].0 == Keys(m)[..i][j];
  }

  /** `m.set(k, v)`: replaces the value in place when `k` is present, else appends. */
  function Set<V>(m: OMap<V>, k: string, v: V): (r: OMap<V>)
  {
    var i := Seqs.IndexOf(Keys(m), k);
    if i >= 0 then OMap(m.entries[..i] + [(k, v)] + m.entries[i + 1..])
    else OMap(m.entries + [(k, v)])
  }

  /** `set` is an upsert: the key maps to the new value, every other key is unchanged,
      an existing key keeps its position and a new key goes last. */
  lemma SetSpec<V>(m: OMap<V>, k: string, v: V)
    requires Valid(m)
    ensures Valid(Set(m, k, v))
    ensures Has(m, k) ==> Keys(Set(m, k, v)) == Keys(m)
    ensures !Has(m, k) ==> Keys(Set(m, k, v)) == Keys(m) + [k]
    ensures Get(Set(m, k, v), k) == Some(v)
    ensures forall k' :: k' != k ==> Get(Set(m, k, v), k') == Get(m, k')
  {
    var es := m.entries;
    var r := Set(m, k, v);
    SetLookup(m, k, v);
    if Has(m, k) {
      assert Keys(r) == Keys(m);
    } else {
      assert Keys(r) == Keys(m) + [k];
    }
  }

  /** The lookups after `set`: the new value for its key, the old ones elsewhere. */
  lemma SetLookup<V>(m: OMap<V>, k: string, v: V)
    ensures forall k' :: Lookup(Set(m, k, v).entries, k') == if k' == k then Some(v) else Lookup(m.entries, k')
  {
    var i := Seqs.IndexOf(Keys(m), k);
    var es := m.entries;
    var rs := Set(m, k, v).entries;
    if i >= 0 {
      assert rs == es[..i] + [(es[i].0, v)] + es[i + 1..];
      LookupBeforeFirst(m, k);
      forall k' ensures Lookup(rs, k') == if k' == k then Some(v) else Lookup(es, k') {
        LookupReplace(es, i, v, k');
      }
    } else {
      assert rs == es + [(k, v)];
      forall k' ensures Lookup(rs, k') == if k' == k then Some(v) else Lookup(es, k') {
        LookupAppend(es, [(k, v)], k');
      }
    }
  }

  /** `m.delete(k)`: removes the entry for `k`; nothing else moves. */
  function Delete<V>(m: OMap<V>, k: string): (r: OMap<V>)
  {
    var i := Seqs.IndexOf(Keys(m), k);
    if i >= 0 then OMap(m.entries[..i] + m.entries[i + 1..]) else m
  }

  /** The keys left after removing position `i` of a duplicate-free key list. */
  lemma KeysRemove<V>(m: OMap<V>, i: nat)
    requires Valid(m) && i < |m.entries|
    ensures Keys(OMap(m.entries[..i] + m.entries[i + 1..])) == Keys(m)[..i] + Keys(m)[i + 1..]
    ensures Seqs.Distinct(Keys(m)[..i] + Keys(m)[i + 1..])
    ensures Keys(m)[i] !in Keys(m)[..i] + Keys(m)[i + 1..]
  {
    var ks := Keys(m);
    var rest := ks[..i] + ks[i + 1..];
    forall p | 0 <= p < |rest| ensures rest[p] == ks[if p < i then p else p + 1] {
    }
  }

  /** `delete` removes exactly the key: it is absent afterwards, every other key keeps
      its value, and deleting an absent key changes nothing. */
  lemma DeleteSpec<V>(m: OMap<V>, k: string)
    requires Valid(m)
    ensures Valid(Delete(m, k))
    ensures !Has(Delete(m, k), k)
    ensures forall k' :: k' != k ==> Get(Delete(m, k), k') == Get(m, k')
    ensures !Has(m, k) ==> Delete(m, k) == m
    ensures Has(m, k) ==> |Delete(m, k).entries| == |m.entries| - 1
  {
    var i := Seqs.IndexOf(Keys(m), k);
    if i >= 0 {
      var r := OMap(m.entries[..i] + m.entries[i + 1..]);
      assert Delete(m, k) == r;
      KeysRemove(m, i);
      assert Keys(r) == Keys(m)[..i] + Keys(m)[i + 1..];
      forall k' | k' != k ensures Lookup(r.entries, k') == Lookup(m.entries, k') {
        LookupRemove(m.entries, i, k');
      }
    }
  }


  /** Every entry after `set` is the new one or was already there. */
  lemma SetEntries<V>(m: OMap<V>, k: string, v: V)
    ensures forall e :: e in Set(m, k, v).entries ==> e == (k, v) || e in m.entries
  {
    var i := Seqs.IndexOf(Keys(m), k);
    if i >= 0 {
      assert m.entries == m.entries[..i] + [m.entries[i]] + m.entries[i + 1..];
    }
  }

  /** Every entry after `delete` was already there. */
  lemma DeleteEntries<V>(m: OMap<V>, k: string)
    ensures forall e :: e in Delete(m, k).entries ==> e in m.entries
  {
    var i := Seqs.IndexOf(Keys(m), k);
    if i >= 0 {
      assert m.entries == m.entries[..i] + [m.entries[i]] + m.entries[i + 1..];
    }
  }

  /** Adding a fresh key and deleting it again gives back the original map. */
  lemma SetThenDelete<V>(m: OMap<V>, k: string, v: V)
    requires !Has(m, k)
    ensures Delete(Set(m, k, v), k) == m
  {
    var r := Set(m, k, v);
    assert r.entries == m.entries + [(k, v)];
    assert Keys(r) == Keys(m) + [k];
    Seqs.IndexOfAppendFresh(Keys(m), k);
    assert r.entries[..|m.entries|] == m.entries;
  }

  /** In a well-formed map the entry at any position is what its key looks up. */
  lemma GetAt<V>(m: OMap<V>, k: nat)
    requires Valid(m) && k < |m.entries|
    ensures Get(m, m.entries[k].0) == Some(m.entries[k].1)
  {
    var es := m.entries;
    var key := es[k].0;
    assert es == es[..k] + ([es[k]] + es[k + 1..]);
    assert Lookup(es[..k], key).None? by {
      forall i | 0 <= i < k ensures es[..k][i].0 != key {
        assert Keys(m)[i] != Keys(m)[k];
      }
    }
    LookupAppend(es[..k], [es[k]] + es[k + 1..], key);
  }

  /** `set` on a present key replaces its value in `values()`; on a new key it appends. */
  lemma SetValues<V>(m: OMap<V>, k: string, v: V)
    ensures var i := Seqs.IndexOf(Keys(m), k);
      Values(Set(m, k, v)) == if i >= 0 then Values(m)[i := v] else Values(m) + [v]
  {
    var i := Seqs.IndexOf(Keys(m), k);
    var vs := Values(Set(m, k, v));
    if i >= 0 {
      assert |vs| == |Values(m)[i := v]|;
      forall j | 0 <= j < |vs| ensures vs[j] == Values(m)[i := v][j] {
      }
    } else {
      assert |vs| == |Values(m) + [v]|;
      forall j | 0 <= j < |vs| ensures vs[j] == (Values(m) + [v])[j] {
      }
    }
  }
}

=== FILE: react_tv.dfy ===
/** The registry-based TV focus engine (`TVNavigationProvider`): a registry of
    focusable elements and navigation groups, a resolver that answers an
    arrow press with the next element to focus (group-local step, then the
    adjacent page section, then a geometric nearest-candidate search), focus
    and selection, the one-shot initial focus, and the scroll targets computed
    when an element gains focus.

    DOM effects (`focus()`, `blur()`, `click()`, `scrollTo`) are not performed:
    the functions return the new state and, where relevant, which element a
    callback fires for or which scroll offset is requested. */
module ReactTV {
  import opened Wrappers
  import Seqs
  import OM = OrderedMap

  datatype Direction = Up | Down | Left | Right

  datatype Orientation = Horizontal | Vertical | Grid

  /** A registered element: its id, its bounds in document coordinates, its
      optional group and whether it is disabled. */
  datatype Element = Element(
    id: string,
    x: int, y: int, width: int, height: int,
    groupId: Option<string>,
    disabled: bool)

  /** A navigation group. `elements` is the group's own list of element
      records, which the group's registrant supplies; `orientation` may be unset. */
  datatype Group = Group(
    id: string,
    elements: seq<Element>,
    orientation: Option<Orientation>,
    wrapAround: bool)

  datatype State = State(
    currentFocusId: Option<string>,
    elements: OM.OMap<Element>,
    groups: OM.OMap<Group>,
    isInitialized: bool,
    initialFocus: Option<string>)

  /** JavaScript truthiness of an optional string: `null`, `undefined` and `""` are false. */
  predicate Truthy(o: Option<string>)
  {
    o.Some? && o.value != ""
  }

  /** Every element is stored under its own id, and both maps are well formed. */
  predicate Valid(s: State)
  {
    && OM.Valid(s.elements)
    && OM.Valid(s.groups)
    && forall e :: e in s.elements.entries ==> e.1.id == e.0
  }

  /** The provider when it mounts: nothing registered, nothing focused. */
  function Init(initialFocus: Option<string>): (s: State)
    ensures Valid(s) && s.currentFocusId.None? && !s.isInitialized
  {
    State(None, OM.Empty(), OM.Empty(), false, initialFocus)
  }

  // ---------------------------------------------------------------------
  // Registry

  function RegisterElement(s: State, e: Element): State
  {
    s.(elements := OM.Set(s.elements, e.id, e))
  }

  function UnregisterElement(s: State, id: string): State
  {
    s.(elements := OM.Delete(s.elements, id))
  }

  function RegisterGroup(s: State, g: Group): State
  {
    s.(groups := OM.Set(s.groups, g.id, g))
  }

  function UnregisterGroup(s: State, id: string): State
  {
    s.(groups := OM.Delete(s.groups, id))
  }

  /** Registering an element is an upsert keyed by its id: afterwards the id maps to the
      new element, every other id is unchanged, and focus and groups are untouched. */
  lemma RegisterElementSpec(s: State, e: Element)
    requires Valid(s)
    ensures Valid(RegisterElement(s, e))
    ensures OM.Get(RegisterElement(s, e).elements, e.id) == Some(e)
    ensures forall k :: k != e.id ==> OM.Get(RegisterElement(s, e).elements, k) == OM.Get(s.elements, k)
    ensures RegisterElement(s, e).currentFocusId == s.currentFocusId
    ensures RegisterElement(s, e).groups == s.groups
  {
    OM.SetSpec(s.elements, e.id, e);
    OM.SetEntries(s.elements, e.id, e);
  }

  /** Unregistering deletes only that id (a no-op when it is absent); it does not
      touch `currentFocusId`, which may therefore name an element no longer registered. */
  lemma UnregisterElementSpec(s: State, id: string)
    requires Valid(s)
    ensures Valid(UnregisterElement(s, id))
    ensures !OM.Has(UnregisterElement(s, id).elements, id)
    ensures forall k :: k != id ==> OM.Get(UnregisterElement(s, id).elements, k) == OM.Get(s.elements, k)
    ensures !OM.Has(s.elements, id) ==> UnregisterElement(s, id) == s
    ensures UnregisterElement(s, id).currentFocusId == s.currentFocusId
  {
    OM.DeleteSpec(s.elements, id);
    OM.DeleteEntries(s.elements, id);
  }

  /** Registering a group is an upsert and unregistering deletes only that id; neither
      touches the element registry nor focus. */
  lemma GroupRegistrySpec(s: State, g: Group, id: string)
    requires Valid(s)
    ensures Valid(RegisterGroup(s, g)) && Valid(UnregisterGroup(s, id))
    ensures OM.Get(RegisterGroup(s, g).groups, g.id) == Some(g)
    ensures forall k :: k != g.id ==> OM.Get(RegisterGroup(s, g).groups, k) == OM.Get(s.groups, k)
    ensures !OM.Has(UnregisterGroup(s, id).groups, id)
    ensures forall k :: k != id ==> OM.Get(UnregisterGroup(s, id).groups, k) == OM.Get(s.groups, k)
    ensures RegisterGroup(s, g).elements == s.elements && UnregisterGroup(s, id).elements == s.elements
    ensures RegisterGroup(s, g).currentFocusId == s.currentFocusId
    ensures UnregisterGroup(s, id).currentFocusId == s.currentFocusId
  {
    OM.SetSpec(s.groups, g.id, g);
    OM.DeleteSpec(s.groups, id);
  }

  // ---------------------------------------------------------------------
  // Focus and selection

  /** `focusElement`: moves focus to `id` only when it is registered and enabled. */
  function FocusElement(s: State, id: string): State
  {
    match OM.Get(s.elements, id)
    case Some(e) => if e.disabled then s else s.(currentFocusId := Some(id))
    case None => s
  }

  /** The element whose `onBlur` fires when `focusElement(id)` runs: the currently
      focused one, if registered, even when it is `id` itself. */
  function BlurredBy(s: State, id: string): Option<string>
  {
    match OM.Get(s.elements, id)
    case Some(e) =>
      if !e.disabled && Truthy(s.currentFocusId) && OM.Has(s.elements, s.currentFocusId.value)
      then s.currentFocusId else None
    case None => None
  }

  /** A registered, enabled element. */
  predicate Focusable(s: State, id: string)
  {
    OM.Get(s.elements, id).Some? && !OM.Get(s.elements, id).value.disabled
  }

  /** Focus changes exactly when the target is registered and enabled; nothing else
      changes; a blur fires only for a registered element and only alongside a focus. */
  lemma FocusElementSpec(s: State, id: string)
    ensures Focusable(s, id) ==> FocusElement(s, id) == s.(currentFocusId := Some(id))
    ensures !Focusable(s, id) ==> FocusElement(s, id) == s
    ensures BlurredBy(s, id).Some? ==> Focusable(s, id) && BlurredBy(s, id) == s.currentFocusId
    ensures BlurredBy(s, id).Some? ==> OM.Has(s.elements, BlurredBy(s, id).value)
  {
  }

  /** `selectCurrent`: the element whose `onSelect` (and click) fires, if any. */
  function SelectCurrent(s: State): Option<string>
  {
    if Truthy(s.currentFocusId) && Focusable(s, s.currentFocusId.value) then s.currentFocusId else None
  }

  /** Selection fires exactly for a focused, registered, enabled element. */
  lemma SelectCurrentSpec(s: State)
    ensures SelectCurrent(s).Some? <==> Truthy(s.currentFocusId) && Focusable(s, s.currentFocusId.value)
    ensures SelectCurrent(s).Some? ==> SelectCurrent(s) == s.currentFocusId
  {
  }

  // ---------------------------------------------------------------------
  // Geometric candidate search

  /** Four times the squared distance between the centres of two elements. Doubling the
      centre coordinates keeps the arithmetic integral, and squaring keeps the order of
      the Euclidean distance, so comparing these values compares distances. */
  function CenterDistance(from: Element, to: Element): (d: int)
    ensures d >= 0
    ensures d as real == 4.0 * (
      ((to.x as real + to.width as real / 2.0) - (from.x as real + from.width as real / 2.0))
      * ((to.x as real + to.width as real / 2.0) - (from.x as real + from.width as real / 2.0))
      + ((to.y as real + to.height as real / 2.0) - (from.y as real + from.height as real / 2.0))
      * ((to.y as real + to.height as real / 2.0) - (from.y as real + from.height as real / 2.0)))
  {
    var dx := (2 * to.x + to.width) - (2 * from.x + from.width);
    var dy := (2 * to.y + to.height) - (2 * from.y + from.height);
    dx * dx + dy * dy
  }

  /** A candidate lies in the pressed direction by its top-left corner alone. */
  predicate InDirection(current: Element, c: Element, dir: Direction)
  {
    match dir
    case Up => c.y < current.y
    case Down => c.y > current.y
    case Left => c.x < current.x
    case Right => c.x > current.x
  }

  /** A candidate the search may return: another, enabled element in the direction. */
  predicate Eligible(current: Element, c: Element, dir: Direction)
  {
    c.id != current.id && !c.disabled && InDirection(current, c, dir)
  }

  /** The index the search loop ends with over `cs`: the first eligible candidate of
      least distance (a later one replaces the best only when strictly nearer), or -1. */
  function BestIndex(current: Element, cs: seq<Element>, dir: Direction): (k: int)
    ensures -1 <= k < |cs|
    ensures k == -1 <==> forall i :: 0 <= i < |cs| ==> !Eligible(current, cs[i], dir)
    ensures k >= 0 ==> Eligible(current, cs[k], dir)
    ensures k >= 0 ==> forall j :: 0 <= j < |cs| && Eligible(current, cs[j], dir) ==>
      CenterDistance(current, cs[k]) <= CenterDistance(current, cs[j])
    ensures k >= 0 ==> forall j :: 0 <= j < k && Eligible(current, cs[j], dir) ==>
      CenterDistance(current, cs[k]) < CenterDistance(current, cs[j])
  {
    if |cs| == 0 then -1
    else
      var n := |cs| - 1;
      var b := BestIndex(current, cs[..n], dir);
      assert forall i :: 0 <= i < n ==> cs[..n][i] == cs[i];
      if Eligible(current, cs[n], dir)
         && (b == -1 || CenterDistance(current, cs[n]) < CenterDistance(current, cs[b]))
      then n
      else b
  }

  /** `findBestCandidate`: the search over every registered element in registry order. */
  function FindBestCandidate(s: State, current: Element, dir: Direction): Option<Element>
  {
    var cs := OM.Values(s.elements);
    var k := BestIndex(current, cs, dir);
    if k == -1 then None else Some(cs[k])
  }

  /** The search returns none exactly when no registered element is eligible; otherwise a
      registered element other than the current one, enabled, strictly in the direction,
      at least as near as every eligible element and strictly nearer than every eligible
      element registered before it. */
  lemma FindBestCandidateSpec(s: State, current: Element, dir: Direction)
    ensures var cs := OM.Values(s.elements);
      FindBestCandidate(s, current, dir).None? <==> forall i :: 0 <= i < |cs| ==> !Eligible(current, cs[i], dir)
    ensures var r := FindBestCandidate(s, current, dir);
      r.Some? ==> (r.value in OM.Values(s.elements) && r.value.id != current.id && !r.value.disabled
                   && InDirection(current, r.value, dir))
    ensures var r := FindBestCandidate(s, current, dir); var cs := OM.Values(s.elements);
      r.Some? ==> forall j :: 0 <= j < |cs| && Eligible(current, cs[j], dir) ==>
        CenterDistance(current, r.value) <= CenterDistance(current, cs[j])
    ensures var r := FindBestCandidate(s, current, dir); var cs := OM.Values(s.elements);
      r.Some? ==> (exists k :: 0 <= k < |cs| && cs[k] == r.value &&
                    forall j :: 0 <= j < k && Eligible(current, cs[j], dir) ==>
                      CenterDistance(current, r.value) < CenterDistance(current, cs[j]))
  {
  }

  // ---------------------------------------------------------------------
  // Group-local step

  /** The index a group-local step goes to among `n` enabled members from `idx`, or -1
      when the group does not handle the direction or the step falls off the end
      without wrap-around. */
  function NextIndex(orientation: Option<Orientation>, wrapAround: bool, dir: Direction, idx: nat, n: nat): (r: int)
    requires idx < n
    ensures -1 <= r < n
  {
    var back := if idx > 0 then idx - 1 else if wrapAround then n - 1 else -1;
    var fwd := if idx < n - 1 then idx + 1 else if wrapAround then 0 else -1;
    match orientation
    case Some(Horizontal) => (match dir case Left => back case Right => fwd case _ => -1)
    case Some(Vertical) => (match dir case Up => back case Down => fwd case _ => -1)
    case _ => -1
  }

  /** Horizontal groups handle only Left/Right and vertical groups only Up/Down; a step
      inside the range moves by one; past an end it wraps to the other end when the
      group wraps, else it falls through (-1). */
  lemma NextIndexSpec(o: Option<Orientation>, wrap: bool, dir: Direction, idx: nat, n: nat)
    requires idx < n
    ensures var r := NextIndex(o, wrap, dir, idx, n); -1 <= r < n
    ensures var r := NextIndex(o, wrap, dir, idx, n);
      (o == Some(Horizontal) && (dir == Up || dir == Down)) ==> r == -1
    ensures var r := NextIndex(o, wrap, dir, idx, n);
      (o == Some(Vertical) && (dir == Left || dir == Right)) ==> r == -1
    ensures var r := NextIndex(o, wrap, dir, idx, n);
      (o.None? || o == Some(Grid)) ==> r == -1
    ensures var r := NextIndex(o, wrap, dir, idx, n); var forward := dir == Right || dir == Down;
      (o == Some(Horizontal) && (dir == Left || dir == Right)) || (o == Some(Vertical) && (dir == Up || dir == Down)) ==>
        && (forward && idx < n - 1 ==> r == idx + 1)
        && (forward && idx == n - 1 ==> r == (if wrap then 0 else -1))
        && (!forward && idx > 0 ==> r == idx - 1)
        && (!forward && idx == 0 ==> r == (if wrap then n - 1 else -1))
  {
  }

  /** The enabled members of a group, in the group's order. */
  function EnabledMembers(g: Group): (ms: seq<Element>)
    ensures forall i :: 0 <= i < |ms| ==> !ms[i].disabled
  {
    Seqs.Filter(g.elements, (e: Element) => !e.disabled)
  }

  /** The step inside one group: from the focused id's first position among the enabled
      members, by `NextIndex`; none when the id is not an enabled member or the step
      falls through. */
  function GroupTarget(g: Group, focusId: string, dir: Direction): Option<string>
  {
    var ms := EnabledMembers(g);
    var idx := Seqs.FindIndex(ms, (e: Element) => e.id == focusId);
    if idx == -1 then None
    else
      var next := NextIndex(g.orientation, g.wrapAround, dir, idx, |ms|);
      NextIndexSpec(g.orientation, g.wrapAround, dir, idx, |ms|);
      if next == -1 then None else Some(ms[next].id)
  }

  /** A group-local target is an enabled member of the group, found by stepping from the
      focused id's first position among the enabled members; an id that is not an enabled
      member of the group never moves. */
  lemma GroupTargetSpec(g: Group, focusId: string, dir: Direction)
    ensures var r := GroupTarget(g, focusId, dir); var ms := EnabledMembers(g);
      r.Some? ==> (exists i :: 0 <= i < |ms| && ms[i].id == r.value)
    ensures var ms := EnabledMembers(g);
      (forall i :: 0 <= i < |ms| ==> ms[i].id != focusId) ==> GroupTarget(g, focusId, dir).None?
    ensures var r := GroupTarget(g, focusId, dir); var ms := EnabledMembers(g);
      var idx := Seqs.FindIndex(ms, (e: Element) => e.id == focusId);
      r.Some? ==> (0 <= idx && ms[idx].id == focusId
                   && var next := NextIndex(g.orientation, g.wrapAround, dir, idx, |ms|);
                      0 <= next && r.value == ms[next].id)
  {
    var ms := EnabledMembers(g);
    var idx := Seqs.FindIndex(ms, (e: Element) => e.id == focusId);
    if idx != -1 {
      NextIndexSpec(g.orientation, g.wrapAround, dir, idx, |ms|);
    }
  }

  /** The group-local target for the focused id, or none to fall through. */
  function GroupStep(s: State, focusId: string, current: Element, dir: Direction): (r: Option<string>)
    ensures r.Some? ==> Truthy(current.groupId) && OM.Has(s.groups, current.groupId.value)
  {
    if !Truthy(current.groupId) then None
    else match OM.Get(s.groups, current.groupId.value)
      case None => None
      case Some(g) => GroupTarget(g, focusId, dir)
  }

  /** A group-local target is an enabled member of the focused element's own group, and
      the focused id must itself be an enabled member of that group. */
  lemma GroupStepSpec(s: State, focusId: string, current: Element, dir: Direction)
    ensures var r := GroupStep(s, focusId, current, dir);
      r.Some? ==> (Truthy(current.groupId) && OM.Has(s.groups, current.groupId.value)
                   && var ms := EnabledMembers(OM.Get(s.groups, current.groupId.value).value);
                      (exists i :: 0 <= i < |ms| && ms[i].id == r.value)
                      && (exists i :: 0 <= i < |ms| && ms[i].id == focusId))
  {
    if Truthy(current.groupId) && OM.Get(s.groups, current.groupId.value).Some? {
      var g := OM.Get(s.groups, current.groupId.value).value;
      GroupTargetSpec(g, focusId, dir);
    }
  }

  // ---------------------------------------------------------------------
  // Section jump

  /** The jump to the next or previous page section on Up/Down. `sections` lists, in
      document order, the focusable ids inside each section; the focused element's
      section is the first that lists it. The target is the first focusable id of the
      adjacent section, when that id is non-empty. */
  function SectionStep(sections: seq<seq<string>>, focusId: string, dir: Direction): Option<string>
  {
    if dir == Left || dir == Right then None
    else
      var i := Seqs.FindIndex(sections, (sec: seq<string>) => focusId in sec);
      if i == -1 then None
      else
        var j := if dir == Down then i + 1 else i - 1;
        if 0 <= j < |sections| && |sections[j]| > 0 && sections[j][0] != "" then Some(sections[j][0])
        else None
  }

  /** A section jump happens only for Up/Down, only from an element inside a section, and
      lands on the first focusable id of the section just below (Down) or above (Up). */
  lemma SectionStepSpec(sections: seq<seq<string>>, focusId: string, dir: Direction)
    ensures (dir == Left || dir == Right) ==> SectionStep(sections, focusId, dir).None?
    ensures (forall i :: 0 <= i < |sections| ==> focusId !in sections[i]) ==> SectionStep(sections, focusId, dir).None?
    ensures var r := SectionStep(sections, focusId, dir);
      r.Some? ==> (exists i :: 0 <= i < |sections| && focusId in sections[i]
                    && (forall h :: 0 <= h < i ==> focusId !in sections[h])
                    && var j := if dir == Down then i + 1 else i - 1;
                       0 <= j < |sections| && r.value == sections[j][0] && r.value != "")
  {
  }

  // ---------------------------------------------------------------------
  // moveFocus

  /** The id `moveFocus` hands to `focusElement`, if any. */
  function Resolve(s: State, sections: seq<seq<string>>, dir: Direction): Option<string>
  {
    if !Truthy(s.currentFocusId) then None
    else
      var focusId := s.currentFocusId.value;
      match OM.Get(s.elements, focusId)
      case None => None
      case Some(current) =>
        var g := GroupStep(s, focusId, current, dir);
        if g.Some? then g
        else
          var sec := SectionStep(sections, focusId, dir);
          if sec.Some? then sec
          else
            match FindBestCandidate(s, current, dir)
            case Some(c) => Some(c.id)
            case None => None
  }

  /** `moveFocus`: resolve, then focus the target (which may itself be a no-op). */
  function MoveFocus(s: State, sections: seq<seq<string>>, dir: Direction): State
  {
    match Resolve(s, sections, dir)
    case Some(t) => FocusElement(s, t)
    case None => s
  }

  /** `moveFocus` does nothing when nothing is focused or the focused id is unregistered,
      and otherwise changes nothing but the focus. */
  lemma MoveFocusFrame(s: State, sections: seq<seq<string>>, dir: Direction)
    ensures !Truthy(s.currentFocusId) || !OM.Has(s.elements, s.currentFocusId.value) ==>
      MoveFocus(s, sections, dir) == s
    ensures MoveFocus(s, sections, dir) == s.(currentFocusId := MoveFocus(s, sections, dir).currentFocusId)
  {
    var r := Resolve(s, sections, dir);
    if r.Some? {
      assert MoveFocus(s, sections, dir) == FocusElement(s, r.value);
    }
  }

  /** The earlier stage wins: a group-local target is focused whenever it is focusable,
      and the section jump is taken only when the group step fell through. */
  lemma MoveFocusStages(s: State, sections: seq<seq<string>>, dir: Direction)
    requires Truthy(s.currentFocusId) && OM.Has(s.elements, s.currentFocusId.value)
    ensures var id := s.currentFocusId.value;
      var g := GroupStep(s, id, OM.Get(s.elements, id).value, dir);
      g.Some? && Focusable(s, g.value) ==> MoveFocus(s, sections, dir).currentFocusId == g
    ensures var id := s.currentFocusId.value;
      var g := GroupStep(s, id, OM.Get(s.elements, id).value, dir);
      var sec := SectionStep(sections, id, dir);
      g.None? && sec.Some? && Focusable(s, sec.value) ==> MoveFocus(s, sections, dir).currentFocusId == sec
  {
    var id := s.currentFocusId.value;
    var g := GroupStep(s, id, OM.Get(s.elements, id).value, dir);
    var sec := SectionStep(sections, id, dir);
    var r := Resolve(s, sections, dir);
    if g.Some? && Focusable(s, g.value) {
      assert r == g;
      FocusElementSpec(s, g.value);
      assert MoveFocus(s, sections, dir) == FocusElement(s, g.value);
    } else if g.None? && sec.Some? && Focusable(s, sec.value) {
      assert r == sec;
      FocusElementSpec(s, sec.value);
      assert MoveFocus(s, sections, dir) == FocusElement(s, sec.value);
    }
  }

  /** A global-search move lands on the candidate found: in a valid registry the
      candidate is registered under its own id and enabled, so focusing it succeeds. */
  lemma {:induction false} MoveFocusGlobal(s: State, sections: seq<seq<string>>, dir: Direction)
    requires Valid(s)
    requires Truthy(s.currentFocusId) && OM.Has(s.elements, s.currentFocusId.value)
    requires var id := s.currentFocusId.value;
      GroupStep(s, id, OM.Get(s.elements, id).value, dir).None? && SectionStep(sections, id, dir).None?
    ensures var current := OM.Get(s.elements, s.currentFocusId.value).value;
      var best := FindBestCandidate(s, current, dir);
      && (best.Some? ==> MoveFocus(s, sections, dir).currentFocusId == Some(best.value.id))
      && (best.None? ==> MoveFocus(s, sections, dir) == s)
  {
    var current := OM.Get(s.elements, s.currentFocusId.value).value;
    var best := FindBestCandidate(s, current, dir);
    if best.Some? {
      var c := best.value;
      var cs := OM.Values(s.elements);
      var k := BestIndex(current, cs, dir);
      assert s.elements.entries[k] == (c.id, c);
      OM.GetAt(s.elements, k);
    }
  }

  /** A move never focuses a disabled or unregistered element: whenever the focus
      changes, the new focus is registered and enabled. */
  lemma MoveFocusTargetsFocusable(s: State, sections: seq<seq<string>>, dir: Direction)
    ensures var r := MoveFocus(s, sections, dir);
      r.currentFocusId != s.currentFocusId ==> r.currentFocusId.Some? && Focusable(s, r.currentFocusId.value)
  {
  }

  // ---------------------------------------------------------------------
  // Keys

  datatype Key = Arrow(dir: Direction) | Enter | Space | OtherKey

  /** The window key handler: arrows move focus, Enter and Space select, other keys do
      nothing. Returns the new state and the id whose `onSelect` (and click) fires. */
  function HandleKey(s: State, sections: seq<seq<string>>, key: Key): (State, Option<string>)
  {
    match key
    case Arrow(d) => (MoveFocus(s, sections, d), None)
    case Enter => (s, SelectCurrent(s))
    case Space => (s, SelectCurrent(s))
    case OtherKey => (s, None)
  }

  /** Only an arrow can move focus, and only onto a registered, enabled element; only
      Enter and Space select, and only the focused, registered, enabled element; no key
      changes anything but the focus. */
  lemma HandleKeySpec(s: State, sections: seq<seq<string>>, key: Key)
    ensures var t := HandleKey(s, sections, key).0;
      t == s.(currentFocusId := t.currentFocusId)
    ensures var t := HandleKey(s, sections, key).0;
      t.currentFocusId != s.currentFocusId ==> key.Arrow? && t.currentFocusId.Some? && Focusable(s, t.currentFocusId.value)
    ensures var fired := HandleKey(s, sections, key).1;
      fired.Some? ==> ((key == Enter || key == Space) && fired == s.currentFocusId
                       && Truthy(s.currentFocusId) && Focusable(s, s.currentFocusId.value))
  {
    if key.Arrow? {
      MoveFocusFrame(s, sections, key.dir);
      MoveFocusTargetsFocusable(s, sections, key.dir);
    }
  }

  // ---------------------------------------------------------------------
  // Initial focus

  /** The initial-focus effect: once, when the registry first holds elements, focus the
      designated initial id (when non-empty) or else the first registered key, provided
      that id is registered; the effect is then marked done even if focusing was a no-op. */
  function InitialFocusStep(s: State): State
  {
    if !s.isInitialized && |s.elements.entries| > 0 then
      var focusId := if Truthy(s.initialFocus) then s.initialFocus.value else OM.Keys(s.elements)[0];
      if OM.Has(s.elements, focusId) then FocusElement(s, focusId).(isInitialized := true) else s
    else s
  }

  /** The initial focus fires at most once, goes to the designated id when that is
      registered and enabled, else (with no designated id) to the first registered key,
      and a second application never changes anything. A designated id that is not
      registered gets no fallback: the effect waits for a later registration. A registered
      but disabled target uses up the one attempt with nothing focused. */
  lemma InitialFocusSpec(s: State)
    ensures s.isInitialized ==> InitialFocusStep(s) == s
    ensures InitialFocusStep(InitialFocusStep(s)) == InitialFocusStep(s)
    ensures !s.isInitialized && Truthy(s.initialFocus) && Focusable(s, s.initialFocus.value) ==>
      InitialFocusStep(s).currentFocusId == s.initialFocus && InitialFocusStep(s).isInitialized
    ensures !s.isInitialized && !Truthy(s.initialFocus) && |s.elements.entries| > 0
            && Focusable(s, OM.Keys(s.elements)[0]) ==>
      InitialFocusStep(s).currentFocusId == Some(OM.Keys(s.elements)[0])
    ensures InitialFocusStep(s).currentFocusId != s.currentFocusId ==>
      InitialFocusStep(s).currentFocusId.Some? && Focusable(s, InitialFocusStep(s).currentFocusId.value)
    ensures !s.isInitialized && Truthy(s.initialFocus) && !OM.Has(s.elements, s.initialFocus.value) ==>
      InitialFocusStep(s) == s
    ensures !s.isInitialized && |s.elements.entries| > 0 ==>
      var focusId := if Truthy(s.initialFocus) then s.initialFocus.value else OM.Keys(s.elements)[0];
      OM.Has(s.elements, focusId) ==>
        InitialFocusStep(s).isInitialized
        && (!Focusable(s, focusId) ==> InitialFocusStep(s).currentFocusId == s.currentFocusId)
  {
    if !s.isInitialized && |s.elements.entries| > 0 && !Truthy(s.initialFocus) {
      assert OM.Keys(s.elements)[0] in OM.Keys(s.elements);
    }
  }

  /** From the first render (nothing focused), an initial focus aimed at a disabled element
      marks the effect done with nothing focused, so it never fires again and every
      arrow key is then ignored, since `moveFocus` returns when no id is focused. */
  lemma DisabledInitialFocusStrands(s: State, sections: seq<seq<string>>, dir: Direction)
    requires !s.isInitialized && s.currentFocusId.None? && Truthy(s.initialFocus)
    requires OM.Has(s.elements, s.initialFocus.value) && !Focusable(s, s.initialFocus.value)
    ensures var t := InitialFocusStep(s);
      t.isInitialized && t.currentFocusId.None? && InitialFocusStep(t) == t
      && MoveFocus(t, sections, dir) == t
  {
    InitialFocusSpec(s);
  }

  /** `setInitialFocus`: record the id and focus it now when nothing is focused yet. */
  function SetInitialFocus(s: State, id: string): State
  {
    var s' := s.(initialFocus := Some(id));
    if !Truthy(s.currentFocusId) && OM.Has(s.elements, id) then FocusElement(s', id) else s'
  }

  /** `setInitialFocus` always records the id, and moves focus only when nothing was
      focused and the id is registered and enabled. */
  lemma SetInitialFocusSpec(s: State, id: string)
    ensures SetInitialFocus(s, id).initialFocus == Some(id)
    ensures Truthy(s.currentFocusId) ==> SetInitialFocus(s, id).currentFocusId == s.currentFocusId
    ensures !Truthy(s.currentFocusId) && Focusable(s, id) ==> SetInitialFocus(s, id).currentFocusId == Some(id)
    ensures !Focusable(s, id) ==> SetInitialFocus(s, id).currentFocusId == s.currentFocusId
  {
  }

  // ---------------------------------------------------------------------
  // Scroll targets requested by focusElement

  function MaxReal(a: real, b: real): real { if a >= b then a else b }
  function MinReal(a: real, b: real): real { if a <= b then a else b }

  /** The scroll offset requested for the list holding the focused element: the item
      (its extent plus the 16px gap, at position `index`) is centred, but never
      scrolling before the start. */
  function ListScrollTarget(index: nat, extent: int, containerSize: int): (t: real)
    ensures t >= 0.0
    ensures t > 0.0 ==>
      t + containerSize as real / 2.0 == (index * (extent + 16)) as real + (extent + 16) as real / 2.0
    ensures t == 0.0 ==>
      (index * (extent + 16)) as real + (extent + 16) as real / 2.0 <= containerSize as real / 2.0
  {
    var itemSize := extent + 16;
    var itemPosition := index * itemSize;
    var centerOffset := (containerSize - itemSize) as real / 2.0;
    MaxReal(0.0, itemPosition as real - centerOffset)
  }

  /** The page scroll offset requested for the focused element's section: 10% of the
      viewport above the section, or the section centred when it is shorter than 80% of
      the viewport, clamped into [0, scrollHeight - windowHeight] (0 when that is negative). */
  function PageScrollTarget(sectionTop: int, sectionHeight: int, windowHeight: int, scrollHeight: int): (t: real)
    ensures t >= 0.0
    ensures scrollHeight >= windowHeight ==> t <= (scrollHeight - windowHeight) as real
    ensures var short := sectionHeight as real < windowHeight as real * 0.8;
      var ideal := if short then sectionTop as real - (windowHeight - sectionHeight) as real / 2.0
                   else sectionTop as real - windowHeight as real * 0.1;
      0.0 <= ideal <= (scrollHeight - windowHeight) as real ==> t == ideal
    ensures var short := sectionHeight as real < windowHeight as real * 0.8;
      var ideal := if short then sectionTop as real - (windowHeight - sectionHeight) as real / 2.0
                   else sectionTop as real - windowHeight as real * 0.1;
      ideal <= 0.0 || scrollHeight < windowHeight ==> t == 0.0
    ensures var short := sectionHeight as real < windowHeight as real * 0.8;
      var ideal := if short then sectionTop as real - (windowHeight - sectionHeight) as real / 2.0
                   else sectionTop as real - windowHeight as real * 0.1;
      0 <= scrollHeight - windowHeight && (scrollHeight - windowHeight) as real < ideal ==>
        t == (scrollHeight - windowHeight) as real
    ensures var short := sectionHeight as real < windowHeight as real * 0.8;
      short && 0.0 < t < (scrollHeight - windowHeight) as real ==>
        t + windowHeight as real / 2.0 == sectionTop as real + sectionHeight as real / 2.0
  {
    var target0 := sectionTop as real - windowHeight as real * 0.1;
    var target := if sectionHeight as real < windowHeight as real * 0.8
      then sectionTop as real - (windowHeight - sectionHeight) as real / 2.0
      else target0;
    var maxScroll := (scrollHeight - windowHeight) as real;
    MaxReal(0.0, MinReal(target, maxScroll))
  }
}

=== FILE: screen_detection.dfy ===
/** Device classification from the window size and the browser's user-agent string:
    orientation, TV detection (by user-agent token, or by a large wide screen on a
    browser that is not Chrome), the mobile / tablet / desktop width bands, and the
    resulting device type. */
module ScreenDetection {
  import Text

  datatype Orientation = Portrait | Landscape

  datatype DeviceType = Mobile | Tablet | Desktop | TV

  datatype ScreenInfo = ScreenInfo(
    isMobile: bool,
    isTablet: bool,
    isDesktop: bool,
    isTV: bool,
    width: nat,
    height: nat,
    orientation: Orientation,
    deviceType: DeviceType,
    effectiveDeviceType: DeviceType)

  /** The user agent names a TV browser: one of the tokens below occurs in it, or both
      'android' and 'tv' do. `lower` is the lower-cased user agent. */
  predicate TVToken(lower: string)
  {
    || Text.Includes(lower, "webos") || Text.Includes(lower, "netcast")
    || Text.Includes(lower, "tizen") || Text.Includes(lower, "smart-tv")
    || (Text.Includes(lower, "android") && Text.Includes(lower, "tv"))
    || Text.Includes(lower, "smarttv") || Text.Includes(lower, "smart tv")
  }

  /** A large wide landscape screen: at least 1920 wide, wider than high and with an
      aspect ratio of at least 1.6, written as 5 * width >= 8 * height. */
  predicate LargeScreen(width: nat, height: nat)
  {
    width >= 1920 && width > height && 5 * width >= 8 * height
  }

  /** For a positive height the integer test is the ratio test `width / height >= 1.6`;
      with height 0 the ratio is infinite and both tests pass. */
  lemma AspectRatioTest(width: nat, height: nat)
    requires height > 0
    ensures (width as real) / (height as real) >= 1.6 <==> 5 * width >= 8 * height
  {
    var w := width as real;
    var h := height as real;
    var q := w / h;
    assert q * h == w;
    if q >= 1.6 {
      MulMonotone(1.6, q, h);
    } else {
      MulMonotone(q, 1.6, h);
    }
    assert (5 * width) as real == 5.0 * w && (8 * height) as real == 8.0 * h;
  }

  /** Multiplying by a positive number keeps the order. */
  lemma MulMonotone(a: real, b: real, c: real)
    requires a <= b && c > 0.0
    ensures a * c <= b * c
  {
    var d := b - a;
    assert b * c == a * c + d * c;
  }

  /** `updateScreenInfo` for a window of the given size and user agent. */
  function Classify(width: nat, height: nat, userAgent: string): (info: ScreenInfo)
    ensures info.width == width && info.height == height
    ensures info.orientation == Landscape <==> width > height
    ensures TVToken(Text.ToLower(userAgent)) ==> info.isTV
    ensures info.isTV <==>
      TVToken(Text.ToLower(userAgent)) || (LargeScreen(width, height) && !Text.Includes(userAgent, "Chrome"))
    ensures info.isMobile <==> width < 768
    ensures info.isTablet <==> 768 <= width < 1024
    ensures info.isDesktop <==> width >= 1024 && !info.isTV
    ensures (if info.isMobile then 1 else 0) + (if info.isTablet then 1 else 0)
          + (if width >= 1024 then 1 else 0) == 1
    ensures info.deviceType ==
      if info.isTV then TV else if info.isMobile then Mobile else if info.isTablet then Tablet else Desktop
    ensures info.isDesktop <==> info.deviceType == Desktop
    ensures info.isTV ==> !info.isDesktop
    ensures info.effectiveDeviceType == info.deviceType
  {
    var orientation := if width > height then Landscape else Portrait;
    var lower := Text.ToLower(userAgent);
    var isTV := TVToken(lower) || (LargeScreen(width, height) && !Text.Includes(userAgent, "Chrome"));
    var isMobile := width < 768;
    var isTablet := width >= 768 && width < 1024;
    var isDesktop := width >= 1024 && !isTV;
    var deviceType := if isTV then TV else if isMobile then Mobile else if isTablet then Tablet else Desktop;
    ScreenInfo(isMobile, isTablet, isDesktop, isTV, width, height, orientation, deviceType, deviceType)
  }

  /** A Chrome browser on a large wide screen is a TV only by its user agent. */
  lemma ChromeNeedsToken(width: nat, height: nat, userAgent: string)
    requires Text.Includes(userAgent, "Chrome")
    ensures Classify(width, height, userAgent).isTV <==> TVToken(Text.ToLower(userAgent))
  {
  }
}

=== FILE: seqs.dfy ===
/** The JavaScript array operations the source leans on (`filter`, `find`,
    `findIndex`, `some`, `slice(0, n)`, `new Set(...)`), as functions over
    sequences with the properties the rest of the model relies on. */
module Seqs {
  import opened Wrappers

  /** `Array.prototype.filter`: the elements satisfying `p`, in their original order. */
  function Filter<T>(s: seq<T>, p: T -> bool): (r: seq<T>)
    ensures |r| <= |s|
    ensures forall i :: 0 <= i < |r| ==> r[i] in s
    ensures forall i :: 0 <= i < |s| && p(s[i]) ==> s[i] in r
    ensures forall i :: 0 <= i < |r| ==> p(r[i])
  {
    if |s| == 0 then [] else (if p(s[0]) then [s[0]] else []) + Filter(s[1..], p)
  }

  /** Filtering distributes over concatenation, so a filter never reorders. */
  lemma {:induction false} FilterAppend<T>(a: seq<T>, b: seq<T>, p: T -> bool)
    ensures Filter(a + b, p) == Filter(a, p) + Filter(b, p)
  {
    if |a| == 0 {
      assert a + b == b;
    } else {
      assert (a + b)[1..] == a[1..] + b;
      FilterAppend(a[1..], b, p);
    }
  }

  /** Filtering a single element keeps it exactly when it satisfies `p`. */
  lemma FilterSingleton<T>(x: T, p: T -> bool)
    ensures Filter([x], p) == if p(x) then [x] else []
  {
    assert [x][1..] == [];
  }

  /** Filtering with a predicate that holds everywhere changes nothing. */
  lemma {:induction false} FilterAll<T>(s: seq<T>, p: T -> bool)
    requires forall i :: 0 <= i < |s| ==> p(s[i])
    ensures Filter(s, p) == s
  {
    if |s| > 0 {
      FilterAll(s[1..], p);
    }
  }

  /** Filtering with a predicate that holds nowhere leaves nothing. */
  lemma {:induction false} FilterNone<T>(s: seq<T>, p: T -> bool)
    requires forall i :: 0 <= i < |s| ==> !p(s[i])
    ensures Filter(s, p) == []
  {
    if |s| > 0 {
      FilterNone(s[1..], p);
    }
  }

  /** `r` is `s` with some elements left out and the rest in their original order
      (matched greedily from the front). */
  predicate IsSubsequence<T(==)>(r: seq<T>, s: seq<T>)
    decreases |s|
  {
    if |r| == 0 then true
    else if |s| == 0 then false
    else if r[0] == s[0] then IsSubsequence(r[1..], s[1..])
    else IsSubsequence(r, s[1..])
  }

  /** A subsequence stays one when an element is put in front of the sequence. */
  lemma {:induction false} SubsequenceCons<T>(r: seq<T>, x: T, t: seq<T>)
    requires IsSubsequence(r, t)
    ensures IsSubsequence(r, [x] + t)
    decreases |t|, 1
  {
    var xt := [x] + t;
    assert xt[1..] == t;
    if |r| > 0 && r[0] == x {
      SubsequenceTail(r, t);
    }
  }

  /** Dropping the first element of a subsequence leaves a subsequence. */
  lemma {:induction false} SubsequenceTail<T>(r: seq<T>, t: seq<T>)
    requires |r| > 0 && IsSubsequence(r, t)
    ensures IsSubsequence(r[1..], t)
    decreases |t|, 0
  {
    assert t == [t[0]] + t[1..];
    if r[0] == t[0] {
      SubsequenceCons(r[1..], t[0], t[1..]);
    } else {
      SubsequenceTail(r, t[1..]);
      SubsequenceCons(r[1..], t[0], t[1..]);
    }
  }

  /** The filter keeps exactly the satisfying elements, each as often as it occurs, and
      in their original order. These two facts determine the result. */
  lemma FilterKeepsOrder<T>(s: seq<T>, p: T -> bool)
    ensures IsSubsequence(Filter(s, p), s)
    ensures forall x :: multiset(Filter(s, p))[x] == if p(x) then multiset(s)[x] else 0
  {
    FilterIsSubsequence(s, p);
    FilterMultiset(s, p);
  }

  /** The order half of `FilterKeepsOrder`. */
  lemma {:induction false} FilterIsSubsequence<T>(s: seq<T>, p: T -> bool)
    ensures IsSubsequence(Filter(s, p), s)
  {
    if |s| > 0 {
      var r := Filter(s, p);
      var rest := Filter(s[1..], p);
      FilterIsSubsequence(s[1..], p);
      if p(s[0]) {
        assert r == [s[0]] + rest;
        assert r[1..] == rest;
      } else {
        assert r == rest;
        assert s == [s[0]] + s[1..];
        SubsequenceCons(rest, s[0], s[1..]);
      }
    }
  }

  /** The multiplicity half of `FilterKeepsOrder`. */
  lemma {:induction false} FilterMultiset<T>(s: seq<T>, p: T -> bool)
    ensures forall x :: multiset(Filter(s, p))[x] == if p(x) then multiset(s)[x] else 0
  {
    if |s| > 0 {
      var r := Filter(s, p);
      var rest := Filter(s[1..], p);
      FilterMultiset(s[1..], p);
      assert s == [s[0]] + s[1..];
      assert multiset(s) == multiset{s[0]} + multiset(s[1..]);
      if p(s[0]) {
        assert r == [s[0]] + rest;
        assert multiset(r) == multiset{s[0]} + multiset(rest);
      } else {
        assert r == rest;
      }
    }
  }

  /** The filter is non-empty exactly when some element satisfies `p`, and it then starts
      with the first such element. */
  lemma {:induction false} FilterFirst<T>(s: seq<T>, p: T -> bool)
    ensures |Filter(s, p)| > 0 <==> FindIndex(s, p) >= 0
    ensures |Filter(s, p)| > 0 ==> Filter(s, p)[0] == s[FindIndex(s, p)]
  {
    if |s| > 0 && !p(s[0]) {
      FilterFirst(s[1..], p);
      assert Filter(s, p) == Filter(s[1..], p);
      if FindIndex(s[1..], p) >= 0 {
        assert s[FindIndex(s, p)] == s[1..][FindIndex(s[1..], p)];
      }
    }
  }

  /** The number of elements satisfying `p` (`filter(p).length`). */
  function Count<T>(s: seq<T>, p: T -> bool): (n: nat)
    ensures n <= |s|
  {
    |Filter(s, p)|
  }

  /** Counting is additive over concatenation. */
  lemma CountAppend<T>(a: seq<T>, b: seq<T>, p: T -> bool)
    ensures Count(a + b, p) == Count(a, p) + Count(b, p)
  {
    FilterAppend(a, b, p);
  }

  /** `Array.prototype.findIndex`: the first index satisfying `p`, or -1. */
  function FindIndex<T>(s: seq<T>, p: T -> bool): (r: int)
    ensures -1 <= r < |s|
    ensures r == -1 <==> forall i :: 0 <= i < |s| ==> !p(s[i])
    ensures 0 <= r ==> p(s[r]) && forall j :: 0 <= j < r ==> !p(s[j])
  {
    if |s| == 0 then -1
    else if p(s[0]) then 0
    else
      var k := FindIndex(s[1..], p);
      if k == -1 then -1 else k + 1
  }

  /** `Array.prototype.find`: the first element satisfying `p`, if any. */
  function Find<T>(s: seq<T>, p: T -> bool): (r: Option<T>)
    ensures r.None? <==> forall i :: 0 <= i < |s| ==> !p(s[i])
    ensures r.Some? ==> r.value in s && p(r.value)
    ensures r.Some? ==> exists i :: 0 <= i < |s| && s[i] == r.value && forall j :: 0 <= j < i ==> !p(s[j])
  {
    var k := FindIndex(s, p);
    if k == -1 then None else Some(s[k])
  }

  /** `Array.prototype.some`. */
  predicate Any<T>(s: seq<T>, p: T -> bool)
  {
    FindIndex(s, p) != -1
  }

  /** `slice(0, n)`: the first `n` elements, or all of them when there are fewer. */
  function Take<T>(s: seq<T>, n: nat): (r: seq<T>)
    ensures |r| == if n < |s| then n else |s|
    ensures forall i :: 0 <= i < |r| ==> r[i] == s[i]
  {
    if n < |s| then s[..n] else s
  }

  /** The position of the first occurrence of `x`, or -1. */
  function IndexOf<T(==)>(s: seq<T>, x: T): (r: int)
    ensures -1 <= r < |s|
    ensures r == -1 <==> x !in s
    ensures 0 <= r ==> s[r] == x && x !in s[..r]
  {
    if |s| == 0 then -1
    else if s[0] == x then 0
    else
      var k := IndexOf(s[1..], x);
      assert k >= 0 ==> s[..k + 1] == [s[0]] + s[1..][..k];
      if k == -1 then -1 else k + 1
  }

  /** An element already present in a prefix keeps its first position when the sequence grows. */
  lemma {:induction false} IndexOfAppend<T>(s: seq<T>, y: T, x: T)
    requires x in s
    ensures IndexOf(s + [y], x) == IndexOf(s, x)
  {
    if s[0] != x {
      assert (s + [y])[1..] == s[1..] + [y];
      IndexOfAppend(s[1..], y, x);
    }
  }

  /** A fresh element appended at the end is first found at the end. */
  lemma IndexOfAppendFresh<T>(s: seq<T>, y: T)
    requires y !in s
    ensures IndexOf(s + [y], y) == |s|
  {
    assert (s + [y])[|s|] == y;
    assert forall j :: 0 <= j < |s| ==> (s + [y])[j] == s[j];
  }

  /** No element occurs twice. */
  predicate Distinct<T(==)>(s: seq<T>)
  {
    forall i, j :: 0 <= i < j < |s| ==> s[i] != s[j]
  }

  /** `[...new Set(s)]`: each element once, at the place of its first occurrence. */
  function Dedup<T(==)>(s: seq<T>): (r: seq<T>)
    ensures forall i :: 0 <= i < |r| ==> r[i] in s
    ensures forall i :: 0 <= i < |s| ==> s[i] in r
    ensures Distinct(r)
    ensures |r| <= |s|
  {
    if |s| == 0 then []
    else
      var p := Dedup(s[..|s| - 1]);
      assert s == s[..|s| - 1] + [s[|s| - 1]];
      if s[|s| - 1] in p then p else p + [s[|s| - 1]]
  }

  /** The deduplicated sequence lists elements in the order of their first occurrence. */
  lemma {:induction false} DedupFirstAppearanceOrder<T>(s: seq<T>)
    ensures forall i, j :: 0 <= i < j < |Dedup(s)| ==> IndexOf(s, Dedup(s)[i]) < IndexOf(s, Dedup(s)[j])
  {
    if |s| > 0 {
      var init := s[..|s| - 1];
      var last := s[|s| - 1];
      assert s == init + [last];
      DedupFirstAppearanceOrder(init);
      var p := Dedup(init);
      forall x | x in p
        ensures IndexOf(s, x) == IndexOf(init, x)
      {
        IndexOfAppend(init, last, x);
      }
      if last !in p {
        IndexOfAppendFresh(init, last);
        assert Dedup(s) == p + [last];
      }
    }
  }
}

=== FILE: text.dfy ===
/** String operations the source uses: `includes`, `toLowerCase`, `trim`,
    `padStart` and decimal printing of integers. */
module Text {
  import opened Wrappers

  /** `t` occurs in `s` starting at position `i`. */
  predicate OccursAt(s: string, t: string, i: nat)
  {
    i + |t| <= |s| && s[i..i + |t|] == t
  }

  /** Shifting the haystack by one character shifts every occurrence by one. */
  lemma OccursAtShift(s: string, t: string, i: nat)
    requires |s| > 0
    ensures OccursAt(s[1..], t, i) <==> OccursAt(s, t, i + 1)
  {
    if i + 1 + |t| <= |s| {
      assert s[1..][i..i + |t|] == s[i + 1..i + 1 + |t|];
    }
  }

  /** `String.prototype.includes`: `t` occurs somewhere in `s`. */
  function Includes(s: string, t: string): (b: bool)
    ensures b <==> exists i: nat :: OccursAt(s, t, i)
    decreases |s|
  {
    if |t| > |s| then
      assert forall i: nat :: !OccursAt(s, t, i);
      false
    else if s[..|t|] == t then
      assert OccursAt(s, t, 0);
      true
    else
      var b := Includes(s[1..], t);
      assert b ==> exists i: nat :: OccursAt(s, t, i) by {
        if b {
          var j: nat :| OccursAt(s[1..], t, j);
          OccursAtShift(s, t, j);
        }
      }
      assert (exists i: nat :: OccursAt(s, t, i)) ==> b by {
        if exists i: nat :: OccursAt(s, t, i) {
          var i: nat :| OccursAt(s, t, i);
          assert i != 0;
          OccursAtShift(s, t, i - 1);
        }
      }
      b
  }

  /** The empty string occurs in every string, so an empty search matches everything. */
  lemma IncludesEmpty(s: string)
    ensures Includes(s, "")
  {
    assert OccursAt(s, "", 0);
  }

  /** `toLowerCase` on one character; only the ASCII letters are mapped. */
  function LowerChar(c: char): (r: char)
    ensures 'A' <= c <= 'Z' ==> r as int == c as int + 32
    ensures !('A' <= c <= 'Z') ==> r == c
  {
    if 'A' <= c <= 'Z' then (c as int + 32) as char else c
  }

  /** `String.prototype.toLowerCase` restricted to ASCII letters. */
  function ToLower(s: string): (r: string)
    ensures |r| == |s|
    ensures forall i :: 0 <= i < |s| ==> r[i] == LowerChar(s[i])
  {
    seq(|s|, i requires 0 <= i < |s| => LowerChar(s[i]))
  }

  /** The characters `String.prototype.trim` removes: white space and line terminators. */
  predicate IsSpace(c: char)
  {
    || c == ' ' || c == '\t' || c == '\n' || c == '\r'
    || c == '\U{B}' || c == '\U{C}' || c == '\U{A0}' || c == '\U{1680}'
    || ('\U{2000}' <= c <= '\U{200A}')
    || c == '\U{2028}' || c == '\U{2029}' || c == '\U{202F}' || c == '\U{205F}'
    || c == '\U{3000}' || c == '\U{FEFF}'
  }

  /** Neither end of `s` is white space. */
  predicate Trimmed(s: string)
  {
    |s| > 0 ==> !IsSpace(s[0]) && !IsSpace(s[|s| - 1])
  }

  /** Removes leading white space: the result is a suffix of `s`. */
  function TrimStart(s: string): (r: string)
    ensures |r| <= |s| && r == s[|s| - |r|..]
    ensures |r| > 0 ==> !IsSpace(r[0])
    ensures forall i :: 0 <= i < |s| - |r| ==> IsSpace(s[i])
  {
    if |s| > 0 && IsSpace(s[0]) then TrimStart(s[1..]) else s
  }

  /** Removes trailing white space: the result is a prefix of `s`. */
  function TrimEnd(s: string): (r: string)
    ensures |r| <= |s| && r == s[..|r|]
    ensures |r| > 0 ==> !IsSpace(r[|r| - 1])
    ensures forall i :: |r| <= i < |s| ==> IsSpace(s[i])
  {
    if |s| > 0 && IsSpace(s[|s| - 1]) then TrimEnd(s[..|s| - 1]) else s
  }

  /** `String.prototype.trim`. */
  function Trim(s: string): (r: string)
    ensures Trimmed(r)
    ensures |r| <= |s|
    ensures Trimmed(s) ==> r == s
  {
    var a := TrimStart(s);
    var r := TrimEnd(a);
    assert |r| > 0 ==> r[0] == a[0];
    r
  }

  /** A trailing separator space disappears when the text before it is already trimmed. */
  lemma TrimTrailingSpace(s: string)
    requires Trimmed(s)
    ensures Trim(s + " ") == s
  {
    var t := s + " ";
    if |s| == 0 {
      assert TrimStart(t) == TrimStart(t[1..]);
      assert t[1..] == "";
    } else {
      assert t[0] == s[0];
      assert TrimStart(t) == t;
      assert t[..|t| - 1] == s;
      assert TrimEnd(t) == TrimEnd(s);
    }
  }

  /** Trimming a trimmed string with one space in front gives the string back. */
  lemma TrimLeadingSpace(s: string)
    requires Trimmed(s)
    ensures Trim(" " + s) == s
  {
    var t := " " + s;
    assert t[0] == ' ' && t[1..] == s;
    assert TrimStart(t) == TrimStart(s);
    assert Trim(t) == TrimEnd(TrimStart(t));
    assert Trim(s) == TrimEnd(TrimStart(s));
  }

  /** Trimming is idempotent. */
  lemma TrimIdempotent(s: string)
    ensures Trim(Trim(s)) == Trim(s)
  {
  }

  // ---------------------------------------------------------------------
  // Decimal numerals

  predicate IsDigit(c: char)
  {
    '0' <= c <= '9'
  }

  function DigitChar(d: nat): (c: char)
    requires d < 10
    ensures IsDigit(c) && c as int - '0' as int == d
  {
    ('0' as int + d) as char
  }

  /** The numeric value of a string of decimal digits. */
  function DigitsValue(s: string): nat
    requires forall i :: 0 <= i < |s| ==> IsDigit(s[i])
  {
    if |s| == 0 then 0
    else
      assert IsDigit(s[|s| - 1]);
      DigitsValue(s[..|s| - 1]) * 10 + (s[|s| - 1] as int - '0' as int)
  }

  /** Template-literal printing of a non-negative integer: shortest decimal numeral. */
  function NatToString(n: nat): (r: string)
    ensures |r| >= 1
    ensures forall i :: 0 <= i < |r| ==> IsDigit(r[i])
    ensures |r| > 1 ==> r[0] != '0'
  {
    if n < 10 then [DigitChar(n)] else NatToString(n / 10) + [DigitChar(n % 10)]
  }

  /** Printing then reading back the digits gives the number again. */
  lemma {:induction false} NatToStringValue(n: nat)
    ensures DigitsValue(NatToString(n)) == n
  {
    if n >= 10 {
      var r := NatToString(n);
      assert r[..|r| - 1] == NatToString(n / 10);
      NatToStringValue(n / 10);
    }
  }

  /** Reads a non-empty decimal numeral; anything else is rejected. */
  function ParseNat(s: string): (r: Option<nat>)
    ensures r.Some? <==> |s| > 0 && forall i :: 0 <= i < |s| ==> IsDigit(s[i])
  {
    if |s| > 0 && forall i :: 0 <= i < |s| ==> IsDigit(s[i]) then Some(DigitsValue(s)) else None
  }

  /** Printing is inverted by parsing, so printing is injective. */
  lemma NatToStringRoundTrip(n: nat)
    ensures ParseNat(NatToString(n)) == Some(n)
  {
    NatToStringValue(n);
  }

  /** Template-literal printing of an integer: a minus sign for negatives. */
  function IntToString(n: int): (r: string)
    ensures |r| >= 1
    ensures n >= 0 <==> IsDigit(r[0])
    ensures n < 0 ==> r[0] == '-' && r[1..] == NatToString(-n)
    ensures n >= 0 ==> r == NatToString(n)
  {
    if n < 0 then "-" + NatToString(-n) else NatToString(n)
  }

  /** Different integers print differently. */
  lemma IntToStringInjective(n: int, m: int)
    requires IntToString(n) == IntToString(m)
    ensures n == m
  {
    if n >= 0 {
      NatToStringRoundTrip(n);
      NatToStringRoundTrip(m);
    } else {
      NatToStringRoundTrip(-n);
      NatToStringRoundTrip(-m);
    }
  }

  /** `padStart(2, '0')`: prefixes zeros up to two characters. */
  function PadStart2(s: string): (r: string)
    ensures |r| == if |s| >= 2 then |s| else 2
    ensures r[|r| - |s|..] == s
    ensures forall i :: 0 <= i < |r| - |s| ==> r[i] == '0'
  {
    if |s| >= 2 then s else seq(2 - |s|, _ => '0') + s
  }
}

=== FILE: tv_home.dfy ===
/** The simple TV home page: a row of trending anime with one highlighted card,
    moved by the arrow keys within the row, and Enter opening the highlighted one.
    The search button after the row is drawn highlighted when the index equals the
    row length. */
module TVHome {
  import opened Wrappers

  datatype Key = ArrowLeft | ArrowRight | Enter | OtherKey

  /** The page state: the trending anime ids once the home data has loaded (`None`
      before), and the highlighted index. */
  datatype Page = Page(trending: Option<seq<string>>, focusedIndex: int)

  /** The page on mount: nothing loaded, first card highlighted. */
  function Init(): (p: Page)
    ensures p.trending.None? && p.focusedIndex == 0
  {
    Page(None, 0)
  }

  /** The page once the home data has loaded. */
  function Loaded(p: Page, trending: seq<string>): Page
  {
    p.(trending := Some(trending))
  }

  /** The key handler: every key is ignored until the list has loaded (an empty list
      counts as loaded); ArrowLeft and ArrowRight move the index by one, clamped below
      at 0 and above at the last index; Enter opens the anime at the index, if there
      is one. Returns the new page and the route pushed. */
  function HandleKey(p: Page, key: Key): (Page, Option<string>)
  {
    if p.trending.None? then (p, None)
    else
      var animes := p.trending.value;
      var maxIndex := |animes| - 1;
      var i := p.focusedIndex;
      match key
      case ArrowLeft => (p.(focusedIndex := if i - 1 > 0 then i - 1 else 0), None)
      case ArrowRight => (p.(focusedIndex := if maxIndex < i + 1 then maxIndex else i + 1), None)
      case Enter => (p, if 0 <= i < |animes| then Some("/tv/anime/" + animes[i]) else None)
      case OtherKey => (p, None)
  }

  /** Before loading nothing happens; ArrowLeft gives max(0, i - 1) and ArrowRight
      min(len - 1, i + 1); only Enter navigates, and it does exactly when a card exists
      at the index, to that card's page. */
  lemma HandleKeySpec(p: Page, key: Key)
    ensures p.trending.None? ==> HandleKey(p, key) == (p, None)
    ensures p.trending.Some? && key == ArrowLeft ==>
      HandleKey(p, key).0.focusedIndex == (if p.focusedIndex - 1 > 0 then p.focusedIndex - 1 else 0)
    ensures p.trending.Some? && key == ArrowRight ==>
      var last := |p.trending.value| - 1;
      HandleKey(p, key).0.focusedIndex == (if last < p.focusedIndex + 1 then last else p.focusedIndex + 1)
    ensures HandleKey(p, key).0.trending == p.trending
    ensures HandleKey(p, key).1.Some? <==>
      key == Enter && p.trending.Some? && 0 <= p.focusedIndex < |p.trending.value|
    ensures HandleKey(p, key).1.Some? ==>
      HandleKey(p, key).1.value == "/tv/anime/" + p.trending.value[p.focusedIndex]
  {
  }

  /** The index after a sequence of keys. */
  function Run(p: Page, keys: seq<Key>): Page
    decreases |keys|
  {
    if |keys| == 0 then p else Run(HandleKey(p, keys[0]).0, keys[1..])
  }

  /** With a non-empty list the index never leaves [0, len - 1], whatever keys arrive. */
  lemma {:induction false} IndexStaysInRange(p: Page, keys: seq<Key>)
    requires p.trending.Some? && |p.trending.value| > 0
    requires 0 <= p.focusedIndex < |p.trending.value|
    ensures Run(p, keys).trending == p.trending
    ensures 0 <= Run(p, keys).focusedIndex < |p.trending.value|
    decreases |keys|
  {
    if |keys| > 0 {
      IndexStaysInRange(HandleKey(p, keys[0]).0, keys[1..]);
    }
  }

  /** Until the home data loads, no key sequence moves the highlight away from the
      first card, and no key opens a page. */
  lemma {:induction false} InitIgnoresKeys(keys: seq<Key>, key: Key)
    ensures Run(Init(), keys) == Init()
    ensures HandleKey(Run(Init(), keys), key).1.None?
    decreases |keys|
  {
    if |keys| > 0 {
      assert HandleKey(Init(), keys[0]).0 == Init();
      InitIgnoresKeys(keys[1..], key);
    }
  }

  /** The search button is drawn highlighted when the index equals the row length. */
  predicate SearchHighlighted(p: Page)
  {
    p.trending.Some? && p.focusedIndex == |p.trending.value|
  }

  /** Starting from the first card of a non-empty row, no key sequence highlights the
      search button, and Enter always opens some card. */
  lemma SearchButtonUnreachable(trending: seq<string>, keys: seq<Key>)
    requires |trending| > 0
    ensures !SearchHighlighted(Run(Loaded(Init(), trending), keys))
    ensures HandleKey(Run(Loaded(Init(), trending), keys), Enter).1.Some?
  {
    IndexStaysInRange(Loaded(Init(), trending), keys);
  }

  /** With an empty row the page counts as loaded: the search button starts highlighted,
      ArrowRight moves the index to -1, and Enter does nothing. */
  lemma EmptyRow()
    ensures SearchHighlighted(Loaded(Init(), []))
    ensures HandleKey(Loaded(Init(), []), ArrowRight).0.focusedIndex == -1
    ensures HandleKey(Loaded(Init(), []), Enter).1.None?
  {
  }
}

=== FILE: watch_screen.dfy ===
/** The logic of the mobile app's watch screen: the anime id inside an episode
    id, the previous and next episodes, the skip-intro and skip-outro windows,
    the ten-second seek, the time label, the server list and default server, and
    the source handed to the player. The player, the navigation and the network
    are not modelled: positions and responses are parameters and seeks are
    returned as target positions. */
module WatchScreen {
  import opened Wrappers
  import Seqs
  import Text
  import Api

  // ---------------------------------------------------------------------
  // Episode ids

  /** `episodeId.split('?')[0]`: the text before the first '?', or all of it. */
  function AnimeIdOf(episodeId: string): (a: string)
    ensures |a| <= |episodeId| && a == episodeId[..|a|]
    ensures '?' !in a
    ensures |a| < |episodeId| ==> episodeId[|a|] == '?'
  {
    if |episodeId| == 0 || episodeId[0] == '?' then ""
    else [episodeId[0]] + AnimeIdOf(episodeId[1..])
  }

  /** An episode id built as anime id, '?', query gives back the anime id, and an id
      without '?' is an anime id already. */
  lemma {:induction false} AnimeIdOfRoundTrip(animeId: string, query: string)
    requires '?' !in animeId
    ensures AnimeIdOf(animeId + "?" + query) == animeId
    ensures AnimeIdOf(animeId) == animeId
  {
    if |animeId| > 0 {
      assert (animeId + "?" + query)[1..] == animeId[1..] + "?" + query;
      AnimeIdOfRoundTrip(animeId[1..], query);
      assert [animeId[0]] + animeId[1..] == animeId;
    }
  }

  datatype Episode = Episode(episodeId: string, number: int)

  function IsEpisode(episodeId: string): Episode -> bool
  {
    (ep: Episode) => ep.episodeId == episodeId
  }

  /** `prevEpisode` and `nextEpisode`, from the index of the current episode (-1 when it
      is not in the list). */
  function Neighbours(episodes: seq<Episode>, episodeId: string): (r: (Option<Episode>, Option<Episode>))
    ensures var k := Seqs.FindIndex(episodes, IsEpisode(episodeId));
      && (r.0.Some? <==> k > 0)
      && (k > 0 ==> r.0.value == episodes[k - 1])
      && (r.1.Some? <==> k < |episodes| - 1)
      && (k < |episodes| - 1 ==> r.1.value == episodes[k + 1])
    ensures (forall i :: 0 <= i < |episodes| ==> episodes[i].episodeId != episodeId) ==>
      r.0 == None && (r.1 == if |episodes| > 0 then Some(episodes[0]) else None)
  {
    var k := Seqs.FindIndex(episodes, IsEpisode(episodeId));
    (if k > 0 then Some(episodes[k - 1]) else None,
     if k < |episodes| - 1 then Some(episodes[k + 1]) else None)
  }

  /** With distinct episode ids, going to the next episode and asking for the previous one
      leads back, and the other way round. */
  lemma NeighboursInverse(episodes: seq<Episode>, i: nat)
    requires forall a, b :: 0 <= a < b < |episodes| ==> episodes[a].episodeId != episodes[b].episodeId
    requires i + 1 < |episodes|
    ensures Neighbours(episodes, episodes[i].episodeId).1 == Some(episodes[i + 1])
    ensures Neighbours(episodes, episodes[i + 1].episodeId).0 == Some(episodes[i])
  {
    var k := Seqs.FindIndex(episodes, IsEpisode(episodes[i].episodeId));
    assert IsEpisode(episodes[i].episodeId)(episodes[i]);
    assert k == i;
    var k' := Seqs.FindIndex(episodes, IsEpisode(episodes[i + 1].episodeId));
    assert IsEpisode(episodes[i + 1].episodeId)(episodes[i + 1]);
    assert k' == i + 1;
  }

  // ---------------------------------------------------------------------
  // Skip windows

  /** The player is inside a skip window: from its start, up to but not including its end. */
  predicate InWindow(t: real, w: Api.Interval)
  {
    w.startTime <= t < w.endTime
  }

  /** What one playback status does with a skip window: with no window the flag keeps its
      value and nothing happens; otherwise the flag shows whether the position is inside the
      window, and when it is and skipping is enabled the player is sent to the window's end
      (in milliseconds). */
  function SkipCheck(w: Option<Api.Interval>, shown: bool, t: real, enabled: bool): (r: (bool, Option<real>))
    ensures w.None? ==> r == (shown, None)
    ensures w.Some? ==> (r.0 <==> InWindow(t, w.value))
    ensures r.1.Some? <==> w.Some? && InWindow(t, w.value) && enabled
    ensures r.1.Some? ==> r.1.value == w.value.endTime * 1000.0 && !InWindow(r.1.value / 1000.0, w.value)
  {
    match w
    case None => (shown, None)
    case Some(iv) =>
      var inside := InWindow(t, iv);
      (inside, if inside && enabled then Some(iv.endTime * 1000.0) else None)
  }

  /** The skip part of `onPlaybackStatusUpdate`: the intro check, then the outro check.
      Each window that is set decides whether its button shows; each window the position
      is inside, with skipping enabled, seeks to the window's end, intro first. */
  datatype SkipState = SkipState(showSkipIntro: bool, showSkipOutro: bool)

  function OnPosition(times: Api.SkipTimes, st: SkipState, positionMillis: real,
                      skipIntroEnabled: bool, skipOutroEnabled: bool): (r: (SkipState, seq<real>))
    ensures var t := positionMillis / 1000.0;
      && r.0.showSkipIntro == SkipCheck(times.intro, st.showSkipIntro, t, skipIntroEnabled).0
      && r.0.showSkipOutro == SkipCheck(times.outro, st.showSkipOutro, t, skipOutroEnabled).0
    ensures |r.1| <= 2
    ensures times.intro.None? && times.outro.None? ==> r == (st, [])
    ensures var t := positionMillis / 1000.0;
      && r.0.showSkipIntro == (if times.intro.Some? then InWindow(t, times.intro.value) else st.showSkipIntro)
      && r.0.showSkipOutro == (if times.outro.Some? then InWindow(t, times.outro.value) else st.showSkipOutro)
    ensures var t := positionMillis / 1000.0;
      var introSeeks := if times.intro.Some? && InWindow(t, times.intro.value) && skipIntroEnabled
                        then [times.intro.value.endTime * 1000.0] else [];
      var outroSeeks := if times.outro.Some? && InWindow(t, times.outro.value) && skipOutroEnabled
                        then [times.outro.value.endTime * 1000.0] else [];
      r.1 == introSeeks + outroSeeks
  {
    var t := positionMillis / 1000.0;
    var (showIntro, introSeek) := SkipCheck(times.intro, st.showSkipIntro, t, skipIntroEnabled);
    var (showOutro, outroSeek) := SkipCheck(times.outro, st.showSkipOutro, t, skipOutroEnabled);
    (SkipState(showIntro, showOutro),
     (if introSeek.Some? then [introSeek.value] else []) + (if outroSeek.Some? then [outroSeek.value] else []))
  }

  /** After an automatic skip the player is no longer inside that window, so the next
      status at the seek target shows no skip button and issues no second seek. */
  lemma SkipSettles(w: Api.Interval, shown: bool, t: real, enabled: bool)
    requires SkipCheck(Some(w), shown, t, enabled).1.Some?
    ensures var target := SkipCheck(Some(w), shown, t, enabled).1.value;
      SkipCheck(Some(w), true, target / 1000.0, enabled) == (false, None)
  {
  }

  // ---------------------------------------------------------------------
  // Seeking

  /** `handleSeek`: ten seconds forward or back from the current time, in milliseconds,
      never before the start. */
  function SeekTarget(currentTime: real, forward: bool): (ms: real)
    ensures ms >= 0.0
    ensures forward && currentTime >= 0.0 ==> ms == currentTime * 1000.0 + 10000.0
    ensures !forward ==> (ms == 0.0 <==> currentTime <= 10.0)
    ensures !forward && currentTime > 10.0 ==> ms == currentTime * 1000.0 - 10000.0
  {
    var target := currentTime * 1000.0 + (if forward then 10000.0 else -10000.0);
    if target > 0.0 then target else 0.0
  }

  /** Seeking forward then back returns to the starting position; back then forward
      returns to it when the first seek was not clipped at the start. */
  lemma SeekRoundTrip(t: real)
    requires t >= 0.0
    ensures SeekTarget(SeekTarget(t, true) / 1000.0, false) == t * 1000.0
    ensures t >= 10.0 ==> SeekTarget(SeekTarget(t, false) / 1000.0, true) == t * 1000.0
    ensures t < 10.0 ==> SeekTarget(SeekTarget(t, false) / 1000.0, true) == 10000.0
  {
  }

  // ---------------------------------------------------------------------
  // Time labels

  /** Numbers below 100 print with at most two digits. */
  lemma ShortNumeral(n: nat)
    requires n < 100
    ensures |Text.NatToString(n)| <= 2
  {
    if n >= 10 {
      assert Text.NatToString(n / 10) == [Text.DigitChar(n / 10)];
    }
  }

  /** `formatTime` for whole seconds: minutes, ':', then two-digit seconds. */
  function FormatTime(seconds: nat): (s: string)
    ensures |s| >= 4 && s[|s| - 3] == ':'
    ensures s[..|s| - 3] == Text.NatToString(seconds / 60)
    ensures forall i :: |s| - 2 <= i < |s| ==> Text.IsDigit(s[i])
  {
    var secs := Text.NatToString(seconds % 60);
    ShortNumeral(seconds % 60);
    var s := Text.NatToString(seconds / 60) + ":" + Text.PadStart2(secs);
    assert s[..|s| - 3] == Text.NatToString(seconds / 60);
    s
  }

  /** Reads a time label back: digits, ':', two digits below 60. */
  function ParseTime(s: string): (r: Option<nat>)
    ensures r.Some? ==> |s| >= 4 && s[|s| - 3] == ':'
  {
    if |s| < 4 || s[|s| - 3] != ':' then None
    else
      match (Text.ParseNat(s[..|s| - 3]), Text.ParseNat(s[|s| - 2..]))
      case (Some(m), Some(sec)) => if sec < 60 then Some(m * 60 + sec) else None
      case _ => None
  }

  /** Two digits read back what `padStart(2, '0')` made of a number below 60. */
  lemma TwoDigits(n: nat)
    requires n < 60
    ensures |Text.PadStart2(Text.NatToString(n))| == 2
    ensures Text.ParseNat(Text.PadStart2(Text.NatToString(n))) == Some(n)
  {
    var d := Text.NatToString(n);
    var p := Text.PadStart2(d);
    ShortNumeral(n);
    Text.NatToStringValue(n);
    if n < 10 {
      assert d == [Text.DigitChar(n)];
      assert p == ['0', Text.DigitChar(n)];
      assert p[..|p| - 1] == ['0'];
      assert ['0'][..0] == [];
      assert Text.DigitsValue(['0']) == 0;
      assert Text.DigitsValue(p) == n;
    } else {
      assert p == d;
    }
  }

  /** A label made of a numeral, ':' and two digits reads back as minutes and seconds. */
  lemma ParseTimeParts(m: string, p: string, a: nat, b: nat)
    requires Text.ParseNat(m) == Some(a) && Text.ParseNat(p) == Some(b) && |p| == 2 && b < 60
    ensures ParseTime(m + ":" + p) == Some(a * 60 + b)
  {
    var s := m + ":" + p;
    assert s[..|s| - 3] == m;
    assert s[|s| - 2..] == p;
  }

  /** A label determines the time it shows. */
  lemma FormatTimeRoundTrip(seconds: nat)
    ensures ParseTime(FormatTime(seconds)) == Some(seconds)
  {
    var m := Text.NatToString(seconds / 60);
    var p := Text.PadStart2(Text.NatToString(seconds % 60));
    TwoDigits(seconds % 60);
    Text.NatToStringRoundTrip(seconds / 60);
    ParseTimeParts(m, p, seconds / 60, seconds % 60);
    assert FormatTime(seconds) == m + ":" + p;
  }

  // ---------------------------------------------------------------------
  // Servers and sources

  /** The server list shown for a category: that category's servers without 'hd-1'. */
  function ServerList(category: string, sub: seq<string>, dub: seq<string>): (r: seq<string>)
    ensures forall i :: 0 <= i < |r| ==> r[i] != "hd-1"
    ensures category == "sub" ==> r == Api.AvailableServers(sub)
    ensures category != "sub" ==> r == Api.AvailableServers(dub)
  {
    Api.AvailableServers(if category == "sub" then sub else dub)
  }

  /** The server whose sources `loadData` fetches: always chosen among the sub servers,
      'hd-2' first, else the first; none (and no source request) when there is none. */
  function DefaultServer(sub: seq<string>): (r: Option<string>)
    ensures r.None? <==> forall i :: 0 <= i < |sub| ==> sub[i] == "hd-1"
    ensures r.Some? ==> r.value != "hd-1" && r.value in sub
    ensures "hd-2" in sub ==> r == Some("hd-2")
    ensures var k := Seqs.FindIndex(sub, Api.Offered);
      "hd-2" !in sub && r.Some? ==> 0 <= k && r.value == sub[k]
  {
    var available := Api.AvailableServers(sub);
    assert "hd-2" in sub ==> "hd-2" in available;
    Api.PreferredServer(available)
  }

  /** The default server is one of the servers listed for 'sub'. */
  lemma DefaultServerListed(sub: seq<string>, dub: seq<string>)
    ensures DefaultServer(sub).Some? ==> DefaultServer(sub).value in ServerList("sub", sub, dub)
    ensures DefaultServer(sub).None? <==> |ServerList("sub", sub, dub)| == 0
  {
  }

  function IsM3U8(s: Api.EpisodeSource): bool
  {
    s.isM3U8
  }

  /** `currentSource`: the first HLS source, else the first source, else none. */
  function CurrentSource(sources: seq<Api.EpisodeSource>): (r: Option<Api.EpisodeSource>)
    ensures r.None? <==> |sources| == 0
    ensures r.Some? ==> r.value in sources
    ensures forall i :: 0 <= i < |sources| && sources[i].isM3U8 ==>
      r.Some? && r.value.isM3U8
      && (exists k :: 0 <= k <= i && sources[k] == r.value && forall j :: 0 <= j < k ==> !sources[j].isM3U8)
    ensures (forall i :: 0 <= i < |sources| ==> !sources[i].isM3U8) && |sources| > 0 ==> r == Some(sources[0])
  {
    var k := Seqs.FindIndex(sources, IsM3U8);
    if k >= 0 then Some(sources[k]) else if |sources| > 0 then Some(sources[0]) else None
  }
}

=== FILE: watch_store.dfy ===
/** The persisted watch store of the mobile app: the local watch history (newest
    first, one entry per episode, at most 100 entries) with progress and completion
    updates and the "continue watching" shelf, and the local watchlist (one entry
    per anime). Identifiers and timestamps, which the store draws from a UUID
    generator and the clock, are parameters. */
module WatchStore {
  import opened Wrappers
  import Seqs

  datatype HistoryItem = HistoryItem(
    id: string,
    animeId: string,
    animeName: string,
    animePoster: string,
    episodeId: string,
    episodeNumber: int,
    progressSeconds: real,
    durationSeconds: real,
    completed: bool,
    updatedAt: string)

  datatype WatchStatus = Watching | Completed | PlanToWatch | Dropped

  datatype WatchlistItem = WatchlistItem(
    id: string,
    animeId: string,
    animeName: string,
    animePoster: string,
    status: WatchStatus,
    createdAt: string)

  /** The most history entries kept. */
  const MaxHistory: nat := 100

  /** The most entries on the "continue watching" shelf. */
  const MaxContinue: nat := 10

  // ---------------------------------------------------------------------
  // History

  /** No two history entries are for the same episode. */
  predicate UniqueEpisodes(h: seq<HistoryItem>)
  {
    forall i, j :: 0 <= i < j < |h| ==> h[i].episodeId != h[j].episodeId
  }

  function OtherEpisode(episodeId: string): HistoryItem -> bool
  {
    (x: HistoryItem) => x.episodeId != episodeId
  }

  function OfEpisode(episodeId: string): HistoryItem -> bool
  {
    (x: HistoryItem) => x.episodeId == episodeId
  }

  function OtherEntry(id: string): HistoryItem -> bool
  {
    (x: HistoryItem) => x.id != id
  }

  /** Filtering keeps episodes unique. */
  lemma {:induction false} FilterUniqueEpisodes(h: seq<HistoryItem>, p: HistoryItem -> bool)
    requires UniqueEpisodes(h)
    ensures UniqueEpisodes(Seqs.Filter(h, p))
  {
    if |h| > 0 {
      FilterUniqueEpisodes(h[1..], p);
      var rest := Seqs.Filter(h[1..], p);
      forall i | 0 <= i < |rest| ensures rest[i].episodeId != h[0].episodeId {
        var j :| 0 <= j < |h[1..]| && h[1..][j] == rest[i];
      }
    }
  }

  /** `addToHistory`: the item, under the fresh id `newId`, goes first; any earlier entry
      for the same episode is dropped; the list is cut to 100 entries. */
  function AddToHistory(h: seq<HistoryItem>, item: HistoryItem, newId: string): (r: seq<HistoryItem>)
    ensures 1 <= |r| <= MaxHistory
    ensures r[0] == item.(id := newId)
    ensures |r| - 1 <= |Seqs.Filter(h, OtherEpisode(item.episodeId))|
    ensures |r| == if 1 + |Seqs.Filter(h, OtherEpisode(item.episodeId))| < MaxHistory
                   then 1 + |Seqs.Filter(h, OtherEpisode(item.episodeId))| else MaxHistory
    ensures r[1..] == Seqs.Filter(h, OtherEpisode(item.episodeId))[..|r| - 1]
    ensures forall i :: 1 <= i < |r| ==> r[i] in h && r[i].episodeId != item.episodeId
    ensures |Seqs.Filter(h, OtherEpisode(item.episodeId))| < MaxHistory ==>
      forall i :: 0 <= i < |h| && h[i].episodeId != item.episodeId ==> h[i] in r
  {
    var filtered := Seqs.Filter(h, OtherEpisode(item.episodeId));
    Seqs.Take([item.(id := newId)] + filtered, MaxHistory)
  }

  /** After `addToHistory` exactly one entry is for the item's episode, looking the
      episode up finds the new entry, and unique episodes stay unique. */
  lemma AddToHistorySpec(h: seq<HistoryItem>, item: HistoryItem, newId: string)
    ensures Seqs.Count(AddToHistory(h, item, newId), OfEpisode(item.episodeId)) == 1
    ensures GetHistoryItem(AddToHistory(h, item, newId), item.episodeId) == Some(item.(id := newId))
    ensures UniqueEpisodes(h) ==> UniqueEpisodes(AddToHistory(h, item, newId))
  {
    var r := AddToHistory(h, item, newId);
    var e := item.episodeId;
    assert r == [r[0]] + r[1..];
    Seqs.FilterAppend([r[0]], r[1..], OfEpisode(e));
    Seqs.FilterNone(r[1..], OfEpisode(e));
    if UniqueEpisodes(h) {
      FilterUniqueEpisodes(h, OtherEpisode(e));
    }
  }

  /** `updateProgress`: every entry for the episode gets the new progress, duration and
      timestamp `now`; the others are untouched. */
  function UpdateProgress(h: seq<HistoryItem>, episodeId: string, progress: real, duration: real, now: string): (r: seq<HistoryItem>)
    ensures |r| == |h|
    ensures forall i :: 0 <= i < |h| ==> r[i].episodeId == h[i].episodeId && r[i].id == h[i].id
    ensures forall i :: 0 <= i < |h| && h[i].episodeId != episodeId ==> r[i] == h[i]
    ensures forall i :: 0 <= i < |h| && h[i].episodeId == episodeId ==>
      r[i] == h[i].(progressSeconds := progress, durationSeconds := duration, updatedAt := now)
  {
    seq(|h|, i requires 0 <= i < |h| =>
      if h[i].episodeId == episodeId
      then h[i].(progressSeconds := progress, durationSeconds := duration, updatedAt := now)
      else h[i])
  }

  /** `markCompleted`: every entry for the episode is marked completed at `now`. */
  function MarkCompleted(h: seq<HistoryItem>, episodeId: string, now: string): (r: seq<HistoryItem>)
    ensures |r| == |h|
    ensures forall i :: 0 <= i < |h| ==> r[i].episodeId == h[i].episodeId && r[i].id == h[i].id
    ensures forall i :: 0 <= i < |h| && h[i].episodeId != episodeId ==> r[i] == h[i]
    ensures forall i :: 0 <= i < |h| && h[i].episodeId == episodeId ==> r[i] == h[i].(completed := true, updatedAt := now)
  {
    seq(|h|, i requires 0 <= i < |h| =>
      if h[i].episodeId == episodeId then h[i].(completed := true, updatedAt := now) else h[i])
  }

  /** `removeFromHistory`: drops the entries with that entry id, keeping the order of the rest. */
  function RemoveFromHistory(h: seq<HistoryItem>, id: string): (r: seq<HistoryItem>)
    ensures forall i :: 0 <= i < |r| ==> r[i].id != id && r[i] in h
    ensures forall i :: 0 <= i < |h| && h[i].id != id ==> h[i] in r
    ensures Seqs.IsSubsequence(r, h)
    ensures forall x :: multiset(r)[x] == if x.id != id then multiset(h)[x] else 0
  {
    Seqs.FilterKeepsOrder(h, OtherEntry(id));
    Seqs.Filter(h, OtherEntry(id))
  }

  /** `clearHistory`. */
  function ClearHistory(): (r: seq<HistoryItem>)
    ensures |r| == 0
  {
    []
  }

  /** After `clearHistory` no episode is found, the shelf is empty, and the next
      `addToHistory` leaves just the new entry. */
  lemma ClearHistoryForgets(episodeId: string, item: HistoryItem, newId: string)
    ensures GetHistoryItem(ClearHistory(), episodeId).None?
    ensures GetContinueWatching(ClearHistory()) == []
    ensures AddToHistory(ClearHistory(), item, newId) == [item.(id := newId)]
  {
  }

  /** `getHistoryItem`: the first entry for the episode. */
  function GetHistoryItem(h: seq<HistoryItem>, episodeId: string): (r: Option<HistoryItem>)
    ensures r.None? <==> forall i :: 0 <= i < |h| ==> h[i].episodeId != episodeId
    ensures r.Some? ==> r.value in h && r.value.episodeId == episodeId
    ensures r.Some? ==> exists i :: 0 <= i < |h| && h[i] == r.value && forall j :: 0 <= j < i ==> h[j].episodeId != episodeId
  {
    Seqs.Find(h, OfEpisode(episodeId))
  }

  /** The entries the "continue watching" shelf can show: started and not completed. */
  predicate InProgress(x: HistoryItem)
  {
    !x.completed && x.progressSeconds > 0.0
  }

  /** `getContinueWatching`: the first ten in-progress entries, in history order. */
  function GetContinueWatching(h: seq<HistoryItem>): (r: seq<HistoryItem>)
    ensures |r| <= MaxContinue && |r| <= Seqs.Count(h, InProgress)
    ensures |r| == if Seqs.Count(h, InProgress) < MaxContinue then Seqs.Count(h, InProgress) else MaxContinue
    ensures forall i :: 0 <= i < |r| ==> InProgress(r[i]) && r[i] in h
    ensures r == Seqs.Filter(h, InProgress)[..|r|]
    ensures Seqs.Count(h, InProgress) <= MaxContinue ==> forall i :: 0 <= i < |h| && InProgress(h[i]) ==> h[i] in r
  {
    Seqs.Take(Seqs.Filter(h, InProgress), MaxContinue)
  }

  /** Progress updates, completion and removal keep history episodes unique, and after
      `markCompleted(e)` no entry for `e` is on the "continue watching" shelf. */
  lemma HistoryUpdatesSpec(h: seq<HistoryItem>, episodeId: string, progress: real, duration: real, id: string, now: string)
    ensures UniqueEpisodes(h) ==> UniqueEpisodes(UpdateProgress(h, episodeId, progress, duration, now))
    ensures UniqueEpisodes(h) ==> UniqueEpisodes(MarkCompleted(h, episodeId, now))
    ensures UniqueEpisodes(h) ==> UniqueEpisodes(RemoveFromHistory(h, id))
    ensures forall i :: 0 <= i < |GetContinueWatching(MarkCompleted(h, episodeId, now))| ==>
      GetContinueWatching(MarkCompleted(h, episodeId, now))[i].episodeId != episodeId
  {
    if UniqueEpisodes(h) {
      FilterUniqueEpisodes(h, OtherEntry(id));
    }
  }

  /** After `updateProgress(e, p, d)` the entry `getHistoryItem(e)` finds carries the new
      progress and duration; whether it exists is unchanged. */
  lemma UpdateProgressThenGet(h: seq<HistoryItem>, episodeId: string, progress: real, duration: real, now: string)
    ensures var g := GetHistoryItem(UpdateProgress(h, episodeId, progress, duration, now), episodeId);
      && (g.Some? <==> GetHistoryItem(h, episodeId).Some?)
      && (g.Some? ==> g.value.progressSeconds == progress && g.value.durationSeconds == duration)
  {
    var r := UpdateProgress(h, episodeId, progress, duration, now);
    var g := GetHistoryItem(r, episodeId);
    if g.Some? {
      var i :| 0 <= i < |r| && r[i] == g.value;
    }
  }

  // ---------------------------------------------------------------------
  // Watchlist

  /** No two watchlist entries are for the same anime. */
  predicate UniqueAnime(w: seq<WatchlistItem>)
  {
    forall i, j :: 0 <= i < j < |w| ==> w[i].animeId != w[j].animeId
  }

  function OfAnime(animeId: string): WatchlistItem -> bool
  {
    (x: WatchlistItem) => x.animeId == animeId
  }

  function OtherAnime(animeId: string): WatchlistItem -> bool
  {
    (x: WatchlistItem) => x.animeId != animeId
  }

  /** `isInWatchlist`. */
  predicate IsInWatchlist(w: seq<WatchlistItem>, animeId: string)
  {
    Seqs.Any(w, OfAnime(animeId))
  }

  /** `addToWatchlist`: a no-op when the anime is listed, else the item, with the fresh
      id `newId` and creation time `now`, is put first. */
  function AddToWatchlist(w: seq<WatchlistItem>, item: WatchlistItem, newId: string, now: string): (r: seq<WatchlistItem>)
    ensures IsInWatchlist(w, item.animeId) ==> r == w
    ensures !IsInWatchlist(w, item.animeId) ==> r == [item.(id := newId, createdAt := now)] + w
  {
    if IsInWatchlist(w, item.animeId) then w else [item.(id := newId, createdAt := now)] + w
  }

  /** `removeFromWatchlist`: drops the entries for the anime, keeping the order of the rest. */
  function RemoveFromWatchlist(w: seq<WatchlistItem>, animeId: string): (r: seq<WatchlistItem>)
    ensures forall i :: 0 <= i < |r| ==> r[i].animeId != animeId && r[i] in w
    ensures forall i :: 0 <= i < |w| && w[i].animeId != animeId ==> w[i] in r
    ensures Seqs.IsSubsequence(r, w)
    ensures forall x :: multiset(r)[x] == if x.animeId != animeId then multiset(w)[x] else 0
  {
    Seqs.FilterKeepsOrder(w, OtherAnime(animeId));
    Seqs.Filter(w, OtherAnime(animeId))
  }

  /** `updateWatchlistStatus`: only the status of the anime's entries changes. */
  function UpdateWatchlistStatus(w: seq<WatchlistItem>, animeId: string, status: WatchStatus): (r: seq<WatchlistItem>)
    ensures |r| == |w|
    ensures forall i :: 0 <= i < |w| ==> r[i] == w[i].(status := r[i].status)
    ensures forall i :: 0 <= i < |w| ==> r[i].status == if w[i].animeId == animeId then status else w[i].status
  {
    seq(|w|, i requires 0 <= i < |w| => if w[i].animeId == animeId then w[i].(status := status) else w[i])
  }

  /** After adding, the anime is listed; after removing, it is not; every watchlist action
      keeps anime unique. */
  lemma WatchlistSpec(w: seq<WatchlistItem>, item: WatchlistItem, newId: string, now: string, animeId: string, status: WatchStatus)
    ensures IsInWatchlist(AddToWatchlist(w, item, newId, now), item.animeId)
    ensures !IsInWatchlist(RemoveFromWatchlist(w, animeId), animeId)
    ensures UniqueAnime(w) ==> UniqueAnime(AddToWatchlist(w, item, newId, now))
    ensures UniqueAnime(w) ==> UniqueAnime(RemoveFromWatchlist(w, animeId))
    ensures UniqueAnime(w) ==> UniqueAnime(UpdateWatchlistStatus(w, animeId, status))
  {
    var r := AddToWatchlist(w, item, newId, now);
    if !IsInWatchlist(w, item.animeId) {
      assert r[0].animeId == item.animeId;
    }
    RemovedNotListed(w, animeId);
    if UniqueAnime(w) {
      FilterUniqueAnime(w, OtherAnime(animeId));
    }
  }

  /** No entry of the removed anime is left. */
  lemma RemovedNotListed(w: seq<WatchlistItem>, animeId: string)
    ensures !IsInWatchlist(RemoveFromWatchlist(w, animeId), animeId)
  {
    var r := RemoveFromWatchlist(w, animeId);
    assert forall i :: 0 <= i < |r| ==> !OfAnime(animeId)(r[i]);
  }

  /** Filtering keeps anime unique. */
  lemma {:induction false} FilterUniqueAnime(w: seq<WatchlistItem>, p: WatchlistItem -> bool)
    requires UniqueAnime(w)
    ensures UniqueAnime(Seqs.Filter(w, p))
  {
    if |w| > 0 {
      FilterUniqueAnime(w[1..], p);
      var rest := Seqs.Filter(w[1..], p);
      forall i | 0 <= i < |rest| ensures rest[i].animeId != w[0].animeId {
        var j :| 0 <= j < |w[1..]| && w[1..][j] == rest[i];
      }
    }
  }
}

=== FILE: wrappers.dfy ===
/** Failure-carrying wrappers shared by every module of the model. */
module Wrappers {

  /** A value that may be absent: JavaScript's `undefined` / `null`. */
  datatype Option<+T> = None | Some(value: T) {

    /** The wrapped value, or `default` when absent (JavaScript's `a || b` on objects). */
    function GetOr(default: T): T {
      match this
      case Some(v) => v
      case None => default
    }
  }

  /** Either a value or an error message (a thrown `Error` in the source). */
  datatype Result<+R> = Ok(value: R) | Err(message: string)
}
